=== FILE: README.md ===
# NetSpoofer core, modelled in Dafny

NetSpoofer is a Windows LAN tool. It finds the hosts on the local subnet and
poisons their ARP caches so their traffic passes through this machine. It
then forwards that traffic between each target and the gateway. On the way
it can block a host, throttle it with token-bucket limiters, forge DNS
answers for chosen domains, show a live packet list, and show per-host
bandwidth.

This project models the logic of those services as pure Dafny functions over
immutable data, and proves what each one promises:

- the subnet sweep (address arithmetic, probe plan, upsert into the host list);
- the ARP reply frame and the spoofing loop;
- DNS question parsing and the forged A response;
- DNS rule matching;
- the forwarding decision (block, readdress, throttle);
- the token-bucket limiter;
- per-host policies;
- the host tracker's traffic attribution and rate flush;
- the packet monitor's filter and row cap;
- the OUI vendor lookup;
- the main window's assembly of rules, limiters and spoofers.

Modules follow the source's classes:

| module | models |
|---|---|
| `Wrappers`, `Bytes`, `Text`, `Frames` | nullable values, bytes and addresses, .NET string operations, and the parsed frame layers |
| `Models` | `HostEntry`, `DnsRule`, `PacketViewModel`, `PhysicalAddressEx`, the `X2` MAC text |
| `Bits` | the unsigned AND/OR the subnet arithmetic uses, as recursive functions on naturals |
| `SubnetScanner` | `ScanAsync`, `GetRange`, `IpToUInt`/`UIntToIp` |
| `VendorLookup` | the OUI table, `FromMac`, `Norm` |
| `DnsParser`, `DnsSpoofer` | `DnsParser` and `DnsSpoofer.Process` |
| `ArpSpoofer` | the reply frame, `Start`/`Stop`, and the send loop |
| `BandwidthLimiter` | `Refill` and `Throttle` |
| `HostPolicy` | `HostPolicyManager` |
| `CaptureManager` | targets, `Forward`, and one turn of the capture loop |
| `HostTracker` | `Record`, `Track`, `IsLan`, and the one-second flush |
| `PacketMonitor` | `OnPacket`, `PassesFilter`, `SetUiFilter` |
| `MainWindow` | the DNS rule form, the session limiter, `ApplyHostPolicy`, `SetupArpAndForward`, gateway auto-detection |

Foreign effects are parameters:

- **ARP resolution (`SendARP`):** a function `IpAddress -> Option<MacAddress>`.
- **Ping and resolve outcomes of a sweep:** a function from address to `ProbeResult`.
- **The interface lookup:** an `Option<InterfaceAddress>`.
- **`IPAddress.TryParse`:** a function `string -> Option<IpAddress>`.
- **The default-gateway lookup:** an `Option`.
- **`Environment.TickCount64`:** the sequence of readings a throttle call would observe.
- **Packet injection:** each service returns the frames it sends, and the loops return traces.

Object references are modelled too. The host list is a `seq<HostEntry>`. The
tracker refers to entries by position in that list, because that is how its
map and the window's list alias the same objects.

## Model

| member | source | states |
|---|---|---|
| Models.NewHostEntry | Models/HostEntry.cs:11-36 | A new entry has the given IP, MAC text and time, an empty name, no block, no caps (0) and zero rates. |
| Models.FormatMac | Services/HostTracker.cs:94-97 | The MAC text splits back at ':' into exactly one upper-case two-digit hex pair per octet, and has length 3n-1. |
| Models.PhysicalAddressText | Services/PhysicalAddressEx.cs:9 | The dashed text of a hardware address splits at '-' into one upper-case hex pair per byte, and has length 3n-1. |
| Models.IndexOfIp | Services/SubnetScanner.cs:32 | FirstOrDefault by IP: it finds nothing exactly when no entry has the IP; otherwise it is the first entry with it. |
| Text.ContainsIffOccurs | Services/PacketMonitor.cs:24 | `Contains` holds exactly when the needle occurs at some position of the text. |
| Text.JoinSplit | Services/DnsSpoofer.cs:61 | Joining the pieces of a split with the same separator gives the text back. |
| Text.SplitJoin | Services/DnsSpoofer.cs:64 | Splitting a join of separator-free pieces gives the pieces back. |
| Text.Trim | MainWindow.xaml.cs:51 | The trimmed text is the input with only white space removed before and after it, and it has no white space at either end; it is empty exactly when the input is blank. |
| Bytes.U16BytesInverse | Services/DnsSpoofer.cs:65 | Writing a 16-bit value as high and low bytes, then reading `(hi << 8) + lo`, round-trips. |
| DnsParser.IsResponseIsQrBit | Services/DnsSpoofer.cs:26-28 | `flags & 0x8000` is set exactly when the decoded QR bit says response. |
| DnsParser.AsciiDecodeEncode | Services/DnsSpoofer.cs:59 | ASCII-decoding the ASCII encoding of an ASCII string returns it. |
| DnsParser.ReadName | Services/DnsSpoofer.cs:56-62 | A successful read ends just past a zero byte inside the message. |
| DnsParser.ReadNameLabels | Services/DnsSpoofer.cs:56-62 | Every label read has 1..255 characters, all ASCII: a zero length byte ends the loop, and bytes above 0x7F decode as '?'. |
| DnsParser.ReadNameTruncate | Services/DnsSpoofer.cs:56-62 | Cutting the message anywhere before the end of the name makes the read fail (the C# index exception) instead of reading past the end. |
| DnsParser.ParseQuestion | Services/DnsSpoofer.cs:48-55 | A parsed question needs at least 17 bytes and has an ASCII name. |
| DnsParser.ParseQuestionPrefix | Services/DnsSpoofer.cs:48-55 | Trailing bytes do not change a parsed question, and every cut before the question's end yields null. |
| DnsParser.EncodeLabelsLength | Services/DnsSpoofer.cs:64 | The encoded labels take exactly `sum(1 + len(part))` bytes, the `nameLen` the buffers are sized by. |
| DnsParser.AnswerSection | Services/DnsSpoofer.cs:73-80 | The answer takes the name's length plus 14 bytes. |
| DnsParser.AnswerSectionFields | Services/DnsSpoofer.cs:73-80 | The answer is the encoded name, type A, class IN, TTL 60, RDLENGTH 4, then the first four address bytes. |
| DnsParser.QuestionSectionFields | Services/DnsSpoofer.cs:70-72 | The echoed question is the encoded name followed by the query's type and class, big-endian. |
| DnsParser.ResponseHeaderBytes | Services/DnsSpoofer.cs:65-69 | The header bytes hold the ID big-endian, flags 0x8180 (QR, RD and RA set; opcode and RCODE 0), QDCOUNT 1, ANCOUNT 1, NSCOUNT 0 and ARCOUNT 0. |
| DnsParser.ReadEncodedLabels | Services/DnsSpoofer.cs:56-64 | Reading well-formed labels written one by one as length byte plus ASCII bytes gives them back, stopping just past the zero byte. |
| DnsParser.BuildAResponse | Services/DnsSpoofer.cs:63-86 | The response is header, then the echoed question, then the answer, at the stated offsets and total length. |
| DnsParser.ResponseHeaderFields | Services/DnsSpoofer.cs:65-69 | The header carries the query's ID, flags QR/RD/RA with RCODE 0, one question, one answer, and no other records. |
| DnsParser.ResponseQuestionFields | Services/DnsSpoofer.cs:70-72 | The question section echoes the encoded name, type and class at offset 12. |
| DnsParser.ParseBuiltResponse | Services/DnsSpoofer.cs:48-86 | Round trip: parsing the question of a built response returns the original name, type and class, for any name whose '.'-separated labels are all 1..255 ASCII characters. |
| DnsSpoofer.RuleMatchesAtLabelBoundary | Services/DnsSpoofer.cs:32 | A rule matches exactly the domain itself or a name ending in "." + domain. |
| DnsSpoofer.SiblingDoesNotMatch | Services/DnsSpoofer.cs:32 | "notexample.com" does not match "example.com"; "www.example.com" and "example.com" do. |
| DnsSpoofer.FirstMatch | Services/DnsSpoofer.cs:32-33 | FirstOrDefault over the rules: the first matching rule, and none exactly when no rule matches. |
| DnsSpoofer.Process | Services/DnsSpoofer.cs:17-44 | A reply is forged exactly for a UDP-to-53 query of at least 12 bytes with the QR bit clear, a parsable question, and a matching rule. The reply goes back from port 53 to the querier's port, with the IPs swapped, from our NIC MAC to the querier's MAC. |
| DnsSpoofer.ForgedAnswer | Services/DnsSpoofer.cs:35-40 | The forged payload echoes the query ID, has response flags, and answers with the first matching rule's address. When every label of the name is 1..255 ASCII characters, its question parses back to the query's question. |
| DnsSpoofer.UnmatchedNameIsIgnored | Services/DnsSpoofer.cs:31-33 | A query no rule matches (after lower-casing) gets no reply. |
| ArpSpoofer.BuildArpReply | Services/ArpSpoofer.cs:54-69 | The frame is 42 bytes. |
| ArpSpoofer.BuiltReplyParses | Services/ArpSpoofer.cs:45-73 | The frame reads back as an Ethernet ARP reply to the victim from the device MAC. It says the spoofed IP is at our NIC MAC, and it targets the victim's MAC and IP. |
| ArpSpoofer.Resolve | Services/ArpSpoofer.cs:32-33 | `??=`: a cached MAC is kept; only a missing one is resolved. |
| ArpSpoofer.Cycle | Services/ArpSpoofer.cs:37-41 | One pass sends the target reply and then the gateway reply, and sleeps 1500 ms. A send that throws cuts the pass short and sleeps 1000 ms. |
| ArpSpoofer.Loop | Services/ArpSpoofer.cs:31-43 | The loop gives up without sending exactly when either MAC stays unresolved. |
| ArpSpoofer.OnlyStopEndsTheLoop | Services/ArpSpoofer.cs:29-42 | The loop reads the spoofer's own flag: a running spoofer runs one pass per check until the first check after a Stop call and ends exactly there; send failures never end it, and a spoofer whose flag is clear runs no pass. |
| ArpSpoofer.StopEndsTheLoop | Services/ArpSpoofer.cs:29-36 | After a Stop call the next check ends the loop: every frame, sleep and pass comes from the checks before the call. |
| ArpSpoofer.StartedLoopRuns | Services/ArpSpoofer.cs:24-36 | After Start, with both MACs resolved, the thread runs one pass per check until the first Stop; a spoofer stopped before its first check sends nothing. |
| ArpSpoofer.TwoRepliesPerCycle | Services/ArpSpoofer.cs:38-40 | With all sends succeeding, the frames alternate target reply and gateway reply, two per pass, each pass sleeping 1500 ms. |
| ArpSpoofer.EveryFrameIsOurReply | Services/ArpSpoofer.cs:38-39 | Every frame the loop sends is an ARP reply whose sender MAC is our NIC's. |
| VendorLookup.Lookup | Services/VendorLookup.cs:7 | Case-insensitive dictionary: found exactly when some key equals the query ignoring case, and then that key's vendor. |
| VendorLookup.LookupIgnoresCase | Services/VendorLookup.cs:7 | Keys that differ only in letter case look up the same vendor. |
| VendorLookup.ParseHexByte | Services/VendorLookup.cs:40 | The part, with any trailing '\0' characters and then the surrounding number white space removed, parses exactly when it is a non-empty run of hex digits whose value fits in a byte, and then gives that value. |
| VendorLookup.Norm | Services/VendorLookup.cs:40 | Norm succeeds exactly when the part parses as a hex byte, and then gives its two upper-case digits. |
| VendorLookup.ParseHex2 | Services/VendorLookup.cs:40 | Round trip: two digits printed by `X2` parse back to the same byte. |
| VendorLookup.NormIdempotent | Services/VendorLookup.cs:40 | Normalising a normalised part changes nothing. |
| VendorLookup.NormHexPair | Services/VendorLookup.cs:40 | A part that trims to two hex digits of either case normalises to their value in upper-case `X2`. |
| VendorLookup.OuiOf | Services/VendorLookup.cs:35 | The key exists exactly when all three parts normalise, and it splits at ':' into the three normalised parts. |
| VendorLookup.ClassifyParts | Services/VendorLookup.cs:34 | Fewer than three parts give "Unknown Vendor". |
| VendorLookup.FromMac | Services/VendorLookup.cs:30-38 | A null or blank MAC gives "Unknown Vendor". |
| VendorLookup.DashIsColon | Services/VendorLookup.cs:33 | Dashes and colons are interchangeable separators. |
| VendorLookup.LaterPartsIgnored | Services/VendorLookup.cs:33-35 | Only the first three parts matter. |
| VendorLookup.FormattedMacVendor | Services/VendorLookup.cs:30-38 | For a MAC in the trackers' X2 format, the vendor is the table entry for its first three octets, or "Unknown Vendor". |
| VendorLookup.ThreePartVendor | Services/VendorLookup.cs:30-35 | "p0:p1:p2" with separator-free parts and a non-blank start is classified by exactly those three parts. |
| VendorLookup.OneDigitPartPadded | Services/VendorLookup.cs:40 | "0" normalises to "00". |
| VendorLookup.LowerCasePartUpperCased | Services/VendorLookup.cs:40 | "1c" normalises to "1C". |
| VendorLookup.PaddedPartTrimmed | Services/VendorLookup.cs:40 | " b3" normalises to "B3". |
| VendorLookup.BadPartsRejected | Services/VendorLookup.cs:40 | "100", "" and "g1" do not parse. |
| VendorLookup.CanonicalAppleKey | Services/VendorLookup.cs:9 | "00:1C:B3" is Apple. |
| VendorLookup.ShortFormIsApple | Services/VendorLookup.cs:30-40 | "0:1c:b3" is Apple too, through Norm. |
| VendorLookup.NulPaddingIgnored | Services/VendorLookup.cs:40 | A '\0' after a part does not change how it parses. |
| VendorLookup.TrailingNulAccepted | Services/VendorLookup.cs:40 | "1C\0" normalises to "1C". |
| VendorLookup.NulBeforeWhiteRejected | Services/VendorLookup.cs:40 | "1C\0 " does not parse, because the '\0' is followed by white space. |
| VendorLookup.TrailingNulStillApple | Services/VendorLookup.cs:30-40 | "00:1C:B3\0" is still Apple. |
| SubnetScanner.IpToUInt | Services/SubnetScanner.cs:95 | Big-endian: the top byte of the number is the first octet. |
| SubnetScanner.IpToUIntInverse | Services/SubnetScanner.cs:95-96 | `UIntToIp(IpToUInt(o)) == o`. |
| SubnetScanner.UIntToIpInverse | Services/SubnetScanner.cs:95-96 | `IpToUInt(UIntToIp(u)) == u`. |
| SubnetScanner.UIntToIpInjective | Services/SubnetScanner.cs:96 | Distinct numbers give distinct addresses. |
| SubnetScanner.Wrap | Services/SubnetScanner.cs:82-83 | `uint` arithmetic wraps modulo 2^32. |
| SubnetScanner.AndWord | Services/SubnetScanner.cs:80 | `a & b` is at most each operand. |
| SubnetScanner.GetRange | Services/SubnetScanner.cs:77-85 | The network is `ip & mask` and the broadcast is `network OR ~mask`. Start and end are one past the network and one before the broadcast, wrapped. |
| SubnetScanner.RangeShape | Services/SubnetScanner.cs:77-85 | For any mask but all-ones, the broadcast is `network + ~mask`, and start..end are the addresses strictly between them. |
| SubnetScanner.HostMaskRange | Services/SubnetScanner.cs:77-85 | With mask 255.255.255.255, network and broadcast are the address itself, and the wrapped count `end - start + 1` is 2^32 - 1. |
| SubnetScanner.WrappedCountOfEmptyRange | Services/SubnetScanner.cs:17 | When start and end wrap around one address, the task count is 2^32 - 1. |
| SubnetScanner.Interval | Services/SubnetScanner.cs:20 | The `for (u = start; u <= end; u++)` walk: start, start+1, ..., end, and empty when start > end. |
| SubnetScanner.PlanScan | Services/SubnetScanner.cs:13-17 | The sweep probes nothing exactly when the interface lookup fails. |
| SubnetScanner.HostMaskFaults | Services/SubnetScanner.cs:15-17 | A /32 mask makes the task array too long: the scan faults before probing. |
| SubnetScanner.PlanCoversHostAddresses | Services/SubnetScanner.cs:15-21 | For a proper mask, the scan faults exactly when the host count exceeds the array limit. Otherwise it probes every address strictly between network and broadcast, in order. |
| SubnetScanner.PlanOfProperRange | Services/SubnetScanner.cs:17-21 | The same, for any range with start and end inside network and broadcast. |
| SubnetScanner.ContiguousMaskStaysInNetwork | Services/SubnetScanner.cs:77-85 | For a contiguous mask with k host bits, the block holds 2^k addresses, and a /31 probes none. Every probed address lies in the interface's network. |
| SubnetScanner.MacText | Services/SubnetScanner.cs:29 | The MAC text is empty exactly when no MAC resolved; otherwise it splits into the MAC's hex pairs. |
| SubnetScanner.Upsert | Services/SubnetScanner.cs:30-41 | A new IP is appended with MAC, vendor and time. An existing entry has only Mac, Vendor and LastSeen overwritten, in place. |
| SubnetScanner.UpsertKeepsOneEntryPerIp | Services/SubnetScanner.cs:30-41 | The upsert keeps one entry per IP, every entry keeps its IP, and the IP is then listed with the new MAC text. |
| SubnetScanner.Record | Services/SubnetScanner.cs:28-41 | A probe changes the list exactly by an upsert when the host answered a ping or its MAC resolved. |
| SubnetScanner.RecordGrowth | Services/SubnetScanner.cs:33-36 | A probe keeps the IP at every listed position; one that lengthens the list appended one entry, for the probed address, which was discovered. |
| SubnetScanner.SweepKeepsIps | Services/SubnetScanner.cs:28-36 | A sweep never moves or re-addresses an entry listed before it. |
| SubnetScanner.ApplyProbes | Services/SubnetScanner.cs:20-56 | The sweep never shortens the list. |
| SubnetScanner.Scan | Services/SubnetScanner.cs:12-59 | With no interface, or a faulting range, the list is untouched. |
| SubnetScanner.SweepKeepsEntries | Services/SubnetScanner.cs:20-56 | A sweep keeps one entry per IP, and every listed entry keeps its position and IP. |
| SubnetScanner.SweepRecordsDiscoveries | Services/SubnetScanner.cs:20-56 | After a sweep over distinct addresses, every discovered address is listed with its probe's MAC text. |
| SubnetScanner.SweepAddsOnlyDiscoveries | Services/SubnetScanner.cs:28-36 | Every entry a sweep appends is a discovered target's address. |
| SubnetScanner.LaterTargetsKeepEntry | Services/SubnetScanner.cs:32-40 | Probes of other addresses leave an entry's MAC text alone. |
| HostTracker.IsLanIsPrivateBlock | Services/HostTracker.cs:51-55 | An address is LAN-like exactly when it is IPv4 in 10.0.0.0/8, 172.16.0.0/12 or 192.168.0.0/16. |
| HostTracker.NewTracker | Services/HostTracker.cs:22-23 | A new tracker has the gateway, no entries and empty counters. |
| HostTracker.Touch | Services/HostTracker.cs:72-74 | Sighting an entry sets its MAC, vendor and time and nothing else. |
| HostTracker.TrackAsWritten | Services/HostTracker.cs:57-75 | As written: non-LAN addresses are ignored, and the counters and gateway are untouched. |
| HostTracker.TrackAsWrittenDuplicates | Services/HostTracker.cs:59-62 | As written, an address already in the shared list but new to the tracker is appended a second time. |
| HostTracker.TrackAsWrittenKeepsSoundRefs | Services/HostTracker.cs:57-75 | The source's Track, duplicates included, keeps every tracked address pointing at an entry for that address. |
| HostTracker.ScanThenCaptureListsHostTwice | Services/HostTracker.cs:59-62 | A sweep finds 192.168.1.10, then the tracker sees it: the list holds it twice. |
| HostTracker.Track | Services/HostTracker.cs:57-75 | Corrected: non-LAN addresses are ignored, and the counters and gateway are untouched. |
| HostTracker.TrackAsWrittenAgrees | Services/HostTracker.cs:57-75 | The two agree whenever the address is tracked already or not listed at all. |
| HostTracker.TrackKeepsValid | Services/HostTracker.cs:57-75 | Tracking keeps one entry per IP and every reference sound; a LAN address is tracked afterwards, and earlier references do not move. |
| HostTracker.TrackRecordsSighting | Services/HostTracker.cs:57-75 | A tracked LAN address's entry then has the frame's MAC text and time; the list grows by one exactly when no entry had the address. |
| HostTracker.TrackKeepsOthers | Services/HostTracker.cs:57-75 | Entries for other addresses are unchanged and the list never shrinks. |
| HostTracker.AddBytes | Services/HostTracker.cs:40 | AddOrUpdate adds the bytes to one address's counter and leaves the others. |
| HostTracker.CountAfterAdd | Services/HostTracker.cs:40 | After AddOrUpdate, a counter reads its old value plus the bytes when it is the updated address, else its old value. |
| HostTracker.Attribute | Services/HostTracker.cs:36-48 | Attribution leaves the gateway and the tracked entries alone. |
| HostTracker.AttributeShares | Services/HostTracker.cs:37-48 | With a gateway: from-gateway bytes count as the destination's download, and to-gateway bytes as the source's upload. Without one: source upload plus destination download. |
| HostTracker.Record | Services/HostTracker.cs:28-31 | Corrected, over the corrected Track: a frame without Ethernet or IPv4 changes nothing. |
| HostTracker.RecordCounts | Services/HostTracker.cs:28-49 | Corrected: recording with the corrected Track keeps the state valid and tracks both LAN endpoints. Every counter grows by exactly its share of the frame's length. |
| HostTracker.RecordAsWritten | Services/HostTracker.cs:28-49 | As written, over the source's Track: a frame without Ethernet or IPv4 changes nothing. |
| HostTracker.RecordAsWrittenCounts | Services/HostTracker.cs:28-49 | As written: both LAN endpoints are tracked, no tracked address is forgotten, and every counter grows by exactly its share of the frame's length. |
| HostTracker.NewTrackerSynced | Services/HostTracker.cs:57-62 | A new tracker knows every listed host exactly when the list is empty. |
| HostTracker.TrackKeepsSynced | Services/HostTracker.cs:57-75 | While every listed host is tracked, the source's Track equals the corrected one and keeps that so. |
| HostTracker.RecordAsWrittenAgrees | Services/HostTracker.cs:28-62 | While every listed host is tracked, Record as written equals the corrected Record and keeps the state synced. |
| HostTracker.Flush | Services/HostTracker.cs:80-90 | The flush keeps the list length and clears both counters. |
| HostTracker.FlushSetsTrackedRates | Services/HostTracker.cs:80-90 | Whenever every tracked address points at an entry for it, even with the same address listed twice: each tracked host's rates become its counters / 1024, with no other field touched. Entries the tracker does not point at are untouched, and one entry per address is kept when it held before. |
| HostTracker.SweepKeepsTrackerValid | Services/SubnetScanner.cs:30-41 | A sweep writing into the shared list keeps the tracker's references valid. |
| BandwidthLimiter.NewLimiter | Services/BandwidthLimiter.cs:12-14 | A new limiter has the given rates and delay, empty buckets, and the current time. |
| BandwidthLimiter.Fill | Services/BandwidthLimiter.cs:17-18 | A bucket gains `dt * rate` tokens, capped at the rate. |
| BandwidthLimiter.Refill | Services/BandwidthLimiter.cs:15-19 | A refill caps both buckets at their rates, keeps rates and delay, and sets the time to now. |
| BandwidthLimiter.FillComposes | Services/BandwidthLimiter.cs:17-18 | For a non-negative rate, filling for a then b equals filling for a + b. |
| BandwidthLimiter.RefillComposes | Services/BandwidthLimiter.cs:15-19 | For non-negative rates and a clock that does not go back, two refills equal one refill to the later time. |
| BandwidthLimiter.Take | Services/BandwidthLimiter.cs:25 | Taking removes the bytes from one bucket only. |
| BandwidthLimiter.Await | Services/BandwidthLimiter.cs:22-25 | A grant consumes between 1 and all of the clock readings. |
| BandwidthLimiter.AwaitFirstSufficient | Services/BandwidthLimiter.cs:22-25 | The call waits on exactly when no reading leaves enough tokens. Otherwise it returns at the first reading that does, with the bytes taken from the refilled bucket. |
| BandwidthLimiter.RefillAllIsOneRefill | Services/BandwidthLimiter.cs:24 | With non-negative rates and a clock that does not go back, refilling at every reading equals one refill to the last. |
| BandwidthLimiter.OversizeNeverGranted | Services/BandwidthLimiter.cs:17-24 | A frame larger than the rate is never let through, since the bucket is capped at the rate. |
| BandwidthLimiter.NoTimeNoTokens | Services/BandwidthLimiter.cs:24 | With an empty bucket and a clock that does not move, the call waits forever. |
| BandwidthLimiter.GrantLeavesBuckets | Services/BandwidthLimiter.cs:22-25 | After a grant, the bucket holds between 0 and `rate - bytes` tokens. The other bucket is just refilled, and the time is the last reading used. |
| BandwidthLimiter.Throttle | Services/BandwidthLimiter.cs:22-27 | A granted call sleeps the extra delay exactly when it is positive. |
| BandwidthLimiter.AwaitExtraSleep | Services/BandwidthLimiter.cs:26 | The extra sleep is the delay when positive, else none. |
| HostPolicy.NewPolicy | Services/HostPolicyManager.cs:23-26 | A policy has the flag and a new limiter with the given rates and delay and empty buckets. |
| HostPolicy.SetPolicy | Services/HostPolicyManager.cs:8-10 | SetPolicy replaces this address's policy outright and keeps every other address's. |
| HostPolicy.GetLimiter | Services/HostPolicyManager.cs:16-18 | GetLimiter returns null exactly for an address without a policy, and otherwise the policy's limiter. |
| HostPolicy.PutLimiter | Services/HostPolicyManager.cs:22 | The limiter a throttle mutates is written back into its own policy only. |
| HostPolicy.SetThenQuery | Services/HostPolicyManager.cs:8-18 | After SetPolicy, the address reports the new flag and a fresh limiter, and other addresses answer as before. |
| HostPolicy.KeysOnlyGrow | Services/HostPolicyManager.cs:6-18 | No sequence of operations removes a policy; every address set has one. |
| CaptureManager.NewCapture | Services/CaptureManager.cs:25 | A new manager is stopped, not forwarding, with no targets, limiter, policies, gateway or DNS spoofer. |
| CaptureManager.AddTarget | Services/CaptureManager.cs:30 | TryAdd adds the address with no MAC, and keeps an existing target's cached MAC. |
| CaptureManager.RemoveTarget | Services/CaptureManager.cs:31 | TryRemove drops the address only. |
| CaptureManager.Stop | Services/CaptureManager.cs:41 | Stop clears running only. |
| CaptureManager.StopIdempotent | Services/CaptureManager.cs:41 | Stopping twice is stopping once. |
| CaptureManager.ChooseLimiter | Services/CaptureManager.cs:67 | `GetLimiter(ip) ?? _limiter`: the host's limiter when it has a policy, else the session limiter. Unlimited exactly when neither exists. |
| CaptureManager.Readdress | Services/CaptureManager.cs:64-65 | Readdressing sets both MACs and keeps the IP, transport layers and length. |
| CaptureManager.ClassifyIgnores | Services/CaptureManager.cs:54-59 | Non-IPv4 frames, a missing gateway IP, or an unresolvable gateway MAC are ignored. |
| CaptureManager.GatewayMacCached | Services/CaptureManager.cs:58 | `??=`: a cached gateway MAC is kept, a missing one is resolved, and no resolved target MAC is lost. |
| CaptureManager.Upstream | Services/CaptureManager.cs:62-70 | Target-to-gateway traffic is dropped when the target is blocked. Otherwise it is sent upstream to the gateway MAC from our MAC under the target's limiter. |
| CaptureManager.Downstream | Services/CaptureManager.cs:72-81 | Gateway-to-target traffic resolves and caches the target MAC, and is dropped when the target is blocked. Otherwise it is sent downstream to the target MAC (else the original destination) from our MAC. |
| CaptureManager.OnlyTargetTrafficIsSent | Services/CaptureManager.cs:53-82 | Only traffic between an unblocked target and the gateway is ever forwarded, with only the MACs changed. |
| CaptureManager.LimiterOf | Services/CaptureManager.cs:67 | Unlimited means no limiter; the session choice is the session limiter. |
| CaptureManager.StoreLimiter | Services/CaptureManager.cs:67-79 | The throttled limiter lands where the choice reads it; every other choice reads as before, and no block flag, target or address changes. |
| CaptureManager.Forward | Services/CaptureManager.cs:53-82 | Only a Send verdict sends, and it sends exactly that frame. With no limiter it sends at once. With a limiter it sends exactly when the throttle grants, stalls exactly when it keeps waiting, and the throttled limiter is stored in its place. The manager after the call is the classified one with only that limiter replaced: cached MACs, targets, flags, DNS spoofer and block flags are kept. |
| CaptureManager.PolicyTargetUsesHostLimiter | Services/CaptureManager.cs:67-79 | A host with a policy is throttled by its own limiter, never by the session limiter. |
| CaptureManager.OversizeFrameStalls | Services/CaptureManager.cs:66-69 | A frame larger than its limiter's rate stalls the forwarder and is never sent. |
| CaptureManager.Step | Services/CaptureManager.cs:43-51 | A running manager takes the oldest queued frame and reports it first. A stopped manager or an empty queue changes nothing. |
| CaptureManager.StepOrder | Services/CaptureManager.cs:44-50 | Per frame: observers, then the DNS spoofer's reply if any, then forwarding when enabled, in that order. |
| PacketMonitor.NewMonitor | Services/PacketMonitor.cs:8 | The filter starts empty. |
| PacketMonitor.SetUiFilter | Services/PacketMonitor.cs:10 | A null filter is stored as "". |
| PacketMonitor.PassesFilterIff | Services/PacketMonitor.cs:21-26 | A blank filter passes all rows. Otherwise a row passes exactly when the filter occurs, ignoring case, in its source, destination, protocol or info. |
| PacketMonitor.Summarize | Services/PacketMonitor.cs:12-16 | The row holds the EtherType name, the dotted IPv4 addresses, TCP ports before UDP ports before the EtherType name, and the frame length. Missing layers give "". |
| PacketMonitor.Append | Services/PacketMonitor.cs:18-19 | Appending to a full list drops the oldest row. |
| PacketMonitor.OnPacket | Services/PacketMonitor.cs:11-20 | A filtered-out frame leaves the list. A passing one becomes the last row. |
| PacketMonitor.OnPacketKeepsLatest | Services/PacketMonitor.cs:17-19 | One frame keeps the last 5000 of the list plus its row. |
| PacketMonitor.FeedKeepsLatestRows | Services/PacketMonitor.cs:11-20 | After any run of frames, the list is the latest 5000 passing rows in arrival order. |
| PacketMonitor.BareFramePassesOnlyBlank | Services/PacketMonitor.cs:12-17 | A frame with no known layers passes only a blank filter. |
| MainWindow.AddDnsRule | MainWindow.xaml.cs:49-54 | The rule is added, and both fields cleared, exactly when the IP parses and the domain is not blank. The domain is trimmed and lower-cased. |
| MainWindow.AddedDomainIsNormalised | MainWindow.xaml.cs:51 | An added domain is non-empty, has no edge white space, and is already lower case. |
| MainWindow.MulInt32 | MainWindow.xaml.cs:87 | `int * int` equals the true product when it fits, and is always congruent to it mod 2^32. |
| MainWindow.SessionLimiterAsWritten | MainWindow.xaml.cs:87 | As written, the session rates are `DownKbps * 1024` and `UpKbps * 1024` wrapped to 32 bits. |
| MainWindow.SessionLimiter | MainWindow.xaml.cs:87 | Corrected: the session rates are the exact products. |
| MainWindow.SessionLimiterAgreement | MainWindow.xaml.cs:87 | The two agree exactly when both caps lie in [-2^21, 2^21) KB/s. |
| MainWindow.HugeSessionCapStallsDownloads | MainWindow.xaml.cs:87 | A 2097152 KB/s cap gives rate -2^31 as written, and that limiter then never lets a download through; the corrected rate is 2^31. |
| MainWindow.WiredHostUsesOwnLimiter | MainWindow.xaml.cs:118-131 | A host the window wires has its policy applied before it becomes a target, so it is throttled by its own limiter with the 64-bit rates, never by the session limiter. |
| MainWindow.BytesPerSec | MainWindow.xaml.cs:163-164 | The host's cap when it is positive, else the session's, times 1024 in 64-bit. |
| MainWindow.ApplyHostPolicy | MainWindow.xaml.cs:161-167 | Without a policy store nothing happens. |
| MainWindow.AppliedPolicy | MainWindow.xaml.cs:161-167 | The host is blocked exactly as its entry says. Its fresh limiter has its own positive caps or the session's, and the session delay. Other hosts are untouched. |
| MainWindow.SetupArpAndForward | MainWindow.xaml.cs:150-159 | The host always becomes a forwarding target. |
| MainWindow.SetupKeepsOneSpooferPerHost | MainWindow.xaml.cs:150-159 | At most one spoofer per host. An existing one is kept; a new one is started only with ARP enabled. The call is idempotent. |
| MainWindow.GatewayText | MainWindow.xaml.cs:96-99 | Only a blank gateway field is filled in, with the detected address when there is one. |

## Left out

- Threads, the `Dispatcher`, the concurrent dictionaries and `volatile` flags: each service is a pure function of its state, and each loop is a function over the sequence of events it would see. Interleavings are not modelled.
- The wall clock and `Thread.Sleep`: `TickCount64` is a sequence of readings, and sleeps appear only as durations in traces. `DateTime.UtcNow` and `DateTime.Now` are a single `now` per call.
- Floating point: limiter tokens and rates are exact reals, not `double`. The flush's `Math.Round(x, 1)` is left out; rates are `bytes / 1024` exactly.
- HostTracker.FlushSetsTrackedRates: states the unrounded rate `bytes / 1024`, not `Math.Round(bytes / 1024.0, 1)`.
- 64-bit `long` overflow of the traffic counters and of `bytes * rate` is not modelled; integers are unbounded there.
- Frame serialisation, checksums and `UpdateCalculatedValues`: frames are the parsed layers of `Frames`. Only the ARP frame and the DNS payload are modelled byte for byte.
- Case folding is ASCII-only (`ToLowerInvariant`, `ToUpperInvariant`, `OrdinalIgnoreCase`).
- DnsSpoofer.RuleMatches: compares with `EndsWith` as an ordinal comparison. The source's culture-sensitive `EndsWith` can also differ for non-ASCII names and for names holding characters that culture comparison ignores, such as the ASCII control characters 0x01-0x1F: "www.example.com\u0001" ends with ".example.com" in the source and gets a forged answer, but not in the model.
- `Encoding.ASCII`: label bytes above 0x7F decode to '?'. The round trip is proved for ASCII names only.
- An IPv6 redirect address is truncated to its first four bytes, as `Buffer.BlockCopy(ipb, 0, ans, idx, 4)` does. Its full 16 bytes are not modelled.
- `NameResolver` and the background name lookups of the tracker and the sweep are left out, because they are network calls; the entry's name stays "".
- `ScanAsync`'s `onFound` callback is left out: it only hands the entry to the caller.
- SubnetScanner.ApplyProbes: probe results are applied in address order. The source applies them in completion order, up to 64 at a time. Distinct addresses touch distinct entries, so only the order of appended entries can differ.
- SubnetScanner.Scan: a task array longer than `Array.MaxLength` (0x7FFFFFC7) faults. Running out of memory for a smaller but still huge array is not modelled.
- `TryGetInterfaceIPv4` and `TryGetDefaultGatewayForDevice` are parameters, because they query the operating system. The /24 fallback for a missing mask is modelled.
- HostTracker.RecordCounts: holds for the corrected Record, built on the corrected Track. For the source's composition, HostTracker.RecordAsWrittenCounts states the tracking and the counting; one entry per address holds there only while every listed host is tracked (HostTracker.RecordAsWrittenAgrees), as the first Findings row explains.
- PacketMonitor.Summarize: names only the EtherTypes IPv4, Arp and IPv6 and prints any other as its decimal value. PacketDotNet's `EthernetType` enum names further values (VLAN tags, LLDP and others), whose names the source's Protocol and Info columns show and its filter matches; that enum is not part of this model.
- ArpSpoofer.Loop: Stop calls from other threads are events between the loop's checks. A Start call on a running spoofer, which starts a second loop thread, is not modelled.
- `CaptureManager.SendBytes`: whether the device can inject is not modelled, and sends are returned as frames.
- `CaptureManager.Step`: the loop has no exception handler (Services/CaptureManager.cs:43-51). A throw from `Packet.ParsePacket`, from an `OnPacket` handler, or from `SendPacket` (directly, or inside the DNS spoofer's `Process`) ends the capture thread, and in .NET an exception no code handles ends the process as well. The model treats every parse, handler and send as succeeding and has no failure outcome.
- `CaptureManager.Step`: the application re-applies a host's policy whenever any property of its entry changes (MainWindow.xaml.cs:122, 129, 190), and each `SetPolicy` builds a new limiter with empty buckets (Services/HostPolicyManager.cs:9, 25). The tracker sets the entry's MAC, vendor and last-seen time for every LAN frame (Services/HostTracker.cs:72-74), inside the `OnPacket` handlers that run before `Forward` (Services/CaptureManager.cs:47-49), and the flush's rate writes (Services/HostTracker.cs:86-87) do the same every second. As wired, a tracked target's limiter is therefore replaced by an empty one before almost every forwarded frame, so the frame waits about its length divided by the rate and no tokens carry over. The model leaves this wiring out: `Forward` stores the throttled limiter, and its tokens carry over to the next `Step`.
- `SetupArpAndForward`'s `catch { }` around a null `_cap` is left out; the model always has a capture manager.
- `HostEntry.cs` as shown declares no `Vendor` property, yet the tracker and the sweep assign one. The model gives `HostEntry` a `vendor` field.
- Start-up wiring of services (`AttachBandwidthLimiter`, `AttachHostPolicies`, `AttachDnsSpoof`, `SetGatewayIp`) is modelled as fields of the manager's state, not as separate operations.
- Where the behavioural description and the code differ, the model follows the code:
  - A limiter's buckets start empty, not full.
  - Gateway-to-target traffic whose target MAC does not resolve is still forwarded, to the frame's original destination MAC.

## Findings

| source | as written | input that shows it | evidently intended | confidence | as-written member | corrected member |
|---|---|---|---|---|---|---|
| Services/HostTracker.cs:57-62 | The tracker appends a new entry to the shared host list whenever the address is missing from its own map, without looking in the list. | A sweep lists 192.168.1.10 (Services/SubnetScanner.cs:33-36), then Start (MainWindow.xaml.cs:103) creates a tracker that sees a frame from it: the list now holds 192.168.1.10 twice. | One entry per address: adopt the listed entry if there is one. | not executed | HostTracker.TrackAsWritten (HostTracker.TrackAsWrittenDuplicates, HostTracker.ScanThenCaptureListsHostTwice) | HostTracker.Track (HostTracker.TrackKeepsValid), used by HostTracker.Record (HostTracker.RecordCounts) |
| MainWindow.xaml.cs:87 | `DownKbps * 1024` and `UpKbps * 1024` are computed in 32-bit `int` before widening to `long`. | DownKbps = 2097152 gives the session limiter a download rate of -2147483648 bytes/s, so any download it throttled would wait forever. As wired it is not reached: every target gets a host policy first (MainWindow.xaml.cs:123-124, 130-131, 191-194), and Forward prefers the host's limiter (MainWindow.WiredHostUsesOwnLimiter). | The 64-bit product, as `ApplyHostPolicy` computes it (MainWindow.xaml.cs:163-164). | not executed | MainWindow.SessionLimiterAsWritten (MainWindow.HugeSessionCapStallsDownloads) | MainWindow.SessionLimiter (MainWindow.SessionLimiterAgreement) |

=== FILE: arp_spoofer.dfy ===
/**
 * ArpSpoofer: the forged ARP reply frame (RFC 826 over Ethernet) and the
 * poisoning loop that tells the target "the gateway's IP is at our MAC" and
 * the gateway "the target's IP is at our MAC", every cycle, until stopped.
 */
module ArpSpoofer {
  import opened Wrappers
  import opened Bytes
  import opened Frames

  const FrameLength: nat := 14 + 28
  const HardwareTypeEthernet: u16 := 1
  const OpReply: u16 := 2
  const CycleSleepMs: nat := 1500
  const FailureBackoffMs: nat := 1000

  /**
   * ArpSpoofer.SendArpReply's frame: Ethernet destination = victim, source =
   * the capture device; ARP sender = our NIC MAC claiming `spoofIp`, target =
   * the victim's MAC and IP. Addresses contribute their first four bytes.
   */
  function BuildArpReply(deviceMac: MacAddress, nicMac: MacAddress, victimMac: MacAddress,
                         victimIp: IpAddress, spoofIp: IpAddress): (f: seq<byte>)
    ensures |f| == FrameLength
  {
    victimMac + deviceMac + [0x08, 0x06]
    + [0x00, 0x01] + [0x08, 0x00] + [6] + [4] + [0x00, 0x02]
    + nicMac + First4(spoofIp) + victimMac + First4(victimIp)
  }

  /** The fields of an Ethernet frame carrying an ARP packet for IPv4 over Ethernet. */
  datatype ArpFrame = ArpFrame(
    ethDst: MacAddress, ethSrc: MacAddress,
    oper: u16,
    senderMac: MacAddress, senderIp: Octets4,
    targetMac: MacAddress, targetIp: Octets4)

  /**
   * An independent reader of the RFC 826 layout: None unless the frame is 42
   * bytes with EtherType 0x0806, HTYPE 1, PTYPE 0x0800, HLEN 6 and PLEN 4.
   */
  function ParseArpFrame(f: seq<byte>): (a: Option<ArpFrame>)
    ensures a.Some? ==> |f| == FrameLength && BE16(f[12], f[13]) == EtherTypeArp
  {
    if |f| != FrameLength then None
    else if BE16(f[12], f[13]) != EtherTypeArp then None
    else if BE16(f[14], f[15]) != HardwareTypeEthernet || BE16(f[16], f[17]) != EtherTypeIPv4 then None
    else if f[18] != 6 || f[19] != 4 then None
    else Some(ArpFrame(f[0..6], f[6..12], BE16(f[20], f[21]), f[22..28], f[28..32], f[32..38], f[38..42]))
  }

  /** The built reply reads back as an ARP reply with exactly the intended addresses. */
  lemma BuiltReplyParses(deviceMac: MacAddress, nicMac: MacAddress, victimMac: MacAddress,
                         victimIp: IpAddress, spoofIp: IpAddress)
    ensures ParseArpFrame(BuildArpReply(deviceMac, nicMac, victimMac, victimIp, spoofIp))
      == Some(ArpFrame(victimMac, deviceMac, OpReply, nicMac, First4(spoofIp), victimMac, First4(victimIp)))
  {
    var f := BuildArpReply(deviceMac, nicMac, victimMac, victimIp, spoofIp);
    assert f[0..6] == victimMac;
    assert f[6..12] == deviceMac;
    assert f[22..28] == nicMac;
    assert f[28..32] == First4(spoofIp);
    assert f[32..38] == victimMac;
    var pre := victimMac + deviceMac + [0x08, 0x06]
      + [0x00, 0x01] + [0x08, 0x00] + [6] + [4] + [0x00, 0x02]
      + nicMac + First4(spoofIp) + victimMac;
    var tpa: seq<byte> := First4(victimIp);
    assert f == pre + tpa && |pre| == 38;
    assert f[38..] == tpa;
    assert f[38..42] == tpa;
  }

  /** One spoofer per target: the addresses it works with, its cached MACs and its running flag. */
  datatype Spoofer = Spoofer(
    nicMac: MacAddress,
    gatewayIp: IpAddress,
    targetIp: IpAddress,
    targetMac: Option<MacAddress>,
    gatewayMac: Option<MacAddress>,
    running: bool)

  function NewSpoofer(nicMac: MacAddress, gatewayIp: IpAddress, targetIp: IpAddress): Spoofer {
    Spoofer(nicMac, gatewayIp, targetIp, None, None, false)
  }

  /** Start: the running flag is set; the loop thread it starts is Loop on the started spoofer. */
  function Start(s: Spoofer): (s': Spoofer)
    ensures s'.running
    ensures s'.(running := s.running) == s
  {
    s.(running := true)
  }

  /** Stop: the running flag is cleared; the loop notices it at its next check. */
  function Stop(s: Spoofer): (s': Spoofer)
    ensures !s'.running
    ensures s'.(running := s.running) == s
  {
    s.(running := false)
  }

  /** The `??=` resolution at the top of Loop: a MAC already known is kept, a missing one is looked up. */
  function Resolve(s: Spoofer, resolve: IpAddress -> Option<MacAddress>): (s': Spoofer)
    ensures s'.targetMac == (if s.targetMac.Some? then s.targetMac else resolve(s.targetIp))
    ensures s'.gatewayMac == (if s.gatewayMac.Some? then s.gatewayMac else resolve(s.gatewayIp))
    ensures s' == s.(targetMac := s'.targetMac, gatewayMac := s'.gatewayMac)
  {
    s.(targetMac := s.targetMac.OrElse(resolve(s.targetIp)),
       gatewayMac := s.gatewayMac.OrElse(resolve(s.gatewayIp)))
  }

  /** "The gateway's IP is at our MAC", sent to the target. */
  function ReplyToTarget(s: Spoofer, deviceMac: MacAddress): seq<byte>
    requires s.targetMac.Some?
  {
    BuildArpReply(deviceMac, s.nicMac, s.targetMac.value, s.targetIp, s.gatewayIp)
  }

  /** "The target's IP is at our MAC", sent to the gateway. */
  function ReplyToGateway(s: Spoofer, deviceMac: MacAddress): seq<byte>
    requires s.gatewayMac.Some?
  {
    BuildArpReply(deviceMac, s.nicMac, s.gatewayMac.value, s.gatewayIp, s.targetIp)
  }

  /** How the transmit calls of one cycle fare: both succeed, or the first or second one throws. */
  datatype SendOutcome = BothSent | FirstFailed | SecondFailed

  /**
   * What happens around one check of `while (_running)`: whether another
   * thread called Stop since the previous check, and how the sends of the
   * cycle that follows fare if the loop goes on.
   */
  datatype CycleEnv = CycleEnv(stopCalled: bool, outcome: SendOutcome)

  datatype LoopEnd = Unresolved | Stopped | StillRunning

  /** The frames the loop put on the wire, the sleeps between cycles, the cycles run, and why it ended. */
  datatype Trace = Trace(frames: seq<seq<byte>>, sleeps: seq<nat>, cycles: nat, end: LoopEnd)

  /** One turn of the `while (_running)` body. */
  function Cycle(s: Spoofer, deviceMac: MacAddress, outcome: SendOutcome): (t: (seq<seq<byte>>, nat))
    requires s.targetMac.Some? && s.gatewayMac.Some?
    ensures outcome == BothSent ==> t.0 == [ReplyToTarget(s, deviceMac), ReplyToGateway(s, deviceMac)]
    ensures outcome != BothSent ==> t.0 == (if outcome == FirstFailed then [] else [ReplyToTarget(s, deviceMac)])
    ensures t.1 == (if outcome == BothSent then CycleSleepMs else FailureBackoffMs)
  {
    match outcome
    case BothSent => ([ReplyToTarget(s, deviceMac), ReplyToGateway(s, deviceMac)], CycleSleepMs)
    case FirstFailed => ([], FailureBackoffMs)
    case SecondFailed => ([ReplyToTarget(s, deviceMac)], FailureBackoffMs)
  }

  /**
   * The `while (_running)` loop: before each check a Stop from another
   * thread may clear the spoofer's flag; the loop reads the flag and either
   * ends or runs one cycle.
   */
  function Cycles(s: Spoofer, deviceMac: MacAddress, env: seq<CycleEnv>): (t: Trace)
    requires s.targetMac.Some? && s.gatewayMac.Some?
    ensures t.end != Unresolved
    ensures |t.sleeps| == t.cycles <= |env|
    decreases |env|
  {
    if |env| == 0 then Trace([], [], 0, StillRunning)
    else
      var s1 := if env[0].stopCalled then Stop(s) else s;
      if !s1.running then Trace([], [], 0, Stopped)
      else
        var (sent, sleep) := Cycle(s1, deviceMac, env[0].outcome);
        var rest := Cycles(s1, deviceMac, env[1..]);
        Trace(sent + rest.frames, [sleep] + rest.sleeps, rest.cycles + 1, rest.end)
  }

  /**
   * ArpSpoofer.Loop: resolve both MACs (returning at once if either is
   * unknown), then cycle while the running flag is set.
   */
  function Loop(s: Spoofer, deviceMac: MacAddress, resolve: IpAddress -> Option<MacAddress>,
                env: seq<CycleEnv>): (t: Trace)
    ensures t.end == Unresolved <==>
      Resolve(s, resolve).targetMac.None? || Resolve(s, resolve).gatewayMac.None?
    ensures t.end == Unresolved ==> t.frames == [] && t.cycles == 0
  {
    var r := Resolve(s, resolve);
    if r.targetMac.None? || r.gatewayMac.None? then Trace([], [], 0, Unresolved)
    else Cycles(r, deviceMac, env)
  }

  /** The number of loop checks before the first one that a Stop call precedes (all of them when none does). */
  function ChecksBeforeStop(env: seq<CycleEnv>): (n: nat)
    ensures n <= |env|
    ensures forall i :: 0 <= i < n ==> !env[i].stopCalled
    ensures n < |env| ==> env[n].stopCalled
  {
    if |env| == 0 || env[0].stopCalled then 0 else 1 + ChecksBeforeStop(env[1..])
  }

  /**
   * Send failures never end the loop: a running spoofer runs one cycle per
   * check until the first check after a Stop, and ends exactly there; a
   * spoofer whose flag is already cleared runs no cycle at all.
   */
  lemma {:induction false} OnlyStopEndsTheLoop(s: Spoofer, deviceMac: MacAddress, env: seq<CycleEnv>)
    requires s.targetMac.Some? && s.gatewayMac.Some?
    ensures var t := Cycles(s, deviceMac, env);
      && t.cycles == (if s.running then ChecksBeforeStop(env) else 0)
      && (t.end == StillRunning <==> |env| == 0 || (s.running && ChecksBeforeStop(env) == |env|))
    decreases |env|
  {
    if |env| > 0 && !env[0].stopCalled && s.running {
      OnlyStopEndsTheLoop(s, deviceMac, env[1..]);
    }
  }

  /**
   * After a Stop call the loop's next check ends it: everything the loop
   * ever sends, sleeps and runs comes from the checks before that call.
   */
  lemma {:induction false} StopEndsTheLoop(s: Spoofer, deviceMac: MacAddress, env: seq<CycleEnv>, k: nat)
    requires s.targetMac.Some? && s.gatewayMac.Some?
    requires k < |env| && env[k].stopCalled
    ensures Cycles(s, deviceMac, env).end == Stopped
    ensures Cycles(s, deviceMac, env).cycles <= k
    ensures Cycles(s, deviceMac, env) == Cycles(s, deviceMac, env[..k]).(end := Stopped)
    decreases k
  {
    if k > 0 && !env[0].stopCalled && s.running {
      StopEndsTheLoop(s, deviceMac, env[1..], k - 1);
      assert env[1..][..k - 1] == env[..k][1..];
    }
  }

  /**
   * Start then the loop thread: once both MACs resolve, the spoofer cycles
   * until the first check after a Stop call, and keeps cycling while none
   * comes. A spoofer stopped before its thread first checks sends nothing.
   */
  lemma StartedLoopRuns(s: Spoofer, deviceMac: MacAddress, resolve: IpAddress -> Option<MacAddress>, env: seq<CycleEnv>)
    requires Resolve(s, resolve).targetMac.Some? && Resolve(s, resolve).gatewayMac.Some?
    ensures Loop(Start(s), deviceMac, resolve, env).cycles == ChecksBeforeStop(env)
    ensures Loop(Start(s), deviceMac, resolve, env).end == (if ChecksBeforeStop(env) < |env| then Stopped else StillRunning)
    ensures Loop(Stop(s), deviceMac, resolve, env).frames == [] && Loop(Stop(s), deviceMac, resolve, env).cycles == 0
  {
    var r := Resolve(Start(s), resolve);
    assert r.running;
    OnlyStopEndsTheLoop(r, deviceMac, env);
    OnlyStopEndsTheLoop(Resolve(Stop(s), resolve), deviceMac, env);
  }

  /** A check that finds the flag set runs one cycle and then the rest of the loop on the same spoofer. */
  lemma CyclesStep(s: Spoofer, deviceMac: MacAddress, env: seq<CycleEnv>)
    requires s.targetMac.Some? && s.gatewayMac.Some?
    requires |env| > 0 && !env[0].stopCalled && s.running
    ensures var c := Cycle(s, deviceMac, env[0].outcome);
      var rest := Cycles(s, deviceMac, env[1..]);
      Cycles(s, deviceMac, env) == Trace(c.0 + rest.frames, [c.1] + rest.sleeps, rest.cycles + 1, rest.end)
  {
  }

  /**
   * When every send succeeds, each cycle puts exactly two replies on the wire:
   * first to the target, then to the gateway, and sleeps 1500 ms.
   */
  lemma {:induction false} TwoRepliesPerCycle(s: Spoofer, deviceMac: MacAddress, env: seq<CycleEnv>)
    requires s.targetMac.Some? && s.gatewayMac.Some?
    requires forall i :: 0 <= i < |env| ==> env[i].outcome == BothSent
    ensures var t := Cycles(s, deviceMac, env);
      && |t.frames| == 2 * t.cycles
      && (forall k :: 0 <= k < t.cycles ==>
            t.frames[2 * k] == ReplyToTarget(s, deviceMac) && t.frames[2 * k + 1] == ReplyToGateway(s, deviceMac))
      && (forall k :: 0 <= k < t.cycles ==> t.sleeps[k] == CycleSleepMs)
    decreases |env|
  {
    if |env| > 0 && !env[0].stopCalled && s.running {
      TwoRepliesPerCycle(s, deviceMac, env[1..]);
      CyclesStep(s, deviceMac, env);
      var rest := Cycles(s, deviceMac, env[1..]);
      PairsCons(ReplyToTarget(s, deviceMac), ReplyToGateway(s, deviceMac), rest.frames, rest.cycles);
      SameCons(CycleSleepMs, rest.sleeps);
    }
  }

  /** Prefixing one more pair keeps a run of pairs `a, b`. */
  lemma PairsCons<T>(a: T, b: T, rest: seq<T>, n: nat)
    requires |rest| == 2 * n
    requires forall k :: 0 <= k < n ==> rest[2 * k] == a && rest[2 * k + 1] == b
    ensures var f := [a, b] + rest;
      && |f| == 2 * (n + 1)
      && forall k :: 0 <= k < n + 1 ==> f[2 * k] == a && f[2 * k + 1] == b
  {
    var f := [a, b] + rest;
    forall k | 0 < k < n + 1
      ensures f[2 * k] == a && f[2 * k + 1] == b
    {
      assert f[2 * k] == rest[2 * (k - 1)];
      assert f[2 * k + 1] == rest[2 * (k - 1) + 1];
    }
  }

  /** Prefixing one more `x` keeps a run of `x`. */
  lemma SameCons<T>(x: T, rest: seq<T>)
    requires forall k :: 0 <= k < |rest| ==> rest[k] == x
    ensures forall k :: 0 <= k < |[x] + rest| ==> ([x] + rest)[k] == x
  {
  }

  /** Every frame the loop sends is an ARP reply whose sender hardware address is our NIC. */
  lemma {:induction false} EveryFrameIsOurReply(s: Spoofer, deviceMac: MacAddress, env: seq<CycleEnv>)
    requires s.targetMac.Some? && s.gatewayMac.Some?
    ensures forall f :: f in Cycles(s, deviceMac, env).frames ==>
      ParseArpFrame(f).Some? && ParseArpFrame(f).value.oper == OpReply && ParseArpFrame(f).value.senderMac == s.nicMac
    decreases |env|
  {
    BuiltReplyParses(deviceMac, s.nicMac, s.targetMac.value, s.targetIp, s.gatewayIp);
    BuiltReplyParses(deviceMac, s.nicMac, s.gatewayMac.value, s.gatewayIp, s.targetIp);
    if |env| > 0 && !env[0].stopCalled && s.running {
      EveryFrameIsOurReply(s, deviceMac, env[1..]);
      CyclesStep(s, deviceMac, env);
    }
  }
}

=== FILE: bandwidth_limiter.dfy ===
/**
 * BandwidthLimiter: a token bucket per direction. Each bucket holds at
 * most one second's worth of bytes; it refills in proportion to the
 * milliseconds elapsed on the tick counter. A frame of `bytes` bytes waits,
 * re-reading the clock every millisecond, until its bucket holds that
 * many tokens, takes them, and is then held back a further fixed delay.
 *
 * The clock is an abstract millisecond tick count: the readings a call
 * would observe are passed in as a sequence, and running out of readings
 * means the call is still waiting. Token arithmetic is exact (`real`).
 */
module BandwidthLimiter {
  datatype Direction = Download | Upload

  datatype Limiter = Limiter(
    downRate: int,
    upRate: int,
    extraDelayMs: int,
    downTokens: real,
    upTokens: real,
    lastTicks: int)
  {
    /** The configured bytes per second of one direction. */
    function Rate(d: Direction): int {
      match d
      case Download => downRate
      case Upload => upRate
    }

    /** The tokens currently in one direction's bucket. */
    function Tokens(d: Direction): real {
      match d
      case Download => downTokens
      case Upload => upTokens
    }
  }

  /** A new limiter: both buckets start empty, and the clock is read now. */
  function NewLimiter(downBytesPerSec: int, upBytesPerSec: int, extraDelayMs: int, now: int): (l: Limiter)
    ensures l.Rate(Download) == downBytesPerSec && l.Rate(Upload) == upBytesPerSec
    ensures l.Tokens(Download) == 0.0 && l.Tokens(Upload) == 0.0
    ensures l.extraDelayMs == extraDelayMs && l.lastTicks == now
  {
    Limiter(downBytesPerSec, upBytesPerSec, extraDelayMs, 0.0, 0.0, now)
  }

  function Min(a: real, b: real): (m: real)
    ensures m <= a && m <= b && (m == a || m == b)
  {
    if a <= b then a else b
  }

  /** Seconds elapsed between two tick readings. */
  function Seconds(from: int, to: int): real {
    (to - from) as real / 1000.0
  }

  /** One bucket after `dt` seconds: the tokens plus dt seconds of rate, capped at one second's rate. */
  function Fill(tokens: real, rate: int, dt: real): (t: real)
    ensures t <= rate as real
    ensures tokens + dt * rate as real <= rate as real ==> t == tokens + dt * rate as real
    ensures tokens + dt * rate as real > rate as real ==> t == rate as real
  {
    Min(rate as real, tokens + dt * rate as real)
  }

  /** Refill: both buckets gain the time since the last reading, and that reading becomes `now`. */
  function Refill(l: Limiter, now: int): (r: Limiter)
    ensures r.lastTicks == now
    ensures r.Rate(Download) == l.Rate(Download) && r.Rate(Upload) == l.Rate(Upload)
    ensures r.extraDelayMs == l.extraDelayMs
    ensures r.Tokens(Download) <= l.Rate(Download) as real && r.Tokens(Upload) <= l.Rate(Upload) as real
  {
    var dt := Seconds(l.lastTicks, now);
    l.(downTokens := Fill(l.downTokens, l.downRate, dt), upTokens := Fill(l.upTokens, l.upRate, dt), lastTicks := now)
  }

  /** Two fills in a row, over non-negative spans at a non-negative rate, equal one fill over the whole span. */
  lemma FillComposes(tokens: real, rate: int, a: real, b: real)
    requires rate >= 0 && a >= 0.0 && b >= 0.0
    ensures Fill(Fill(tokens, rate, a), rate, b) == Fill(tokens, rate, a + b)
  {
    var r := rate as real;
    assert (a + b) * r == a * r + b * r;
    assert b * r >= 0.0;
  }

  /**
   * Refilling at t1 and then at t2 is refilling once at t2: how often the
   * clock is polled does not change the tokens.
   */
  lemma RefillComposes(l: Limiter, t1: int, t2: int)
    requires l.downRate >= 0 && l.upRate >= 0
    requires l.lastTicks <= t1 <= t2
    ensures Refill(Refill(l, t1), t2) == Refill(l, t2)
  {
    var a, b := Seconds(l.lastTicks, t1), Seconds(t1, t2);
    assert a + b == Seconds(l.lastTicks, t2);
    FillComposes(l.downTokens, l.downRate, a, b);
    FillComposes(l.upTokens, l.upRate, a, b);
  }

  /** `tokens -= bytes` on one direction's bucket. */
  function Take(l: Limiter, d: Direction, bytes: int): (r: Limiter)
    ensures r.Tokens(d) == l.Tokens(d) - bytes as real
    ensures forall e :: e != d ==> r.Tokens(e) == l.Tokens(e)
    ensures r.Rate(Download) == l.Rate(Download) && r.Rate(Upload) == l.Rate(Upload)
    ensures r.lastTicks == l.lastTicks && r.extraDelayMs == l.extraDelayMs
  {
    match d
    case Download => l.(downTokens := l.downTokens - bytes as real)
    case Upload => l.(upTokens := l.upTokens - bytes as real)
  }

  /**
   * The end of a Throttle call: the frame was let through after `readings`
   * clock readings (the first refill and one per millisecond slept),
   * followed by an extra sleep of `extraSleepMs` (zero for none); or every
   * given reading still found too few tokens.
   */
  datatype Outcome = Granted(limiter: Limiter, readings: nat, extraSleepMs: nat) | Waiting(limiter: Limiter)

  /** The wait loop of Throttle: refill at each reading until the bucket holds `bytes` tokens. */
  function Await(l: Limiter, d: Direction, bytes: int, clock: seq<int>): (o: Outcome)
    ensures o.Granted? ==> 1 <= o.readings <= |clock|
    decreases |clock|
  {
    if |clock| == 0 then Waiting(l)
    else
      var l1 := Refill(l, clock[0]);
      if l1.Tokens(d) >= bytes as real then
        Granted(Take(l1, d, bytes), 1, if l.extraDelayMs > 0 then l.extraDelayMs else 0)
      else match Await(l1, d, bytes, clock[1..])
        case Granted(l2, n, extra) => Granted(l2, n + 1, extra)
        case Waiting(l2) => Waiting(l2)
  }

  /**
   * ThrottleDownload / ThrottleUpload: wait for the tokens, take them, then
   * sleep the extra delay when it is positive.
   */
  function Throttle(l: Limiter, d: Direction, bytes: int, clock: seq<int>): (o: Outcome)
    ensures o.Granted? ==> (o.extraSleepMs > 0 <==> l.extraDelayMs > 0)
    ensures o.Granted? && l.extraDelayMs > 0 ==> o.extraSleepMs == l.extraDelayMs
  {
    AwaitExtraSleep(l, d, bytes, clock);
    Await(l, d, bytes, clock)
  }

  lemma {:induction false} AwaitExtraSleep(l: Limiter, d: Direction, bytes: int, clock: seq<int>)
    ensures var o := Await(l, d, bytes, clock);
      o.Granted? ==> o.extraSleepMs == (if l.extraDelayMs > 0 then l.extraDelayMs else 0)
    decreases |clock|
  {
    if |clock| > 0 {
      AwaitExtraSleep(Refill(l, clock[0]), d, bytes, clock[1..]);
    }
  }

  /** The limiter after refilling at every reading in turn. */
  function RefillAll(l: Limiter, clock: seq<int>): (r: Limiter)
    decreases |clock|
  {
    if |clock| == 0 then l else RefillAll(Refill(l, clock[0]), clock[1..])
  }

  /** Tick readings that never go backwards, starting no earlier than the limiter's last one. */
  predicate Monotone(l: Limiter, clock: seq<int>) {
    && (|clock| > 0 ==> l.lastTicks <= clock[0])
    && forall i, j :: 0 <= i < j < |clock| ==> clock[i] <= clock[j]
  }

  /** On a monotone clock, any number of refills equals one refill at the latest reading. */
  lemma {:induction false} RefillAllIsOneRefill(l: Limiter, clock: seq<int>)
    requires l.downRate >= 0 && l.upRate >= 0
    requires |clock| > 0 && Monotone(l, clock)
    ensures RefillAll(l, clock) == Refill(l, clock[|clock| - 1])
    decreases |clock|
  {
    if |clock| > 1 {
      var l1 := Refill(l, clock[0]);
      var rest := clock[1..];
      assert Monotone(l1, rest);
      RefillAllIsOneRefill(l1, rest);
      RefillComposes(l, clock[0], clock[|clock| - 1]);
    }
  }

  /** The tokens in direction d after refilling at the first n readings. */
  function TokensAfter(l: Limiter, d: Direction, clock: seq<int>, n: nat): real
    requires n <= |clock|
  {
    RefillAll(l, clock[..n]).Tokens(d)
  }

  lemma RefillAllStep(l: Limiter, clock: seq<int>, n: nat)
    requires 1 <= n <= |clock|
    ensures RefillAll(l, clock[..n]) == RefillAll(Refill(l, clock[0]), clock[1..][..n - 1])
  {
    assert clock[..n][1..] == clock[1..][..n - 1];
  }

  /**
   * Throttle lets the frame through at the first reading after which the
   * bucket holds `bytes` tokens, and takes exactly `bytes` from it; it is
   * still waiting exactly when no given reading reached that level.
   */
  lemma {:induction false} AwaitFirstSufficient(l: Limiter, d: Direction, bytes: int, clock: seq<int>)
    ensures var o := Await(l, d, bytes, clock);
      && (o.Waiting? <==> forall n :: 1 <= n <= |clock| ==> TokensAfter(l, d, clock, n) < bytes as real)
      && (o.Granted? ==>
            && TokensAfter(l, d, clock, o.readings) >= bytes as real
            && (forall n :: 1 <= n < o.readings ==> TokensAfter(l, d, clock, n) < bytes as real)
            && o.limiter == Take(RefillAll(l, clock[..o.readings]), d, bytes))
    decreases |clock|
  {
    if |clock| > 0 {
      var l1 := Refill(l, clock[0]);
      AwaitFirstSufficient(l1, d, bytes, clock[1..]);
      forall n | 1 <= n <= |clock|
        ensures TokensAfter(l, d, clock, n) == TokensAfter(l1, d, clock[1..], n - 1)
      {
        RefillAllStep(l, clock, n);
      }
      assert clock[..1] == [clock[0]] && clock[..1][1..] == [];
      var o := Await(l, d, bytes, clock);
      if o.Granted? {
        RefillAllStep(l, clock, o.readings);
      }
    }
  }

  /**
   * A frame larger than one second's budget is never let through, however
   * long the clock runs: the bucket never holds more than the rate.
   */
  lemma {:induction false} OversizeNeverGranted(l: Limiter, d: Direction, bytes: int, clock: seq<int>)
    requires bytes > l.Rate(d)
    ensures Await(l, d, bytes, clock).Waiting?
    decreases |clock|
  {
    if |clock| > 0 {
      OversizeNeverGranted(Refill(l, clock[0]), d, bytes, clock[1..]);
    }
  }

  /**
   * While the clock stands still at the limiter's last reading, an empty
   * (or overdrawn) bucket lets nothing through: a new limiter does not pass a frame at
   * the instant it is created.
   */
  lemma {:induction false} NoTimeNoTokens(l: Limiter, d: Direction, bytes: int, clock: seq<int>)
    requires l.Tokens(d) <= 0.0 && bytes > 0
    requires forall i :: 0 <= i < |clock| ==> clock[i] == l.lastTicks
    ensures Await(l, d, bytes, clock).Waiting?
    decreases |clock|
  {
    if |clock| > 0 {
      var l1 := Refill(l, clock[0]);
      assert Seconds(l.lastTicks, clock[0]) == 0.0;
      NoTimeNoTokens(l1, d, bytes, clock[1..]);
    }
  }

  /**
   * On a monotone clock with non-negative rates, a granted frame leaves
   * between zero and rate - bytes tokens in its bucket, and the other
   * bucket holds what one refill at the granting reading gives it.
   */
  lemma GrantLeavesBuckets(l: Limiter, d: Direction, bytes: int, clock: seq<int>, other: Direction)
    requires l.downRate >= 0 && l.upRate >= 0 && Monotone(l, clock) && other != d
    ensures var o := Await(l, d, bytes, clock);
      o.Granted? ==>
        && 0.0 <= o.limiter.Tokens(d) <= (l.Rate(d) - bytes) as real
        && o.limiter.Tokens(other) == Refill(l, clock[o.readings - 1]).Tokens(other)
        && o.limiter.Rate(d) == l.Rate(d) && o.limiter.lastTicks == clock[o.readings - 1]
  {
    var o := Await(l, d, bytes, clock);
    AwaitFirstSufficient(l, d, bytes, clock);
    if o.Granted? {
      var c := clock[..o.readings];
      assert Monotone(l, c);
      RefillAllIsOneRefill(l, c);
    }
  }
}

=== FILE: bits.dfy ===
/**
 * Bitwise AND and OR on non-negative integers, defined bit by bit (least
 * significant first), so that the subnet arithmetic can be reasoned about
 * with ordinary integers. Widths appear only in the lemmas.
 */
module Bits {
  function Pow2(n: nat): (p: nat)
    ensures p >= 1
  {
    if n == 0 then 1 else 2 * Pow2(n - 1)
  }

  lemma {:induction false} Pow2Monotone(a: nat, b: nat)
    requires a <= b
    ensures Pow2(a) <= Pow2(b)
    decreases b
  {
    if a < b {
      Pow2Monotone(a, b - 1);
    }
  }

  /** `a & b`. */
  function And(a: nat, b: nat): nat
    decreases a
  {
    if a == 0 || b == 0 then 0
    else 2 * And(a / 2, b / 2) + (if a % 2 == 1 && b % 2 == 1 then 1 else 0)
  }

  /** `a | b`. */
  function Or(a: nat, b: nat): nat
    decreases a
  {
    if a == 0 then b
    else if b == 0 then a
    else 2 * Or(a / 2, b / 2) + (if a % 2 == 1 || b % 2 == 1 then 1 else 0)
  }

  /** AND keeps no bit that is absent from an operand. */
  lemma {:induction false} AndBelow(a: nat, b: nat)
    ensures And(a, b) <= a && And(a, b) <= b
    decreases a
  {
    if a != 0 && b != 0 {
      AndBelow(a / 2, b / 2);
    }
  }

  lemma {:induction false} AndCommutes(a: nat, b: nat)
    ensures And(a, b) == And(b, a)
    decreases a
  {
    if a != 0 && b != 0 {
      AndCommutes(a / 2, b / 2);
    }
  }

  /** OR of two `w`-bit values is a `w`-bit value. */
  lemma {:induction false} OrBelow(a: nat, b: nat, w: nat)
    requires a < Pow2(w) && b < Pow2(w)
    ensures Or(a, b) < Pow2(w)
    decreases w
  {
    if w > 0 && a != 0 && b != 0 {
      OrBelow(a / 2, b / 2, w - 1);
    }
  }

  /** OR of operands without common bits is their sum. */
  lemma {:induction false} OrOfDisjointIsSum(a: nat, b: nat)
    requires And(a, b) == 0
    ensures Or(a, b) == a + b
    decreases a
  {
    if a != 0 && b != 0 {
      OrOfDisjointIsSum(a / 2, b / 2);
    }
  }

  /** AND with the `w`-bit all-ones value is the identity on `w`-bit values. */
  lemma {:induction false} AndAllOnes(a: nat, w: nat)
    requires a < Pow2(w)
    ensures And(a, Pow2(w) - 1) == a
    decreases w
  {
    if w > 0 && a > 0 {
      AndAllOnes(a / 2, w - 1);
      assert (Pow2(w) - 1) / 2 == Pow2(w - 1) - 1 && (Pow2(w) - 1) % 2 == 1;
    }
  }

  /** A `w`-bit value shares no bit with the complement, within `w` bits, of anything it is ANDed with. */
  lemma {:induction false} AndDisjointFromComplement(a: nat, b: nat, w: nat)
    requires b < Pow2(w)
    ensures And(And(a, b), Pow2(w) - 1 - b) == 0
    decreases w
  {
    if w > 0 && And(a, b) != 0 {
      var c := Pow2(w) - 1 - b;
      assert c / 2 == Pow2(w - 1) - 1 - b / 2 && c % 2 == 1 - b % 2;
      AndDisjointFromComplement(a / 2, b / 2, w - 1);
    }
  }

  /** Splitting off the lowest bit of a remainder modulo a power of two. */
  lemma ModPow2Step(x: nat, k: nat)
    requires k > 0
    ensures x % Pow2(k) == 2 * ((x / 2) % Pow2(k - 1)) + x % 2
  {
    var d := Pow2(k - 1);
    var q := x / 2;
    var a, b := q / d, q % d;
    assert q == d * a + b;
    assert x == (2 * d) * a + (2 * b + x % 2);
    DivModUnique(x, 2 * d, a, 2 * b + x % 2);
  }

  lemma MulAtLeast(d: nat, m: nat)
    requires m >= 1
    ensures d * m >= d
  {
    assert d * m == d * (m - 1) + d;
  }

  lemma DivModUnique(x: nat, d: nat, a: nat, c: nat)
    requires d > 0 && c < d && x == d * a + c
    ensures x / d == a && x % d == c
  {
    var q, r := x / d, x % d;
    assert x == d * q + r;
    if q > a {
      MulAtLeast(d, q - a);
      assert false;
    } else if q < a {
      MulAtLeast(d, a - q);
      assert false;
    }
  }

  /** Rounding down to a multiple of d gives a multiple of d. */
  lemma FloorIsAligned(x: nat, d: nat)
    requires d > 0
    ensures (x - x % d) % d == 0
  {
    DivModUnique(x - x % d, d, x / d, 0);
  }

  /** Adding less than d to a multiple of d keeps its floor to a multiple of d. */
  lemma MultipleFloor(n: nat, t: nat, d: nat)
    requires d > 0 && n % d == 0 && n <= t < n + d
    ensures t - t % d == n
  {
    DivModUnique(t, d, n / d, t - n);
  }

  /** A value less than d above an aligned base rounds down to that base. */
  lemma AlignedNeighbour(u: nat, t: nat, d: nat)
    requires d > 0 && u - u % d <= t < u - u % d + d
    ensures t - t % d == u - u % d
  {
    FloorIsAligned(u, d);
    MultipleFloor(u - u % d, t, d);
  }

  /** The `w`-bit mask whose top `w - k` bits are set and low `k` bits clear. */
  function HighMask(w: nat, k: nat): (m: nat)
    requires k <= w
    ensures m + Pow2(k) == Pow2(w)
  {
    Pow2Monotone(k, w);
    Pow2(w) - Pow2(k)
  }

  /**
   * AND with a contiguous mask whose low `k` bits are clear rounds a value
   * down to a multiple of 2^k.
   */
  lemma {:induction false} AndHighMask(x: nat, w: nat, k: nat)
    requires k <= w && x < Pow2(w)
    ensures And(x, HighMask(w, k)) == x - x % Pow2(k)
    decreases w
  {
    if k == 0 {
      AndAllOnes(x, w);
    } else {
      var m := HighMask(w, k);
      assert m / 2 == HighMask(w - 1, k - 1) && m % 2 == 0;
      AndHighMask(x / 2, w - 1, k - 1);
      ModPow2Step(x, k);
      if x != 0 && m != 0 {
        assert And(x, m) == 2 * And(x / 2, m / 2);
      } else if m == 0 {
        Pow2Monotone(k, w);
      }
    }
  }
}

=== FILE: bytes.dfy ===
/** Bytes, big-endian 16-bit fields and the address types shared by every component. */
module Bytes {

  type byte = x: int | 0 <= x < 0x100
  type u16 = x: int | 0 <= x < 0x1_0000
  type u32 = x: int | 0 <= x < 0x1_0000_0000

  /** The four octets of an IPv4 address, in network order. */
  type Octets4 = s: seq<byte> | |s| == 4 witness [0, 0, 0, 0]
  /** The sixteen octets of an IPv6 address, in network order. */
  type Octets16 = s: seq<byte> | |s| == 16 witness seq(16, _ => 0)
  /** An Ethernet hardware address. */
  type MacAddress = s: seq<byte> | |s| == 6 witness [0, 0, 0, 0, 0, 0]

  /** A System.Net.IPAddress: either address family. */
  datatype IpAddress = V4(v4: Octets4) | V6(v6: Octets16)

  /** IPAddress.GetAddressBytes. */
  function AddressBytes(ip: IpAddress): (b: seq<byte>)
    ensures |b| == 4 || |b| == 16
    ensures ip.V4? <==> |b| == 4
  {
    match ip
    case V4(o) => o
    case V6(o) => o
  }

  /** The first four address bytes: what `Buffer.BlockCopy(ip.GetAddressBytes(), 0, dst, i, 4)` copies. */
  function First4(ip: IpAddress): (o: Octets4)
    ensures ip.V4? ==> o == ip.v4
    ensures o == AddressBytes(ip)[..4]
  {
    AddressBytes(ip)[..4]
  }

  /** A big-endian 16-bit field read from two bytes. */
  function BE16(hi: byte, lo: byte): u16 {
    hi * 0x100 + lo
  }

  /** A 16-bit value written as two big-endian bytes. */
  function U16Bytes(v: u16): (b: seq<byte>)
    ensures |b| == 2
    ensures BE16(b[0], b[1]) == v
  {
    [v / 0x100, v % 0x100]
  }

  lemma U16BytesInverse(hi: byte, lo: byte)
    ensures U16Bytes(BE16(hi, lo)) == [hi, lo]
  {
  }
}

=== FILE: capture_manager.dfy ===
/**
 * CaptureManager: the capture loop and the forwarding decision that makes
 * the host a man in the middle. Frames from a target go to the gateway's
 * hardware address; frames from the gateway to a target go to the
 * target's; both leave with the device's own MAC as source and pass
 * through a bandwidth limiter first. Blocked hosts' frames are dropped.
 *
 * MAC resolution (SendARP) is a function parameter, and the clock readings
 * a throttle call observes are a sequence parameter, as in BandwidthLimiter.
 */
module CaptureManager {
  import opened Wrappers
  import opened Bytes
  import opened Frames
  import opened BandwidthLimiter
  import opened HostPolicy
  import DnsSpoofer

  datatype Capture = Capture(
    deviceMac: MacAddress,
    running: bool,
    forwarding: bool,
    limiter: Option<Limiter>,
    policies: Option<Policies>,
    gatewayIp: Option<IpAddress>,
    gatewayMac: Option<MacAddress>,
    targets: map<IpAddress, Option<MacAddress>>,
    dns: Option<DnsSpoofer.Spoofer>)

  /** A new manager: not running, not forwarding, nothing attached, no targets. */
  function NewCapture(deviceMac: MacAddress): (c: Capture)
    ensures !c.running && !c.forwarding && c.targets == map[]
    ensures c.limiter.None? && c.policies.None? && c.gatewayIp.None? && c.gatewayMac.None? && c.dns.None?
  {
    Capture(deviceMac, false, false, None, None, None, None, map[], None)
  }

  /** AddTarget (TryAdd with no MAC yet): an address already targeted keeps its cached MAC. */
  function AddTarget(c: Capture, ip: IpAddress): (r: Capture)
    ensures r.targets.Keys == c.targets.Keys + {ip}
    ensures ip in c.targets ==> r.targets[ip] == c.targets[ip]
    ensures ip !in c.targets ==> r.targets[ip] == None
    ensures forall a :: a in c.targets ==> r.targets[a] == c.targets[a]
    ensures r == c.(targets := r.targets)
  {
    if ip in c.targets then c else c.(targets := c.targets[ip := None])
  }

  /** RemoveTarget: that address, and only it, stops being a target. */
  function RemoveTarget(c: Capture, ip: IpAddress): (r: Capture)
    ensures r.targets.Keys == c.targets.Keys - {ip}
    ensures forall a :: a in r.targets ==> r.targets[a] == c.targets[a]
    ensures r == c.(targets := r.targets)
  {
    c.(targets := c.targets - {ip})
  }

  /** Stop: the running flag is cleared; device errors are swallowed. */
  function Stop(c: Capture): (r: Capture)
    ensures !r.running && r == c.(running := false)
  {
    c.(running := false)
  }

  /** Stopping twice is stopping once. */
  lemma StopIdempotent(c: Capture)
    ensures Stop(Stop(c)) == Stop(c)
  {
  }

  /** Which limiter throttles a forwarded frame. */
  datatype LimiterChoice = HostLimiter(ip: IpAddress) | SessionLimiter | Unlimited

  /** `_hostPolicies?.GetLimiter(ip) ?? _limiter`. */
  function ChooseLimiter(c: Capture, ip: IpAddress): (l: LimiterChoice)
    ensures l.HostLimiter? <==> c.policies.Some? && GetLimiter(c.policies.value, ip).Some?
    ensures l.HostLimiter? ==> l.ip == ip
    ensures l.Unlimited? <==> (c.policies.None? || ip !in c.policies.value) && c.limiter.None?
  {
    if c.policies.Some? && GetLimiter(c.policies.value, ip).Some? then HostLimiter(ip)
    else if c.limiter.Some? then SessionLimiter
    else Unlimited
  }

  /** `_hostPolicies?.IsBlocked(ip) == true`. */
  predicate Blocked(c: Capture, ip: IpAddress) {
    c.policies.Some? && IsBlocked(c.policies.value, ip)
  }

  /** What Forward decides for a frame. */
  datatype Verdict =
    | Ignore
    | Drop
    | Send(frame: Packet, dir: Direction, limiter: LimiterChoice)

  /** The frame with its Ethernet addresses rewritten; all else is unchanged. */
  function Readdress(p: Packet, dst: MacAddress, src: MacAddress): (r: Packet)
    requires p.eth.Some?
    ensures r.eth == Some(p.eth.value.(dst := dst, src := src))
    ensures r.ip == p.ip && r.udp == p.udp && r.tcp == p.tcp && r.length == p.length
  {
    p.(eth := Some(p.eth.value.(dst := dst, src := src)))
  }

  /**
   * The decision part of Forward, with the MAC caching it performs: the
   * gateway MAC is resolved until it succeeds, and a target's MAC is resolved
   * when a frame for it comes from the gateway and cached once found.
   */
  function Classify(c: Capture, p: Packet, resolve: IpAddress -> Option<MacAddress>): (r: (Capture, Verdict))
  {
    if p.eth.None? || p.ip.None? || c.gatewayIp.None? then (c, Ignore)
    else
      var gw := c.gatewayIp.value;
      var c1 := c.(gatewayMac := c.gatewayMac.OrElse(resolve(gw)));
      if c1.gatewayMac.None? then (c1, Ignore)
      else
        var src, dst := p.ip.value.SourceAddress(), p.ip.value.DestinationAddress();
        if src in c1.targets then
          if Blocked(c1, src) then (c1, Drop)
          else (c1, Send(Readdress(p, c1.gatewayMac.value, c1.deviceMac), Upload, ChooseLimiter(c1, src)))
        else if src == gw && dst in c1.targets then
          var tmac := c1.targets[dst].OrElse(resolve(dst));
          var c2 := c1.(targets := c1.targets[dst := tmac]);
          if Blocked(c2, dst) then (c2, Drop)
          else (c2, Send(Readdress(p, tmac.GetOr(p.eth.value.dst), c2.deviceMac), Download, ChooseLimiter(c2, dst)))
        else (c1, Ignore)
  }

  /**
   * Frames without Ethernet or IPv4, frames seen before a gateway is set,
   * and frames seen while the gateway MAC cannot be resolved are ignored;
   * at most the gateway MAC is learnt.
   */
  lemma ClassifyIgnores(c: Capture, p: Packet, resolve: IpAddress -> Option<MacAddress>)
    requires p.eth.None? || p.ip.None? || c.gatewayIp.None? || (c.gatewayMac.None? && resolve(c.gatewayIp.value).None?)
    ensures Classify(c, p, resolve) == (c, Ignore)
  {
  }

  /**
   * The gateway MAC is looked up while unknown and then kept: once known,
   * no frame changes it, and before that a resolvable gateway is learnt by
   * the first frame that reaches the lookup.
   */
  lemma GatewayMacCached(c: Capture, p: Packet, resolve: IpAddress -> Option<MacAddress>)
    ensures var c' := Classify(c, p, resolve).0;
      && (c.gatewayMac.Some? ==> c'.gatewayMac == c.gatewayMac)
      && (c.gatewayMac.None? && p.eth.Some? && p.ip.Some? && c.gatewayIp.Some? ==>
            c'.gatewayMac == resolve(c.gatewayIp.value))
      && c'.deviceMac == c.deviceMac && c'.policies == c.policies && c'.limiter == c.limiter
      && c'.targets.Keys == c.targets.Keys && c'.gatewayIp == c.gatewayIp
      && (forall a :: a in c.targets && c.targets[a].Some? ==> c'.targets[a] == c.targets[a])
  {
  }

  /**
   * Upstream: a frame whose source is a target, once the gateway MAC is
   * known, is dropped when that host is blocked, and otherwise sent to the
   * gateway's MAC from the device's MAC under the upload throttle of the
   * host's own limiter, or the session one. This takes priority over the
   * downstream case.
   */
  lemma Upstream(c: Capture, p: Packet, resolve: IpAddress -> Option<MacAddress>)
    requires p.eth.Some? && p.ip.Some? && c.gatewayIp.Some?
    requires c.gatewayMac.OrElse(resolve(c.gatewayIp.value)).Some?
    requires p.ip.value.SourceAddress() in c.targets
    ensures var src := p.ip.value.SourceAddress();
      var gwMac := c.gatewayMac.OrElse(resolve(c.gatewayIp.value)).value;
      var (c', v) := Classify(c, p, resolve);
      && c'.targets == c.targets
      && (Blocked(c, src) ==> v == Drop)
      && (!Blocked(c, src) ==>
            && v.Send? && v.dir == Upload
            && v.frame.eth.value.dst == gwMac && v.frame.eth.value.src == c.deviceMac
            && v.frame.ip == p.ip && v.frame.length == p.length
            && v.limiter == ChooseLimiter(c, src))
  {
  }

  /**
   * Downstream: a frame from the gateway to a target (whose source is not
   * itself a target) caches the target's MAC if it resolves, is dropped when
   * the target is blocked, and is otherwise sent to the target's MAC, or to
   * the frame's original destination MAC when it does not resolve, under the
   * download throttle.
   */
  lemma Downstream(c: Capture, p: Packet, resolve: IpAddress -> Option<MacAddress>)
    requires p.eth.Some? && p.ip.Some? && c.gatewayIp.Some?
    requires c.gatewayMac.OrElse(resolve(c.gatewayIp.value)).Some?
    requires p.ip.value.SourceAddress() !in c.targets
    requires p.ip.value.SourceAddress() == c.gatewayIp.value && p.ip.value.DestinationAddress() in c.targets
    ensures var dst := p.ip.value.DestinationAddress();
      var tmac := c.targets[dst].OrElse(resolve(dst));
      var (c', v) := Classify(c, p, resolve);
      && c'.targets == c.targets[dst := tmac]
      && (Blocked(c, dst) ==> v == Drop)
      && (!Blocked(c, dst) ==>
            && v.Send? && v.dir == Download
            && v.frame.eth.value.dst == (if tmac.Some? then tmac.value else p.eth.value.dst)
            && v.frame.eth.value.src == c.deviceMac
            && v.frame.ip == p.ip && v.frame.length == p.length
            && v.limiter == ChooseLimiter(c, dst))
  {
  }

  /**
   * Everything Forward sends is between a target and the gateway, leaves
   * with the device's MAC as source, and is otherwise the frame it received;
   * no blocked host's frame is ever sent.
   */
  lemma OnlyTargetTrafficIsSent(c: Capture, p: Packet, resolve: IpAddress -> Option<MacAddress>)
    ensures var (c', v) := Classify(c, p, resolve);
      v.Send? ==>
        && p.eth.Some? && p.ip.Some? && c.gatewayIp.Some?
        && v.frame.eth.Some? && v.frame.eth.value.src == c.deviceMac
        && v.frame.ip == p.ip && v.frame.udp == p.udp && v.frame.tcp == p.tcp && v.frame.length == p.length
        && (v.dir == Upload ==>
              && p.ip.value.SourceAddress() in c.targets
              && !Blocked(c, p.ip.value.SourceAddress()))
        && (v.dir == Download ==>
              && p.ip.value.SourceAddress() == c.gatewayIp.value
              && p.ip.value.SourceAddress() !in c.targets
              && p.ip.value.DestinationAddress() in c.targets
              && !Blocked(c, p.ip.value.DestinationAddress()))
  {
  }

  /** The limiter a choice names, if any. */
  function LimiterOf(c: Capture, choice: LimiterChoice): (l: Option<Limiter>)
    ensures choice.Unlimited? ==> l.None?
    ensures choice.SessionLimiter? ==> l == c.limiter
  {
    match choice
    case HostLimiter(ip) => if c.policies.Some? then GetLimiter(c.policies.value, ip) else None
    case SessionLimiter => c.limiter
    case Unlimited => None
  }

  /**
   * Write a throttled limiter back where it came from: a choice that names
   * a limiter reads back the new one, every other choice reads what it read
   * before, and no block flag, target or address changes.
   */
  function StoreLimiter(c: Capture, choice: LimiterChoice, l: Limiter): (r: Capture)
    ensures LimiterOf(c, choice).Some? ==> LimiterOf(r, choice) == Some(l)
    ensures forall o :: o != choice ==> LimiterOf(r, o) == LimiterOf(c, o)
    ensures forall a :: Blocked(r, a) <==> Blocked(c, a)
    ensures r == c.(limiter := r.limiter, policies := r.policies)
  {
    match choice
    case HostLimiter(ip) => if c.policies.Some? then c.(policies := Some(PutLimiter(c.policies.value, ip, l))) else c
    case SessionLimiter => c.(limiter := Some(l))
    case Unlimited => c
  }

  /**
   * The end of a Forward call: the frame sent (none when ignored or
   * dropped), or a frame still waiting for its throttle when the given
   * clock readings ran out.
   */
  datatype Forwarded = Forwarded(capture: Capture, sent: Option<Packet>, stalled: bool)

  /** Forward: classify, then throttle and send what is to be sent. */
  function Forward(c: Capture, p: Packet, resolve: IpAddress -> Option<MacAddress>, clock: seq<int>): (r: Forwarded)
    ensures Classify(c, p, resolve).1.Send? && LimiterOf(Classify(c, p, resolve).0, Classify(c, p, resolve).1.limiter).None? ==>
      r.sent == Some(Classify(c, p, resolve).1.frame) && !r.stalled
    ensures !Classify(c, p, resolve).1.Send? ==> r.sent.None? && !r.stalled && r.capture == Classify(c, p, resolve).0
    ensures r.sent.Some? ==> Classify(c, p, resolve).1.Send? && r.sent.value == Classify(c, p, resolve).1.frame
    ensures var (c1, v) := Classify(c, p, resolve);
      v.Send? && LimiterOf(c1, v.limiter).Some? ==>
        var o := Throttle(LimiterOf(c1, v.limiter).value, v.dir, v.frame.length, clock);
        && (r.sent == Some(v.frame) <==> o.Granted?)
        && (r.stalled <==> o.Waiting?)
        && LimiterOf(r.capture, v.limiter) == Some(o.limiter)
        && (forall other :: other != v.limiter ==> LimiterOf(r.capture, other) == LimiterOf(c1, other))
        && r.capture.targets == c1.targets
    ensures var (c1, v) := Classify(c, p, resolve);
      && r.capture == c1.(limiter := r.capture.limiter, policies := r.capture.policies)
      && (forall a :: Blocked(r.capture, a) <==> Blocked(c1, a))
      && (!(v.Send? && LimiterOf(c1, v.limiter).Some?) ==> r.capture == c1)
      && (v.Send? && LimiterOf(c1, v.limiter).Some? ==>
            r.capture == StoreLimiter(c1, v.limiter, Throttle(LimiterOf(c1, v.limiter).value, v.dir, v.frame.length, clock).limiter))
  {
    var (c1, v) := Classify(c, p, resolve);
    match v
    case Send(frame, dir, choice) =>
      (match LimiterOf(c1, choice)
       case None => Forwarded(c1, Some(frame), false)
       case Some(l) =>
         match Throttle(l, dir, frame.length, clock)
         case Granted(l', _, _) => Forwarded(StoreLimiter(c1, choice, l'), Some(frame), false)
         case Waiting(l') => Forwarded(StoreLimiter(c1, choice, l'), None, true))
    case _ => Forwarded(c1, None, false)
  }

  /**
   * A target with a host policy is throttled by its own limiter, never by
   * the session limiter, whatever the session limiter holds.
   */
  lemma PolicyTargetUsesHostLimiter(c: Capture, ip: IpAddress)
    requires c.policies.Some? && ip in c.policies.value
    ensures ChooseLimiter(c, ip) == HostLimiter(ip)
    ensures LimiterOf(c, ChooseLimiter(c, ip)) == Some(c.policies.value[ip].limiter)
  {
  }

  /**
   * A frame longer than its limiter's per-second rate is never sent: the
   * forwarding thread waits on it for as long as the clock runs.
   */
  lemma OversizeFrameStalls(c: Capture, p: Packet, resolve: IpAddress -> Option<MacAddress>, clock: seq<int>)
    requires Classify(c, p, resolve).1.Send?
    requires var (c1, v) := Classify(c, p, resolve);
      LimiterOf(c1, v.limiter).Some? && p.length > LimiterOf(c1, v.limiter).value.Rate(v.dir)
    ensures Forward(c, p, resolve, clock).stalled && Forward(c, p, resolve, clock).sent.None?
  {
    var (c1, v) := Classify(c, p, resolve);
    OversizeNeverGranted(LimiterOf(c1, v.limiter).value, v.dir, v.frame.length, clock);
  }

  /** What one pass of the capture loop does, in order. */
  datatype Event = Observed(p: Packet) | DnsReply(reply: Packet) | Forwarding(f: Forwarded)

  /**
   * One iteration of Loop: nothing when stopped; a 1 ms sleep and nothing
   * else when the queue is empty; otherwise the oldest frame is handed to
   * the observers, then to the DNS spoofer (whose reply, if any, is sent),
   * then to Forward when forwarding is on.
   *
   * When Forward stalls, the thread is still blocked inside ThrottleUpload
   * or ThrottleDownload: it reaches the next queued frame only once this one
   * is granted, so a stalled step must not be followed by another Step.
   */
  function Step(c: Capture, queue: seq<Packet>, resolve: IpAddress -> Option<MacAddress>, clock: seq<int>): (r: (Capture, seq<Packet>, seq<Event>))
    ensures !c.running || |queue| == 0 ==> r == (c, queue, [])
    ensures c.running && |queue| > 0 ==> r.1 == queue[1..] && |r.2| >= 1 && r.2[0] == Observed(queue[0])
  {
    if !c.running || |queue| == 0 then (c, queue, [])
    else
      var p := queue[0];
      var reply := if c.dns.Some? then DnsSpoofer.Process(c.dns.value, p) else None;
      var dnsEvents := if reply.Some? then [DnsReply(reply.value)] else [];
      if c.forwarding then
        var f := Forward(c, p, resolve, clock);
        (f.capture, queue[1..], [Observed(p)] + dnsEvents + [Forwarding(f)])
      else (c, queue[1..], [Observed(p)] + dnsEvents)
  }

  /**
   * A step's events: the frame is observed first, a DNS reply is sent only
   * by an attached spoofer that answers the frame, and Forward runs last and
   * only when forwarding is on; the manager changes only through Forward.
   */
  lemma StepOrder(c: Capture, queue: seq<Packet>, resolve: IpAddress -> Option<MacAddress>, clock: seq<int>)
    requires c.running && |queue| > 0
    ensures var (c', rest, events) := Step(c, queue, resolve, clock);
      var p := queue[0];
      var answers := c.dns.Some? && DnsSpoofer.Process(c.dns.value, p).Some?;
      && |events| == 1 + (if answers then 1 else 0) + (if c.forwarding then 1 else 0)
      && (answers ==> events[1] == DnsReply(DnsSpoofer.Process(c.dns.value, p).value))
      && (c.forwarding ==> events[|events| - 1] == Forwarding(Forward(c, p, resolve, clock)) && c' == Forward(c, p, resolve, clock).capture)
      && (!c.forwarding ==> c' == c)
      && (forall i :: 1 <= i < |events| ==> !events[i].Observed?)
  {
  }
}

=== FILE: dns_parser.dfy ===
/**
 * The DNS wire format as the spoofer reads and writes it (RFC 1035): the
 * 12-byte header of section 4.1.1, the first question of section 4.1.2 with
 * its name as length-prefixed labels (section 3.1, no compression pointers),
 * and one A resource record (section 4.1.3) in the forged answer.
 */
module DnsParser {
  import opened Wrappers
  import opened Bytes
  import opened Text

  datatype Question = Question(name: string, qtype: u16, qclass: u16)

  /** The header flags of RFC 1035 section 4.1.1, decoded from bytes 2 and 3 of a message. */
  datatype Flags = Flags(qr: bool, opcode: int, aa: bool, tc: bool, rd: bool, ra: bool, z: int, rcode: int)

  const HeaderLength: nat := 12
  const TypeA: u16 := 1
  const ClassIN: u16 := 1
  const AnswerTtl: nat := 60

  function DecodeFlags(hi: byte, lo: byte): Flags {
    Flags(hi / 128 == 1, (hi / 8) % 16, (hi / 4) % 2 == 1, (hi / 2) % 2 == 1, hi % 2 == 1,
          lo / 128 == 1, (lo / 16) % 8, lo % 16)
  }

  /** The QR test of DnsSpoofer.Process: `(flags & 0x8000) != 0` on the big-endian flags word. */
  predicate IsResponse(hi: byte, lo: byte) {
    BE16(hi, lo) >= 0x8000
  }

  lemma IsResponseIsQrBit(hi: byte, lo: byte)
    ensures IsResponse(hi, lo) <==> DecodeFlags(hi, lo).qr
  {
  }

  /** Encoding.ASCII.GetString of one byte: bytes above 0x7F decode to '?'. */
  function AsciiChar(b: byte): (c: char)
    ensures c as int < 0x80
  {
    if b < 0x80 then b as char else '?'
  }

  /** Encoding.ASCII.GetBytes of one char: chars above 0x7F encode as '?'. */
  function AsciiByte(c: char): (b: byte)
    ensures b < 0x80
    ensures c as int < 0x80 ==> b == c as int
  {
    if c as int < 0x80 then c as int else '?' as int
  }

  function AsciiDecode(bs: seq<byte>): (s: string)
    ensures |s| == |bs|
  {
    seq(|bs|, i requires 0 <= i < |bs| => AsciiChar(bs[i]))
  }

  function AsciiEncode(s: string): (bs: seq<byte>)
    ensures |bs| == |s|
  {
    seq(|s|, i requires 0 <= i < |s| => AsciiByte(s[i]))
  }

  predicate IsAscii(s: string) {
    forall i :: 0 <= i < |s| ==> s[i] as int < 0x80
  }

  lemma AsciiDecodeEncode(s: string)
    requires IsAscii(s)
    ensures AsciiDecode(AsciiEncode(s)) == s
  {
  }

  // ---------------------------------------------------------------- parsing

  /**
   * DnsParser.ReadName from offset `idx`: the labels up to the zero byte and
   * the offset just past it, or None where the C# loop would read past the end.
   */
  function ReadName(msg: seq<byte>, idx: nat): (r: Option<(seq<string>, nat)>)
    ensures r.Some? ==> idx < r.value.1 <= |msg| && msg[r.value.1 - 1] == 0
    decreases |msg| - idx
  {
    if idx >= |msg| then None
    else
      var len := msg[idx];
      if len == 0 then Some(([], idx + 1))
      else if idx + 1 + len > |msg| then None
      else
        match ReadName(msg, idx + 1 + len)
        case None => None
        case Some((rest, next)) => Some(([AsciiDecode(msg[idx + 1..idx + 1 + len])] + rest, next))
  }

  /** Every label read is 1 to 255 ASCII characters: a length byte is never zero, and decoding maps every byte below 0x80. */
  lemma {:induction false} ReadNameLabels(msg: seq<byte>, idx: nat)
    requires ReadName(msg, idx).Some?
    ensures var labels := ReadName(msg, idx).value.0;
      forall k :: 0 <= k < |labels| ==> 1 <= |labels[k]| <= 255 && IsAscii(labels[k])
    decreases |msg| - idx
  {
    var len := msg[idx];
    if len != 0 {
      ReadNameLabels(msg, idx + 1 + len);
      var rest := ReadName(msg, idx + 1 + len).value.0;
      var first := AsciiDecode(msg[idx + 1..idx + 1 + len]);
      assert ReadName(msg, idx).value.0 == [first] + rest;
    }
  }

  /**
   * DnsParser.ParseQuestion: the name read from offset 12, then type and class
   * as big-endian 16-bit fields; None when any read falls past the end.
   */
  function ParseQuestion(msg: seq<byte>): (r: Option<Question>)
    ensures r.Some? ==> |msg| >= HeaderLength + 5
    ensures r.Some? ==> IsAscii(r.value.name)
  {
    match ReadName(msg, HeaderLength)
    case None => None
    case Some((labels, i)) =>
      if i + 4 <= |msg| then
        ReadNameLabels(msg, HeaderLength);
        JoinAscii(labels);
        Some(Question(Join(labels, '.'), BE16(msg[i], msg[i + 1]), BE16(msg[i + 2], msg[i + 3])))
      else None
  }

  /** The offset just past the question, when it parses. */
  function QuestionEnd(msg: seq<byte>): Option<nat> {
    match ReadName(msg, HeaderLength)
    case None => None
    case Some((_, i)) => if i + 4 <= |msg| then Some(i + 4) else None
  }

  lemma {:induction false} JoinAscii(parts: seq<string>)
    requires forall k :: 0 <= k < |parts| ==> IsAscii(parts[k])
    ensures IsAscii(Join(parts, '.'))
    decreases |parts|
  {
    if |parts| > 1 {
      JoinAscii(parts[1..]);
    }
  }

  // --------------------------------------------------------------- building

  /** Each label as its length byte (`(byte)b.Length`) followed by its ASCII bytes. */
  function EncodeLabels(parts: seq<string>): seq<byte>
    decreases |parts|
  {
    if |parts| == 0 then []
    else [|parts[0]| % 256] + AsciiEncode(parts[0]) + EncodeLabels(parts[1..])
  }

  /** The name length computed by BuildAResponse: one length byte plus the bytes of each label, plus the zero byte. */
  function NameLength(name: string): nat {
    LabelsLength(Split(name, '.')) + 1
  }

  function LabelsLength(parts: seq<string>): nat
    decreases |parts|
  {
    if |parts| == 0 then 0 else 1 + |parts[0]| + LabelsLength(parts[1..])
  }

  /** The uncompressed wire form of `name`, split at '.', ending in the zero byte. */
  function EncodeName(name: string): (b: seq<byte>)
    ensures |b| == NameLength(name)
    ensures b[|b| - 1] == 0
  {
    EncodeLabelsLength(Split(name, '.'));
    EncodeLabels(Split(name, '.')) + [0]
  }

  lemma {:induction false} EncodeLabelsLength(parts: seq<string>)
    ensures |EncodeLabels(parts)| == LabelsLength(parts)
    decreases |parts|
  {
    if |parts| > 0 {
      EncodeLabelsLength(parts[1..]);
    }
  }

  /** The 12-byte header of the forged answer: same ID, flags 0x8180, one question, one answer. */
  function ResponseHeader(txId: u16): (h: seq<byte>)
    ensures |h| == HeaderLength
  {
    [txId / 0x100, txId % 0x100, 0x81, 0x80, 0, 1, 0, 1, 0, 0, 0, 0]
  }

  /** The header's fields: the query's ID, response flags with RD and RA and no error, one question and one answer. */
  lemma ResponseHeaderBytes(txId: u16)
    ensures var h := ResponseHeader(txId);
      && BE16(h[0], h[1]) == txId
      && DecodeFlags(h[2], h[3]) == Flags(true, 0, false, false, true, true, 0, 0)
      && BE16(h[4], h[5]) == 1 && BE16(h[6], h[7]) == 1
      && BE16(h[8], h[9]) == 0 && BE16(h[10], h[11]) == 0
  {
    var h := ResponseHeader(txId);
    assert h[2] == 0x81 && h[3] == 0x80;
  }

  /** The question section: the name, then the query's own type and class. */
  function QuestionSection(q: Question): (s: seq<byte>)
    ensures |s| == NameLength(q.name) + 4
  {
    EncodeName(q.name) + U16Bytes(q.qtype) + U16Bytes(q.qclass)
  }

  /** The question section's fields: the encoded name, then the query's type and class. */
  lemma QuestionSectionFields(q: Question)
    ensures var s := QuestionSection(q); var n := NameLength(q.name);
      && s[..n] == EncodeName(q.name)
      && BE16(s[n], s[n + 1]) == q.qtype && BE16(s[n + 2], s[n + 3]) == q.qclass
  {
    var name := EncodeName(q.name);
    assert QuestionSection(q)[..|name|] == name;
  }

  /** The answer record: the full name, type A, class IN, TTL 60, RDLENGTH 4, and four address bytes. */
  function AnswerSection(name: string, ip: IpAddress): (s: seq<byte>)
    ensures |s| == NameLength(name) + 14
  {
    EncodeName(name) + ([0, 1, 0, 1, 0, 0, 0, AnswerTtl, 0, 4] + First4(ip))
  }

  /** The answer record's fields: the name, type A, class IN, TTL 60, RDLENGTH 4, then the address. */
  lemma AnswerSectionFields(name: string, ip: IpAddress)
    ensures var s := AnswerSection(name, ip); var n := NameLength(name);
      && s[..n] == EncodeName(name)
      && BE16(s[n], s[n + 1]) == TypeA && BE16(s[n + 2], s[n + 3]) == ClassIN
      && s[n + 4..n + 8] == [0, 0, 0, AnswerTtl]
      && BE16(s[n + 8], s[n + 9]) == 4
      && s[n + 10..] == First4(ip)
  {
    var nm := EncodeName(name);
    var rest: seq<byte> := [0, 1, 0, 1, 0, 0, 0, AnswerTtl, 0, 4] + First4(ip);
    var s := AnswerSection(name, ip);
    assert s[..|nm|] == nm;
    assert s[|nm|..] == rest;
    assert rest[4..8] == [0, 0, 0, AnswerTtl];
    assert rest[10..] == First4(ip);
  }

  /**
   * DnsParser.BuildAResponse: header, the echoed question, and one A record
   * carrying the full name again and the first four bytes of `ip`.
   */
  function BuildAResponse(txId: u16, q: Question, ip: IpAddress): (r: seq<byte>)
    ensures var n := NameLength(q.name);
      && |r| == HeaderLength + (n + 4) + (n + 14)
      && r[..HeaderLength] == ResponseHeader(txId)
      && r[HeaderLength..HeaderLength + n + 4] == QuestionSection(q)
      && r[HeaderLength + n + 4..] == AnswerSection(q.name, ip)
  {
    var h := ResponseHeader(txId);
    var qs := QuestionSection(q);
    var r := h + qs + AnswerSection(q.name, ip);
    assert r[..HeaderLength] == h;
    assert r[HeaderLength..HeaderLength + |qs|] == qs;
    r
  }

  /** The header fields of the forged response, read at their absolute offsets. */
  lemma ResponseHeaderFields(txId: u16, q: Question, ip: IpAddress)
    ensures var r := BuildAResponse(txId, q, ip);
      && BE16(r[0], r[1]) == txId
      && DecodeFlags(r[2], r[3]) == Flags(true, 0, false, false, true, true, 0, 0)
      && BE16(r[4], r[5]) == 1 && BE16(r[6], r[7]) == 1
      && BE16(r[8], r[9]) == 0 && BE16(r[10], r[11]) == 0
  {
    var r := BuildAResponse(txId, q, ip);
    var h := ResponseHeader(txId);
    ResponseHeaderBytes(txId);
    assert forall j :: 0 <= j < 12 ==> r[j] == r[..12][j] == h[j];
  }

  /** The question section of the forged response echoes the name, type and class at offset 12. */
  lemma ResponseQuestionFields(txId: u16, q: Question, ip: IpAddress)
    ensures var r := BuildAResponse(txId, q, ip); var n := NameLength(q.name);
      && r[12..12 + n] == EncodeName(q.name)
      && BE16(r[12 + n], r[13 + n]) == q.qtype && BE16(r[14 + n], r[15 + n]) == q.qclass
  {
    var r := BuildAResponse(txId, q, ip);
    var n := NameLength(q.name);
    FieldsAt(r, HeaderLength, QuestionSection(q), n);
    QuestionSectionFields(q);
  }

  /** Where `e` sits at offset `a`, its prefix and the four bytes after it sit there too. */
  lemma FieldsAt(r: seq<byte>, a: nat, e: seq<byte>, n: nat)
    requires |e| == n + 4 && a + |e| <= |r| && r[a..a + |e|] == e
    ensures r[a..a + n] == e[..n]
    ensures r[a + n] == e[n] && r[a + n + 1] == e[n + 1] && r[a + n + 2] == e[n + 2] && r[a + n + 3] == e[n + 3]
  {
    assert r[a..a + n] == r[a..a + |e|][..n];
  }

  // ------------------------------------------------------------ properties

  /** A name the builder writes back faithfully: every '.'-separated label is non-empty, ASCII and under 256 bytes. */
  predicate ValidName(name: string) {
    ValidLabels(Split(name, '.'))
  }

  /** Every label is non-empty, ASCII and under 256 bytes. */
  predicate ValidLabels(parts: seq<string>)
    decreases |parts|
  {
    |parts| == 0 || (1 <= |parts[0]| <= 255 && IsAscii(parts[0]) && ValidLabels(parts[1..]))
  }

  /** `e` appears in `msg` at offset `idx`. */
  predicate BytesAt(msg: seq<byte>, idx: nat, e: seq<byte>) {
    idx + |e| <= |msg| && msg[idx..idx + |e|] == e
  }

  lemma BytesAtSplit(msg: seq<byte>, idx: nat, x: seq<byte>, y: seq<byte>)
    requires BytesAt(msg, idx, x + y)
    ensures BytesAt(msg, idx, x) && BytesAt(msg, idx + |x|, y)
  {
    assert msg[idx..idx + |x|] == (x + y)[..|x|];
    assert msg[idx + |x|..idx + |x| + |y|] == (x + y)[|x|..];
  }

  /** The wire form of `parts` laid out from `idx`, one label at a time, ending in the zero byte. */
  predicate EncodedAt(msg: seq<byte>, idx: nat, parts: seq<string>)
    decreases |parts|
  {
    && idx < |msg|
    && if |parts| == 0 then msg[idx] == 0
       else
         var next := idx + 1 + |parts[0]|;
         && msg[idx] == |parts[0]| && next <= |msg|
         && msg[idx + 1..next] == AsciiEncode(parts[0])
         && EncodedAt(msg, next, parts[1..])
  }

  /** The bytes EncodeLabels writes, followed by the zero byte, are laid out label by label. */
  lemma {:induction false} EncodedAtFromBytes(msg: seq<byte>, idx: nat, parts: seq<string>)
    requires ValidLabels(parts)
    requires BytesAt(msg, idx, EncodeLabels(parts) + [0])
    ensures EncodedAt(msg, idx, parts)
    decreases |parts|
  {
    if |parts| == 0 {
      assert msg[idx] == (EncodeLabels(parts) + [0])[0];
    } else {
      EncodedHead(msg, idx, parts);
      EncodedAtFromBytes(msg, idx + 1 + |parts[0]|, parts[1..]);
    }
  }

  /** Reading well-formed labels laid out from `idx` gives those labels back and stops just past the zero byte. */
  lemma {:induction false} ReadEncodedLabels(msg: seq<byte>, idx: nat, parts: seq<string>)
    requires ValidLabels(parts)
    requires EncodedAt(msg, idx, parts)
    ensures ReadName(msg, idx) == Some((parts, idx + LabelsLength(parts) + 1))
    decreases |parts|
  {
    if |parts| > 0 {
      var p, rest := parts[0], parts[1..];
      ReadEncodedLabels(msg, idx + 1 + |p|, rest);
      ReadLabelsCons(msg, idx, p, rest, LabelsLength(rest));
      ConsLength(parts);
    }
  }

  /** A non-empty label list is its head in front of its tail, and its encoded length is the head's plus the tail's. */
  lemma ConsLength(parts: seq<string>)
    requires |parts| > 0
    ensures parts == [parts[0]] + parts[1..]
    ensures LabelsLength(parts) == 1 + |parts[0]| + LabelsLength(parts[1..])
  {
  }

  lemma EncodedHead(msg: seq<byte>, idx: nat, parts: seq<string>)
    requires |parts| > 0 && |parts[0]| <= 255
    requires BytesAt(msg, idx, EncodeLabels(parts) + [0])
    ensures var p := parts[0]; var next := idx + 1 + |p|;
      && msg[idx] == |p| && msg[idx + 1..next] == AsciiEncode(p)
      && BytesAt(msg, next, EncodeLabels(parts[1..]) + [0])
  {
    var p := parts[0];
    var tail := EncodeLabels(parts[1..]);
    assert EncodeLabels(parts) + [0] == [|p|] + (AsciiEncode(p) + (tail + [0]));
    BytesAtSplit(msg, idx, [|p|], AsciiEncode(p) + (tail + [0]));
    BytesAtSplit(msg, idx + 1, AsciiEncode(p), tail + [0]);
  }

  /** A label's length byte and ASCII bytes in front of a readable name read as that label followed by the name. */
  lemma ReadLabelsCons(msg: seq<byte>, idx: nat, p: string, rest: seq<string>, tailLen: nat)
    requires 1 <= |p| <= 255 && IsAscii(p)
    requires idx < |msg| && msg[idx] == |p| && idx + 1 + |p| <= |msg|
    requires msg[idx + 1..idx + 1 + |p|] == AsciiEncode(p)
    requires ReadName(msg, idx + 1 + |p|) == Some((rest, idx + 1 + |p| + tailLen + 1))
    ensures ReadName(msg, idx) == Some(([p] + rest, idx + 1 + |p| + tailLen + 1))
  {
    AsciiDecodeEncode(p);
    ReadNameStep(msg, idx, rest, idx + 1 + |p| + tailLen + 1);
  }

  /** One turn of the ReadName loop: a non-zero length byte, that many bytes, then the rest of the name. */
  lemma ReadNameStep(msg: seq<byte>, idx: nat, rest: seq<string>, end: nat)
    requires idx < |msg| && msg[idx] != 0 && idx + 1 + msg[idx] <= |msg|
    requires ReadName(msg, idx + 1 + msg[idx]) == Some((rest, end))
    ensures ReadName(msg, idx) == Some(([AsciiDecode(msg[idx + 1..idx + 1 + msg[idx]])] + rest, end))
  {
  }

  /** Round trip: the question of a built response parses back to the original name, type and class. */
  lemma ParseBuiltResponse(txId: u16, q: Question, ip: IpAddress)
    requires ValidName(q.name)
    ensures ParseQuestion(BuildAResponse(txId, q, ip)) == Some(q)
  {
    var r := BuildAResponse(txId, q, ip);
    var n := NameLength(q.name);
    var parts := Split(q.name, '.');
    assert EncodeName(q.name) == EncodeLabels(parts) + [0];
    ResponseQuestionFields(txId, q, ip);
    assert BytesAt(r, HeaderLength, EncodeLabels(parts) + [0]);
    EncodedAtFromBytes(r, HeaderLength, parts);
    ReadEncodedLabels(r, HeaderLength, parts);
    EncodeLabelsLength(parts);
    JoinSplit(q.name, '.');
  }

  /** Bytes after the question do not change what is parsed. */
  lemma {:induction false} ReadNameExtend(msg: seq<byte>, extra: seq<byte>, idx: nat)
    requires ReadName(msg, idx).Some?
    ensures ReadName(msg + extra, idx) == ReadName(msg, idx)
    decreases |msg| - idx
  {
    var len := msg[idx];
    assert (msg + extra)[idx] == len;
    if len != 0 {
      assert (msg + extra)[idx + 1..idx + 1 + len] == msg[idx + 1..idx + 1 + len];
      ReadNameExtend(msg, extra, idx + 1 + len);
    }
  }

  /** Cutting the message anywhere inside the name makes the read fail instead of going past the end. */
  lemma {:induction false} ReadNameTruncate(msg: seq<byte>, idx: nat, k: nat)
    requires ReadName(msg, idx).Some?
    requires k < ReadName(msg, idx).value.1
    ensures ReadName(msg[..k], idx) == None
    decreases |msg| - idx
  {
    if idx < k {
      var len := msg[idx];
      assert msg[..k][idx] == len;
      if idx + 1 + len <= k {
        ReadNameTruncate(msg, idx + 1 + len, k);
      }
    }
  }

  /** Dropping bytes after the end of the name does not change what is read. */
  lemma {:induction false} ReadNameRestrict(msg: seq<byte>, idx: nat, k: nat)
    requires ReadName(msg, idx).Some?
    requires ReadName(msg, idx).value.1 <= k <= |msg|
    ensures ReadName(msg[..k], idx) == ReadName(msg, idx)
    decreases |msg| - idx
  {
    var len := msg[idx];
    assert msg[..k][idx] == len;
    if len != 0 {
      assert msg[..k][idx + 1..idx + 1 + len] == msg[idx + 1..idx + 1 + len];
      ReadNameRestrict(msg, idx + 1 + len, k);
    }
  }

  /** A parsed question stays parsed when bytes follow it, and any cut before its end makes it unparsable. */
  lemma ParseQuestionPrefix(msg: seq<byte>, extra: seq<byte>, k: nat)
    requires ParseQuestion(msg).Some?
    ensures QuestionEnd(msg).Some? && QuestionEnd(msg).value <= |msg|
    ensures ParseQuestion(msg + extra) == ParseQuestion(msg)
    ensures k < QuestionEnd(msg).value ==> ParseQuestion(msg[..k]) == None
  {
    ReadNameExtend(msg, extra, HeaderLength);
    var i := ReadName(msg, HeaderLength).value.1;
    assert (msg + extra)[i..i + 4] == msg[i..i + 4];
    if k < i {
      ReadNameTruncate(msg, HeaderLength, k);
    } else if k < i + 4 {
      ReadNameRestrict(msg, HeaderLength, k);
    }
  }
}

=== FILE: dns_spoofer.dfy ===
/**
 * DnsSpoofer.Process: answers a DNS query with a forged A record when the
 * queried name matches a rule, addressed back to the querier. The forged
 * answer races the real server's; nothing is suppressed.
 */
module DnsSpoofer {
  import opened Wrappers
  import opened Bytes
  import opened Text
  import opened Frames
  import opened Models
  import opened DnsParser

  const DnsPort: u16 := 53

  /** The interface's hardware address and the operator's rule list, which this component only reads. */
  datatype Spoofer = Spoofer(nicMac: MacAddress, rules: seq<DnsRule>)

  /** Rule domain `d` covers `name` when it is the name itself or one of its parent domains. */
  predicate RuleMatches(name: string, d: string) {
    name == d || EndsWith(name, "." + d)
  }

  /** Suffix matching only ever cuts the name at a '.', never inside a label. */
  lemma RuleMatchesAtLabelBoundary(name: string, d: string)
    ensures RuleMatches(name, d) <==> name == d || exists pre :: name == pre + "." + d
  {
    if EndsWith(name, "." + d) {
      var pre := name[..|name| - |d| - 1];
      assert name == pre + "." + d;
    }
    if exists pre :: name == pre + "." + d {
      var pre :| name == pre + "." + d;
      assert name[|name| - |d| - 1..] == "." + d;
    }
  }

  lemma SiblingDoesNotMatch()
    ensures !RuleMatches("notexample.com", "example.com")
    ensures RuleMatches("www.example.com", "example.com")
    ensures RuleMatches("example.com", "example.com")
  {
    assert "notexample.com"[3..] == "example.com";
    assert "notexample.com"[2] != '.';
    assert "www.example.com"[3..] == ".example.com";
  }

  /** `_rules.FirstOrDefault(...)`: the position of the first rule in list order that covers `name`. */
  function FirstMatch(rules: seq<DnsRule>, name: string): (i: Option<nat>)
    ensures i.Some? ==> i.value < |rules| && RuleMatches(name, rules[i.value].domain)
    ensures i.Some? ==> forall j :: 0 <= j < i.value ==> !RuleMatches(name, rules[j].domain)
    ensures i.None? <==> forall j :: 0 <= j < |rules| ==> !RuleMatches(name, rules[j].domain)
  {
    if |rules| == 0 then None
    else if RuleMatches(name, rules[0].domain) then Some(0)
    else
      match FirstMatch(rules[1..], name)
      case None => None
      case Some(k) => Some(k + 1)
  }

  /** The query conditions Process checks before it looks at the rules. */
  predicate IsDnsQuery(p: Packet) {
    && p.eth.Some? && p.ip.Some? && p.udp.Some?
    && p.udp.value.dstPort == DnsPort
    && |p.udp.value.payload| >= HeaderLength
    && !IsResponse(p.udp.value.payload[2], p.udp.value.payload[3])
  }

  /**
   * DnsSpoofer.Process: the forged reply frame to transmit, or None when the
   * frame is not a DNS query, its question does not parse, or no rule covers
   * the lower-cased name.
   */
  function Process(s: Spoofer, p: Packet): (r: Option<Packet>)
    ensures r.Some? <==>
      && IsDnsQuery(p)
      && ParseQuestion(p.udp.value.payload).Some?
      && FirstMatch(s.rules, ToLower(ParseQuestion(p.udp.value.payload).value.name)).Some?
    ensures r.Some? ==>
      && r.value.eth == Some(Ethernet(p.eth.value.src, s.nicMac, EtherTypeIPv4))
      && r.value.ip == Some(Ipv4(p.ip.value.dst, p.ip.value.src))
      && r.value.udp.Some? && r.value.tcp.None?
      && r.value.udp.value.srcPort == DnsPort
      && r.value.udp.value.dstPort == p.udp.value.srcPort
      && r.value.length == UdpFrameOverhead + |r.value.udp.value.payload|
  {
    if !IsDnsQuery(p) then None
    else
      var query := p.udp.value.payload;
      var txId := BE16(query[0], query[1]);
      match ParseQuestion(query)
      case None => None
      case Some(q) =>
        match FirstMatch(s.rules, ToLower(q.name))
        case None => None
        case Some(i) =>
          var payload := BuildAResponse(txId, q, s.rules[i].redirectTo);
          var eth := p.eth.value;
          var ip := p.ip.value;
          Some(Packet(
            Some(Ethernet(eth.src, s.nicMac, EtherTypeIPv4)),
            Some(Ipv4(ip.dst, ip.src)),
            Some(Udp(DnsPort, p.udp.value.srcPort, payload)),
            None,
            UdpFrameOverhead + |payload|))
  }

  /**
   * What the forged answer says: the query's transaction ID, a response with
   * RD and RA set and no error, the question echoed (for a name the builder can
   * write back), and an A record for the first matching rule's address.
   */
  lemma ForgedAnswer(s: Spoofer, p: Packet)
    requires Process(s, p).Some?
    ensures var query := p.udp.value.payload;
      var q := ParseQuestion(query).value;
      var rule := s.rules[FirstMatch(s.rules, ToLower(q.name)).value];
      var resp := Process(s, p).value.udp.value.payload;
      var n := NameLength(q.name);
      && resp[0] == query[0] && resp[1] == query[1]
      && DecodeFlags(resp[2], resp[3]) == Flags(true, 0, false, false, true, true, 0, 0)
      && resp[HeaderLength + n + 4..] == AnswerSection(q.name, rule.redirectTo)
      && (ValidName(q.name) ==> ParseQuestion(resp) == Some(q))
  {
    var query := p.udp.value.payload;
    var q := ParseQuestion(query).value;
    var rule := s.rules[FirstMatch(s.rules, ToLower(q.name)).value];
    var txId := BE16(query[0], query[1]);
    ResponseHeaderFields(txId, q, rule.redirectTo);
    if ValidName(q.name) {
      ParseBuiltResponse(txId, q, rule.redirectTo);
    }
  }

  /** A name that is not covered by any rule never gets an answer, whatever else holds. */
  lemma UnmatchedNameIsIgnored(s: Spoofer, p: Packet)
    requires IsDnsQuery(p) && ParseQuestion(p.udp.value.payload).Some?
    requires forall j :: 0 <= j < |s.rules| ==>
      !RuleMatches(ToLower(ParseQuestion(p.udp.value.payload).value.name), s.rules[j].domain)
    ensures Process(s, p) == None
  {
  }
}

=== FILE: frames.dfy ===
/**
 * The captured frame as the packet library presents it: each protocol layer is
 * present or absent (`Packet.Extract<T>()` returning null), and the frame's
 * total length is kept alongside. Serialisation and checksums belong to the
 * library and are not modelled.
 */
module Frames {
  import opened Wrappers
  import opened Bytes
  import opened Text

  const EtherTypeIPv4: u16 := 0x0800
  const EtherTypeArp: u16 := 0x0806
  const EtherTypeIPv6: u16 := 0x86DD

  /** EthernetType.ToString(): the enumeration name, or the number for an unnamed value. */
  function EtherTypeName(t: u16): string {
    if t == EtherTypeIPv4 then "IPv4"
    else if t == EtherTypeArp then "Arp"
    else if t == EtherTypeIPv6 then "IPv6"
    else Decimal(t)
  }

  datatype Ethernet = Ethernet(dst: MacAddress, src: MacAddress, etherType: u16)

  datatype Ipv4 = Ipv4(src: Octets4, dst: Octets4) {
    function SourceAddress(): IpAddress { V4(src) }
    function DestinationAddress(): IpAddress { V4(dst) }
  }

  datatype Udp = Udp(srcPort: u16, dstPort: u16, payload: seq<byte>)

  datatype Tcp = Tcp(srcPort: u16, dstPort: u16)

  datatype Packet = Packet(
    eth: Option<Ethernet>,
    ip: Option<Ipv4>,
    udp: Option<Udp>,
    tcp: Option<Tcp>,
    length: nat)

  /** Ethernet, IPv4 and UDP header sizes of a frame built by the packet library. */
  const UdpFrameOverhead: nat := 14 + 20 + 8

  /** IPAddress.ToString() for an IPv4 address: dotted decimal. */
  function DottedQuad(o: Octets4): string {
    Decimal(o[0]) + "." + Decimal(o[1]) + "." + Decimal(o[2]) + "." + Decimal(o[3])
  }
}

=== FILE: host_policy.dfy ===
/**
 * HostPolicyManager: per-address policies, each a blocked flag and a
 * bandwidth limiter of its own. Setting a policy replaces the old one
 * outright, limiter included; there is no removal.
 */
module HostPolicy {
  import opened Wrappers
  import opened Bytes
  import opened BandwidthLimiter

  datatype Policy = Policy(blocked: bool, limiter: Limiter)

  type Policies = map<IpAddress, Policy>

  /** HostPolicy's constructor: the flag, and a new limiter with the given rates and delay. */
  function NewPolicy(downBytesPerSec: int, upBytesPerSec: int, blocked: bool, extraDelayMs: int, now: int): (p: Policy)
    ensures p.blocked == blocked
    ensures p.limiter.Rate(Download) == downBytesPerSec && p.limiter.Rate(Upload) == upBytesPerSec
    ensures p.limiter.extraDelayMs == extraDelayMs
    ensures p.limiter.Tokens(Download) == 0.0 && p.limiter.Tokens(Upload) == 0.0
  {
    Policy(blocked, NewLimiter(downBytesPerSec, upBytesPerSec, extraDelayMs, now))
  }

  /** SetPolicy: the address gets a new policy; every other address keeps its own. */
  function SetPolicy(ps: Policies, ip: IpAddress, downBytesPerSec: int, upBytesPerSec: int, blocked: bool, extraDelayMs: int, now: int): (r: Policies)
    ensures r.Keys == ps.Keys + {ip}
    ensures r[ip] == NewPolicy(downBytesPerSec, upBytesPerSec, blocked, extraDelayMs, now)
    ensures forall a :: a in ps && a != ip ==> r[a] == ps[a]
  {
    ps[ip := NewPolicy(downBytesPerSec, upBytesPerSec, blocked, extraDelayMs, now)]
  }

  /** IsBlocked: false for an address without a policy. */
  predicate IsBlocked(ps: Policies, ip: IpAddress) {
    ip in ps && ps[ip].blocked
  }

  /** GetLimiter: the address's own limiter, or nothing when it has no policy. */
  function GetLimiter(ps: Policies, ip: IpAddress): (l: Option<Limiter>)
    ensures l.None? <==> ip !in ps
    ensures l.Some? ==> l.value == ps[ip].limiter
  {
    if ip in ps then Some(ps[ip].limiter) else None
  }

  /**
   * The limiter object a throttle call mutates, written back: an address
   * with a policy gets its limiter replaced, and nothing else changes.
   */
  function PutLimiter(ps: Policies, ip: IpAddress, l: Limiter): (r: Policies)
    ensures r.Keys == ps.Keys
    ensures ip in ps ==> r[ip] == ps[ip].(limiter := l)
    ensures forall a :: a in ps && a != ip ==> r[a] == ps[a]
  {
    if ip in ps then ps[ip := ps[ip].(limiter := l)] else ps
  }

  /**
   * After SetPolicy, the address reports the flag just set and a limiter
   * with the rates and delay just set and both buckets empty, whatever its
   * earlier policy; every other address answers as before.
   */
  lemma SetThenQuery(ps: Policies, ip: IpAddress, down: int, up: int, blocked: bool, extra: int, now: int, other: IpAddress)
    requires other != ip
    ensures var r := SetPolicy(ps, ip, down, up, blocked, extra, now);
      && (IsBlocked(r, ip) <==> blocked)
      && GetLimiter(r, ip).Some?
      && GetLimiter(r, ip).value.Rate(Download) == down && GetLimiter(r, ip).value.Rate(Upload) == up
      && GetLimiter(r, ip).value.extraDelayMs == extra
      && GetLimiter(r, ip).value.Tokens(Download) == 0.0 && GetLimiter(r, ip).value.Tokens(Upload) == 0.0
      && (IsBlocked(r, other) <==> IsBlocked(ps, other))
      && GetLimiter(r, other) == GetLimiter(ps, other)
  {
  }

  /** The operations, in any order: the set of addresses with a policy only grows. */
  datatype Op = Set(ip: IpAddress, down: int, up: int, blocked: bool, extra: int, now: int) | Put(ip: IpAddress, l: Limiter)

  function Apply(ps: Policies, ops: seq<Op>): Policies
    decreases |ops|
  {
    if |ops| == 0 then ps
    else
      var p1 := match ops[0]
        case Set(ip, down, up, blocked, extra, now) => SetPolicy(ps, ip, down, up, blocked, extra, now)
        case Put(ip, l) => PutLimiter(ps, ip, l);
      Apply(p1, ops[1..])
  }

  /** No sequence of operations removes a policy, and a policy once set is never unset. */
  lemma {:induction false} KeysOnlyGrow(ps: Policies, ops: seq<Op>)
    ensures ps.Keys <= Apply(ps, ops).Keys
    ensures forall i :: 0 <= i < |ops| && ops[i].Set? ==> ops[i].ip in Apply(ps, ops)
    decreases |ops|
  {
    if |ops| > 0 {
      var p1 := match ops[0]
        case Set(ip, down, up, blocked, extra, now) => SetPolicy(ps, ip, down, up, blocked, extra, now)
        case Put(ip, l) => PutLimiter(ps, ip, l);
      KeysOnlyGrow(p1, ops[1..]);
      forall i | 1 <= i < |ops| && ops[i].Set?
        ensures ops[i].ip in Apply(ps, ops)
      {
        assert ops[1..][i - 1] == ops[i];
      }
    }
  }
}

=== FILE: host_tracker.dfy ===
/**
 * HostTracker: the LAN hosts seen in captured traffic and their
 * throughput. Every frame adds the hosts at both ends (when their address
 * is private) to the shared host list and adds its length to per-address
 * upload or download counters; once a second the counters of tracked
 * hosts are turned into kilobytes per second and cleared.
 *
 * The tracker refers to list entries by position: the source keeps object
 * references, and positions in the list never change (entries are only
 * appended or updated in place).
 */
module HostTracker {
  import opened Wrappers
  import opened Bytes
  import opened Frames
  import opened Models
  import VendorLookup
  import SubnetScanner

  /** IsLan: IPv4 with a first octet of 10, or 192.168, or 172 followed by 16..31. */
  predicate IsLan(ip: IpAddress) {
    ip.V4? && (ip.v4[0] == 10 || (ip.v4[0] == 192 && ip.v4[1] == 168) || (ip.v4[0] == 172 && 16 <= ip.v4[1] <= 31))
  }

  /** The three private blocks of section 3 of RFC 1918, as ranges of 32-bit addresses. */
  predicate PrivateBlock(u: int) {
    || (0x0A00_0000 <= u <= 0x0AFF_FFFF)
    || (0xAC10_0000 <= u <= 0xAC1F_FFFF)
    || (0xC0A8_0000 <= u <= 0xC0A8_FFFF)
  }

  /** The octet test of IsLan is exactly membership in the RFC 1918 blocks; no IPv6 address is LAN. */
  lemma IsLanIsPrivateBlock(ip: IpAddress)
    ensures IsLan(ip) <==> ip.V4? && PrivateBlock(SubnetScanner.IpToUInt(ip.v4))
  {
    if ip.V4? {
      var o := ip.v4;
      var b0: int, b1: int, b2: int, b3: int := o[0], o[1], o[2], o[3];
      var low := b2 * 0x100 + b3;
      var rest := b1 * 0x1_0000 + low;
      assert 0 <= low < 0x1_0000;
      assert 0 <= rest < 0x100_0000;
      assert SubnetScanner.IpToUInt(o) == b0 * 0x100_0000 + rest;
    }
  }

  /** The tracker's own state: the known gateway, its map from address to list position, and the byte counters. */
  datatype Tracker = Tracker(
    gateway: Option<IpAddress>,
    entries: map<IpAddress, nat>,
    upAcc: map<IpAddress, int>,
    downAcc: map<IpAddress, int>)

  /** The tracker together with the host list it shares with the window and the scanner. */
  datatype State = State(tracker: Tracker, hosts: seq<HostEntry>)

  function NewTracker(gateway: Option<IpAddress>): (t: Tracker)
    ensures t.gateway == gateway && t.entries == map[] && t.upAcc == map[] && t.downAcc == map[]
  {
    Tracker(gateway, map[], map[], map[])
  }

  /** Each tracked address points at an entry for that address. */
  predicate SoundRefs(s: State) {
    forall ip :: ip in s.tracker.entries ==>
      s.tracker.entries[ip] < |s.hosts| && s.hosts[s.tracker.entries[ip]].ip == ip
  }

  /** The tracker's references are sound and the list holds one entry per address. */
  predicate Valid(s: State) {
    OneEntryPerIp(s.hosts) && SoundRefs(s)
  }

  /** A sighting refreshes the entry's MAC text, its vendor and its last-seen time. */
  function Touch(h: HostEntry, macText: string, now: int): (e: HostEntry)
    ensures e.ip == h.ip && e.mac == macText && e.lastSeen == now
    ensures e.vendor == VendorLookup.Vendor(macText)
    ensures e.name == h.name && e.blocked == h.blocked
    ensures e.downLimitKbps == h.downLimitKbps && e.upLimitKbps == h.upLimitKbps
    ensures e.downloadKbps == h.downloadKbps && e.uploadKbps == h.uploadKbps
  {
    h.(mac := macText, vendor := VendorLookup.Vendor(macText), lastSeen := now)
  }

  /** Refresh the entry at position k, if there is one. */
  function TouchAt(hosts: seq<HostEntry>, k: nat, macText: string, now: int): (h: seq<HostEntry>)
    ensures |h| == |hosts|
    ensures k < |hosts| ==> h[k] == Touch(hosts[k], macText, now)
    ensures forall i :: 0 <= i < |hosts| && i != k ==> h[i] == hosts[i]
  {
    if k < |hosts| then hosts[k := Touch(hosts[k], macText, now)] else hosts
  }

  /** A new entry for an address first seen now: its MAC text and that text's vendor. */
  function FirstSighting(ip: IpAddress, macText: string, now: int): (e: HostEntry)
    ensures e == Touch(NewHostEntry(ip, "", "", now), macText, now)
  {
    NewHostEntry(ip, macText, VendorLookup.Vendor(macText), now)
  }

  /**
   * Track as the source writes it: an address the tracker's own map does
   * not know gets a new entry appended to the shared list, whether or not
   * the list already has one for that address.
   */
  function TrackAsWritten(s: State, ip: IpAddress, mac: MacAddress, now: int): (r: State)
    ensures !IsLan(ip) ==> r == s
    ensures IsLan(ip) ==> ip in r.tracker.entries
    ensures s.tracker.entries.Keys <= r.tracker.entries.Keys
    ensures r.tracker.gateway == s.tracker.gateway
    ensures r.tracker.upAcc == s.tracker.upAcc && r.tracker.downAcc == s.tracker.downAcc
  {
    if !IsLan(ip) then s
    else
      var text := FormatMac(mac);
      var t := s.tracker;
      if ip in t.entries then State(t, TouchAt(s.hosts, t.entries[ip], text, now))
      else State(t.(entries := t.entries[ip := |s.hosts|]), s.hosts + [FirstSighting(ip, text, now)])
  }

  /**
   * Track, corrected: an address the tracker does not know yet adopts the
   * list's existing entry for it, if any, and only otherwise appends one.
   */
  function Track(s: State, ip: IpAddress, mac: MacAddress, now: int): (r: State)
    ensures !IsLan(ip) ==> r == s
    ensures r.tracker.gateway == s.tracker.gateway
    ensures r.tracker.upAcc == s.tracker.upAcc && r.tracker.downAcc == s.tracker.downAcc
  {
    if !IsLan(ip) then s
    else
      var text := FormatMac(mac);
      var t := s.tracker;
      if ip in t.entries then State(t, TouchAt(s.hosts, t.entries[ip], text, now))
      else match IndexOfIp(s.hosts, ip)
        case Some(k) => State(t.(entries := t.entries[ip := k]), TouchAt(s.hosts, k, text, now))
        case None => State(t.(entries := t.entries[ip := |s.hosts|]), s.hosts + [FirstSighting(ip, text, now)])
  }

  /** When the list has no untracked entry for the address, both versions of Track agree. */
  lemma TrackAsWrittenAgrees(s: State, ip: IpAddress, mac: MacAddress, now: int)
    requires ip in s.tracker.entries || IndexOfIp(s.hosts, ip).None?
    ensures TrackAsWritten(s, ip, mac, now) == Track(s, ip, mac, now)
  {
  }

  /**
   * The source's Track breaks the one-entry-per-address rule whenever the
   * list already holds an entry the tracker has not seen (a host the
   * subnet scan found before capture started, or any host after a restart).
   */
  lemma TrackAsWrittenDuplicates(s: State, ip: IpAddress, mac: MacAddress, now: int)
    requires IsLan(ip) && ip !in s.tracker.entries && IndexOfIp(s.hosts, ip).Some?
    ensures var r := TrackAsWritten(s, ip, mac, now);
      !OneEntryPerIp(r.hosts) && r.hosts[IndexOfIp(s.hosts, ip).value].ip == r.hosts[|s.hosts|].ip
  {
    var k := IndexOfIp(s.hosts, ip).value;
    var r := TrackAsWritten(s, ip, mac, now);
    assert r.hosts[k].ip == ip && r.hosts[|s.hosts|].ip == ip;
  }

  /** Scan first, then start capturing: the first frame from the scanned host lists it twice. */
  lemma ScanThenCaptureListsHostTwice(mac: MacAddress, now: int)
    ensures var ip := V4([192, 168, 1, 10]);
      var scanned := [NewHostEntry(ip, "", "", now)];
      var r := TrackAsWritten(State(NewTracker(None), scanned), ip, mac, now);
      |r.hosts| == 2 && r.hosts[0].ip == ip && r.hosts[1].ip == ip
  {
    var ip := V4([192, 168, 1, 10]);
    var scanned := [NewHostEntry(ip, "", "", now)];
    TrackAsWrittenDuplicates(State(NewTracker(None), scanned), ip, mac, now);
  }

  /**
   * The source's Track keeps the tracker's references sound even where it
   * lists an address twice: the address it tracks points at the entry it
   * touched or appended, and no entry moves.
   */
  lemma TrackAsWrittenKeepsSoundRefs(s: State, ip: IpAddress, mac: MacAddress, now: int)
    requires SoundRefs(s)
    ensures SoundRefs(TrackAsWritten(s, ip, mac, now))
  {
    var r := TrackAsWritten(s, ip, mac, now);
    if IsLan(ip) && ip !in s.tracker.entries {
      forall a | a in r.tracker.entries
        ensures r.tracker.entries[a] < |r.hosts| && r.hosts[r.tracker.entries[a]].ip == a
      {
        if a != ip {
          assert r.hosts[s.tracker.entries[a]] == s.hosts[s.tracker.entries[a]];
        }
      }
    }
  }

  /**
   * Track (corrected) keeps the references sound: afterwards a LAN address
   * is tracked, and every address tracked before still points where it did.
   */
  lemma TrackKeepsValid(s: State, ip: IpAddress, mac: MacAddress, now: int)
    requires Valid(s)
    ensures var r := Track(s, ip, mac, now);
      && Valid(r)
      && (IsLan(ip) ==> ip in r.tracker.entries)
      && (forall a :: a in s.tracker.entries ==> a in r.tracker.entries && r.tracker.entries[a] == s.tracker.entries[a])
  {
    if IsLan(ip) {
      var text := FormatMac(mac);
      var t := s.tracker;
      if ip in t.entries {
        TouchKeepsValid(s, t.entries[ip], text, now);
      } else {
        match IndexOfIp(s.hosts, ip)
        case Some(k) =>
          TouchKeepsValid(s, k, text, now);
          AdoptKeepsValid(State(t, TouchAt(s.hosts, k, text, now)), ip, k);
        case None =>
          AppendKeepsValid(s, FirstSighting(ip, text, now));
      }
    }
  }

  /** Refreshing an entry in place keeps the references sound. */
  lemma TouchKeepsValid(s: State, k: nat, macText: string, now: int)
    requires Valid(s)
    ensures Valid(State(s.tracker, TouchAt(s.hosts, k, macText, now)))
  {
    var h := TouchAt(s.hosts, k, macText, now);
    assert forall i :: 0 <= i < |h| ==> h[i].ip == s.hosts[i].ip;
  }

  /** Pointing an address at an entry for it keeps the references sound. */
  lemma AdoptKeepsValid(s: State, ip: IpAddress, k: nat)
    requires Valid(s) && k < |s.hosts| && s.hosts[k].ip == ip
    ensures Valid(State(s.tracker.(entries := s.tracker.entries[ip := k]), s.hosts))
  {
  }

  /** Appending an entry for an address the list lacks, and tracking it there, keeps the references sound. */
  lemma AppendKeepsValid(s: State, e: HostEntry)
    requires Valid(s) && IndexOfIp(s.hosts, e.ip).None?
    ensures Valid(State(s.tracker.(entries := s.tracker.entries[e.ip := |s.hosts|]), s.hosts + [e]))
  {
    var h := s.hosts + [e];
    assert forall i :: 0 <= i < |s.hosts| ==> h[i] == s.hosts[i];
  }

  /**
   * After Track a LAN address's entry carries the frame's MAC text and time;
   * the list grows by one entry exactly when no entry had the address.
   */
  lemma TrackRecordsSighting(s: State, ip: IpAddress, mac: MacAddress, now: int)
    requires Valid(s) && IsLan(ip)
    ensures var r := Track(s, ip, mac, now);
      && ip in r.tracker.entries
      && r.tracker.entries[ip] < |r.hosts|
      && r.hosts[r.tracker.entries[ip]].mac == FormatMac(mac)
      && r.hosts[r.tracker.entries[ip]].lastSeen == now
      && |r.hosts| == |s.hosts| + (if IndexOfIp(s.hosts, ip).None? then 1 else 0)
  {
    if ip in s.tracker.entries {
      assert IndexOfIp(s.hosts, ip).Some?;
    }
  }

  /** Track changes no entry for another address, and the list never shrinks. */
  lemma TrackKeepsOthers(s: State, ip: IpAddress, mac: MacAddress, now: int)
    requires Valid(s)
    ensures var r := Track(s, ip, mac, now);
      && |s.hosts| <= |r.hosts|
      && (forall i :: 0 <= i < |s.hosts| && s.hosts[i].ip != ip ==> r.hosts[i] == s.hosts[i])
  {
  }

  /** The counter of an address: its bytes so far, zero when it has none. */
  function Count(acc: map<IpAddress, int>, ip: IpAddress): int {
    if ip in acc then acc[ip] else 0
  }

  /** AddOrUpdate(ip, bytes, (_, v) => v + bytes). */
  function AddBytes(acc: map<IpAddress, int>, ip: IpAddress, bytes: int): (r: map<IpAddress, int>)
    ensures ip in r && Count(r, ip) == Count(acc, ip) + bytes
    ensures forall a :: a != ip ==> Count(r, a) == Count(acc, a) && (a in r <==> a in acc)
  {
    acc[ip := Count(acc, ip) + bytes]
  }

  /**
   * Record: a frame without an Ethernet or IPv4 layer is ignored. Otherwise
   * the source and then the destination host are tracked, and the frame's
   * length is counted: with a gateway, as download of the destination when
   * the gateway sent it, else as upload of the source when the gateway is
   * its destination, else not at all; without a gateway, as upload of the
   * source and download of the destination.
   */
  function Record(s: State, pkt: Packet, now: int): (r: State)
    ensures pkt.eth.None? || pkt.ip.None? ==> r == s
  {
    match (pkt.eth, pkt.ip)
    case (Some(eth), Some(ip)) =>
      var s1 := Track(s, ip.SourceAddress(), eth.src, now);
      var s2 := Track(s1, ip.DestinationAddress(), eth.dst, now);
      State(Attribute(s2.tracker, ip.SourceAddress(), ip.DestinationAddress(), pkt.length), s2.hosts)
    case _ => s
  }

  /** The counting half of Record, for a frame from `src` to `dst` of `bytes` bytes. */
  function Attribute(t: Tracker, src: IpAddress, dst: IpAddress, bytes: nat): (r: Tracker)
    ensures r.gateway == t.gateway && r.entries == t.entries
  {
    match t.gateway
    case Some(g) =>
      if src == g then t.(downAcc := AddBytes(t.downAcc, dst, bytes))
      else if dst == g then t.(upAcc := AddBytes(t.upAcc, src, bytes))
      else t
    case None => t.(upAcc := AddBytes(t.upAcc, src, bytes), downAcc := AddBytes(t.downAcc, dst, bytes))
  }

  /** Each address's counters grow by exactly its upload and download share of the frame. */
  lemma AttributeShares(t: Tracker, src: IpAddress, dst: IpAddress, bytes: nat)
    ensures var r := Attribute(t, src, dst, bytes);
      forall a ::
        && Count(r.upAcc, a) == Count(t.upAcc, a) + UpShare(t.gateway, src, dst, bytes, a)
        && Count(r.downAcc, a) == Count(t.downAcc, a) + DownShare(t.gateway, src, dst, bytes, a)
  {
    forall a
      ensures var r := Attribute(t, src, dst, bytes);
        && Count(r.upAcc, a) == Count(t.upAcc, a) + UpShare(t.gateway, src, dst, bytes, a)
        && Count(r.downAcc, a) == Count(t.downAcc, a) + DownShare(t.gateway, src, dst, bytes, a)
    {
      AttributeSharesAt(t, src, dst, bytes, a);
    }
  }

  lemma AttributeSharesAt(t: Tracker, src: IpAddress, dst: IpAddress, bytes: nat, a: IpAddress)
    ensures var r := Attribute(t, src, dst, bytes);
      && Count(r.upAcc, a) == Count(t.upAcc, a) + UpShare(t.gateway, src, dst, bytes, a)
      && Count(r.downAcc, a) == Count(t.downAcc, a) + DownShare(t.gateway, src, dst, bytes, a)
  {
    var up, down := UpShare(t.gateway, src, dst, bytes, a), DownShare(t.gateway, src, dst, bytes, a);
    match t.gateway
    case None =>
      CountAfterAdd(t.upAcc, src, bytes, a);
      CountAfterAdd(t.downAcc, dst, bytes, a);
    case Some(g) =>
      if src == g {
        CountAfterAdd(t.downAcc, dst, bytes, a);
        assert up == 0;
      } else if dst == g {
        CountAfterAdd(t.upAcc, src, bytes, a);
        assert down == 0;
      } else {
        assert up == 0 && down == 0;
      }
  }

  /** Adding to one address's counter adds to that counter only. */
  lemma CountAfterAdd(acc: map<IpAddress, int>, ip: IpAddress, bytes: int, a: IpAddress)
    ensures Count(AddBytes(acc, ip, bytes), a) == Count(acc, a) + (if a == ip then bytes else 0)
  {
  }

  /** Upload bytes a frame adds to an address's counter. */
  function UpShare(gateway: Option<IpAddress>, src: IpAddress, dst: IpAddress, bytes: nat, a: IpAddress): nat {
    if a != src then 0
    else match gateway
      case None => bytes
      case Some(g) => if src != g && dst == g then bytes else 0
  }

  /** Download bytes a frame adds to an address's counter. */
  function DownShare(gateway: Option<IpAddress>, src: IpAddress, dst: IpAddress, bytes: nat, a: IpAddress): nat {
    if a != dst then 0
    else match gateway
      case None => bytes
      case Some(g) => if src == g then bytes else 0
  }

  /**
   * Record keeps the references sound and tracks both LAN endpoints; each
   * address's counters grow by exactly its upload and download share of
   * the frame and by nothing else.
   */
  lemma RecordCounts(s: State, pkt: Packet, now: int)
    requires Valid(s) && pkt.eth.Some? && pkt.ip.Some?
    ensures var r := Record(s, pkt, now);
      var src, dst := pkt.ip.value.SourceAddress(), pkt.ip.value.DestinationAddress();
      && Valid(r)
      && r.tracker.gateway == s.tracker.gateway
      && (IsLan(src) ==> src in r.tracker.entries)
      && (IsLan(dst) ==> dst in r.tracker.entries)
      && (forall a ::
            && Count(r.tracker.upAcc, a) == Count(s.tracker.upAcc, a) + UpShare(s.tracker.gateway, src, dst, pkt.length, a)
            && Count(r.tracker.downAcc, a) == Count(s.tracker.downAcc, a) + DownShare(s.tracker.gateway, src, dst, pkt.length, a))
  {
    var eth, ip := pkt.eth.value, pkt.ip.value;
    var s1 := Track(s, ip.SourceAddress(), eth.src, now);
    TrackKeepsValid(s, ip.SourceAddress(), eth.src, now);
    TrackKeepsValid(s1, ip.DestinationAddress(), eth.dst, now);
    var s2 := Track(s1, ip.DestinationAddress(), eth.dst, now);
    AttributeShares(s2.tracker, ip.SourceAddress(), ip.DestinationAddress(), pkt.length);
    assert Record(s, pkt, now) == State(Attribute(s2.tracker, ip.SourceAddress(), ip.DestinationAddress(), pkt.length), s2.hosts);
  }

  /** Record as the source composes it, over the source's TrackAsWritten. */
  function RecordAsWritten(s: State, pkt: Packet, now: int): (r: State)
    ensures pkt.eth.None? || pkt.ip.None? ==> r == s
  {
    match (pkt.eth, pkt.ip)
    case (Some(eth), Some(ip)) =>
      var s1 := TrackAsWritten(s, ip.SourceAddress(), eth.src, now);
      var s2 := TrackAsWritten(s1, ip.DestinationAddress(), eth.dst, now);
      State(Attribute(s2.tracker, ip.SourceAddress(), ip.DestinationAddress(), pkt.length), s2.hosts)
    case _ => s
  }

  /**
   * Record as written tracks both LAN endpoints and forgets no tracked
   * address; each address's counters grow by exactly its upload and
   * download share of the frame and by nothing else.
   */
  lemma RecordAsWrittenCounts(s: State, pkt: Packet, now: int)
    requires pkt.eth.Some? && pkt.ip.Some?
    ensures var r := RecordAsWritten(s, pkt, now);
      var src, dst := pkt.ip.value.SourceAddress(), pkt.ip.value.DestinationAddress();
      && r.tracker.gateway == s.tracker.gateway
      && s.tracker.entries.Keys <= r.tracker.entries.Keys
      && (IsLan(src) ==> src in r.tracker.entries)
      && (IsLan(dst) ==> dst in r.tracker.entries)
      && (forall a ::
            && Count(r.tracker.upAcc, a) == Count(s.tracker.upAcc, a) + UpShare(s.tracker.gateway, src, dst, pkt.length, a)
            && Count(r.tracker.downAcc, a) == Count(s.tracker.downAcc, a) + DownShare(s.tracker.gateway, src, dst, pkt.length, a))
  {
    var eth, ip := pkt.eth.value, pkt.ip.value;
    var s1 := TrackAsWritten(s, ip.SourceAddress(), eth.src, now);
    var s2 := TrackAsWritten(s1, ip.DestinationAddress(), eth.dst, now);
    AttributeShares(s2.tracker, ip.SourceAddress(), ip.DestinationAddress(), pkt.length);
    assert RecordAsWritten(s, pkt, now) == State(Attribute(s2.tracker, ip.SourceAddress(), ip.DestinationAddress(), pkt.length), s2.hosts);
  }

  /** Sound references, and every listed host is one the tracker knows: the state a tracker builds from an empty list. */
  predicate Synced(s: State) {
    && Valid(s)
    && forall i :: 0 <= i < |s.hosts| ==> s.hosts[i].ip in s.tracker.entries
  }

  /** A new tracker over an empty list is synced; one over a list a sweep has filled is not. */
  lemma NewTrackerSynced(gateway: Option<IpAddress>, hosts: seq<HostEntry>)
    ensures Synced(State(NewTracker(gateway), hosts)) <==> |hosts| == 0
  {
    if |hosts| > 0 {
      assert hosts[0].ip !in NewTracker(gateway).entries;
    }
  }

  /** While every listed host is tracked, the source's Track is the corrected one and keeps the state synced. */
  lemma TrackKeepsSynced(s: State, ip: IpAddress, mac: MacAddress, now: int)
    requires Synced(s)
    ensures TrackAsWritten(s, ip, mac, now) == Track(s, ip, mac, now)
    ensures Synced(Track(s, ip, mac, now))
  {
    if IndexOfIp(s.hosts, ip).Some? {
      assert s.hosts[IndexOfIp(s.hosts, ip).value].ip == ip;
    }
    TrackAsWrittenAgrees(s, ip, mac, now);
    TrackKeepsValid(s, ip, mac, now);
    TrackListsTracked(s, ip, mac, now);
  }

  /** While every listed host is tracked, every host Track lists is tracked too. */
  lemma TrackListsTracked(s: State, ip: IpAddress, mac: MacAddress, now: int)
    requires Synced(s)
    ensures var r := Track(s, ip, mac, now);
      forall i :: 0 <= i < |r.hosts| ==> r.hosts[i].ip in r.tracker.entries
  {
    if IsLan(ip) {
      var text := FormatMac(mac);
      if ip in s.tracker.entries {
        TouchListsTracked(s, s.tracker.entries[ip], text, now);
      } else {
        assert IndexOfIp(s.hosts, ip).None?;
        AppendListsTracked(s, FirstSighting(ip, text, now));
      }
    }
  }

  lemma TouchListsTracked(s: State, k: nat, macText: string, now: int)
    requires forall i :: 0 <= i < |s.hosts| ==> s.hosts[i].ip in s.tracker.entries
    ensures var h := TouchAt(s.hosts, k, macText, now);
      forall i :: 0 <= i < |h| ==> h[i].ip in s.tracker.entries
  {
    var h := TouchAt(s.hosts, k, macText, now);
    assert forall i :: 0 <= i < |h| ==> h[i].ip == s.hosts[i].ip;
  }

  lemma AppendListsTracked(s: State, e: HostEntry)
    requires forall i :: 0 <= i < |s.hosts| ==> s.hosts[i].ip in s.tracker.entries
    ensures var m, h := s.tracker.entries[e.ip := |s.hosts|], s.hosts + [e];
      forall i :: 0 <= i < |h| ==> h[i].ip in m
  {
    var h := s.hosts + [e];
    assert forall i :: 0 <= i < |s.hosts| ==> h[i] == s.hosts[i];
  }

  /**
   * Record as written equals the corrected Record, and keeps the state
   * synced, for as long as every listed host is one the tracker knows.
   */
  lemma RecordAsWrittenAgrees(s: State, pkt: Packet, now: int)
    requires Synced(s)
    ensures RecordAsWritten(s, pkt, now) == Record(s, pkt, now)
    ensures Synced(Record(s, pkt, now))
  {
    if pkt.eth.Some? && pkt.ip.Some? {
      var eth, ip := pkt.eth.value, pkt.ip.value;
      TrackKeepsSynced(s, ip.SourceAddress(), eth.src, now);
      var s1 := Track(s, ip.SourceAddress(), eth.src, now);
      TrackKeepsSynced(s1, ip.DestinationAddress(), eth.dst, now);
      var s2 := Track(s1, ip.DestinationAddress(), eth.dst, now);
      assert Record(s, pkt, now) == State(Attribute(s2.tracker, ip.SourceAddress(), ip.DestinationAddress(), pkt.length), s2.hosts);
    }
  }

  /** Kilobytes per second for one second's counter (the source rounds to one decimal place). */
  function Kbps(acc: map<IpAddress, int>, ip: IpAddress): real {
    Count(acc, ip) as real / 1024.0
  }

  /**
   * One tick of TimerLoop: every tracked entry gets its rates from its
   * counters (zero when it has none), other entries keep theirs, and the
   * counters are cleared, including those of addresses that are not tracked.
   */
  function Flush(s: State): (r: State)
    ensures |r.hosts| == |s.hosts|
    ensures r.tracker == s.tracker.(upAcc := map[], downAcc := map[])
  {
    var t := s.tracker;
    var hosts := seq(|s.hosts|, i requires 0 <= i < |s.hosts| =>
      var h := s.hosts[i];
      if h.ip in t.entries && t.entries[h.ip] == i
      then h.(uploadKbps := Kbps(t.upAcc, h.ip), downloadKbps := Kbps(t.downAcc, h.ip))
      else h);
    State(t.(upAcc := map[], downAcc := map[]), hosts)
  }

  /**
   * When the tracker's references are sound, a flush sets every tracked
   * address's entry to the rates of its own counters and changes nothing
   * else of any entry. A list holding an address twice, as the source's
   * Track can produce, is covered: only the entry the tracker points at gets
   * rates. One entry per address is kept when it held before.
   */
  lemma FlushSetsTrackedRates(s: State)
    requires SoundRefs(s)
    ensures var r := Flush(s);
      && SoundRefs(r)
      && (Valid(s) ==> Valid(r))
      && (forall ip :: ip in s.tracker.entries ==>
            var k := s.tracker.entries[ip];
            && r.hosts[k].uploadKbps == Count(s.tracker.upAcc, ip) as real / 1024.0
            && r.hosts[k].downloadKbps == Count(s.tracker.downAcc, ip) as real / 1024.0)
      && (forall i :: 0 <= i < |s.hosts| ==>
            r.hosts[i] == s.hosts[i].(uploadKbps := r.hosts[i].uploadKbps, downloadKbps := r.hosts[i].downloadKbps))
      && (forall i :: 0 <= i < |s.hosts| && !(s.hosts[i].ip in s.tracker.entries && s.tracker.entries[s.hosts[i].ip] == i) ==>
            r.hosts[i] == s.hosts[i])
  {
    var r := Flush(s);
    assert forall i :: 0 <= i < |s.hosts| ==> r.hosts[i].ip == s.hosts[i].ip;
  }

  /**
   * A subnet sweep into the shared list keeps the tracker's references
   * sound: it keeps one entry per address and never moves an entry.
   */
  lemma SweepKeepsTrackerValid(s: State, targets: seq<u32>, probe: u32 -> SubnetScanner.ProbeResult, now: int)
    requires Valid(s)
    ensures Valid(State(s.tracker, SubnetScanner.ApplyProbes(s.hosts, targets, probe, now)))
  {
    SubnetScanner.SweepKeepsEntries(s.hosts, targets, probe, now);
  }
}

=== FILE: main_window.dfy ===
/**
 * The policy assembly the main window does: DNS rules from the two input
 * fields, per-host policies from a host's caps and the session defaults,
 * the session limiter, and ARP spoofing plus forwarding for each host.
 *
 * The window's numeric fields are C# `int`s; `IPAddress.TryParse` and the
 * default-gateway lookup are function parameters.
 */
module MainWindow {
  import opened Wrappers
  import opened Bytes
  import opened Text
  import opened Frames
  import opened Models
  import opened BandwidthLimiter
  import opened HostPolicy
  import ArpSpoofer
  import CaptureManager

  /** The DNS rule list and the two text fields it is edited through. */
  datatype RuleForm = RuleForm(rules: seq<DnsRule>, dnsDomain: string, dnsIp: string)

  /**
   * AddDnsRuleCommand: when the address parses and the domain is not blank,
   * the rule (domain trimmed and lower-cased) is appended and both fields
   * are cleared; otherwise nothing changes.
   */
  function AddDnsRule(f: RuleForm, tryParse: string -> Option<IpAddress>): (r: RuleForm)
    ensures tryParse(f.dnsIp).None? || IsBlank(f.dnsDomain) ==> r == f
    ensures tryParse(f.dnsIp).Some? && !IsBlank(f.dnsDomain) ==>
      && r.rules == f.rules + [DnsRule(ToLower(Trim(f.dnsDomain)), tryParse(f.dnsIp).value)]
      && r.dnsDomain == "" && r.dnsIp == ""
  {
    match tryParse(f.dnsIp)
    case Some(ip) =>
      if !IsNullOrWhiteSpace(Some(f.dnsDomain)) then RuleForm(f.rules + [DnsRule(ToLower(Trim(f.dnsDomain)), ip)], "", "")
      else f
    case None => f
  }

  lemma LowerIdempotent(s: string)
    ensures ToLower(ToLower(s)) == ToLower(s)
  {
  }

  /**
   * A rule the form adds has a domain that is not empty, has no white
   * space at either end (upper-case letters in the typed domain cannot
   * make it so), and is already lower case, so the spoofer compares
   * lower-cased query names with it directly.
   */
  lemma AddedDomainIsNormalised(f: RuleForm, tryParse: string -> Option<IpAddress>)
    requires tryParse(f.dnsIp).Some? && !IsBlank(f.dnsDomain)
    ensures var d := AddDnsRule(f, tryParse).rules[|f.rules|].domain;
      && |d| > 0 && !IsWhiteSpace(d[0]) && !IsWhiteSpace(d[|d| - 1])
      && ToLower(d) == d
      && |AddDnsRule(f, tryParse).rules| == |f.rules| + 1
  {
    var t := Trim(f.dnsDomain);
    LowerIdempotent(t);
    assert |t| > 0;
    assert ToLower(t)[0] == LowerChar(t[0]);
    assert ToLower(t)[|t| - 1] == LowerChar(t[|t| - 1]);
  }

  /** C# `int * int` in an unchecked context: the product wrapped to 32-bit two's complement. */
  function MulInt32(a: i32, b: i32): (r: i32)
    ensures -0x8000_0000 <= a * b < 0x8000_0000 ==> r == a * b
    ensures (r - a * b) % 0x1_0000_0000 == 0
  {
    var u := (a * b) % 0x1_0000_0000;
    if u < 0x8000_0000 then u else u - 0x1_0000_0000
  }

  /** The session limiter as Start builds it: `DownKbps * 1024` and `UpKbps * 1024` in 32-bit arithmetic. */
  function SessionLimiterAsWritten(downKbps: i32, upKbps: i32, extraDelayMs: i32, now: int): (l: Limiter)
    ensures l.Rate(Download) == MulInt32(downKbps, 1024) && l.Rate(Upload) == MulInt32(upKbps, 1024)
    ensures l.Tokens(Download) == 0.0 && l.Tokens(Upload) == 0.0
  {
    NewLimiter(MulInt32(downKbps, 1024), MulInt32(upKbps, 1024), extraDelayMs, now)
  }

  /** The session limiter with the products taken in 64-bit, as ApplyHostPolicy takes them. */
  function SessionLimiter(downKbps: i32, upKbps: i32, extraDelayMs: i32, now: int): (l: Limiter)
    ensures l.Rate(Download) == downKbps * 1024 && l.Rate(Upload) == upKbps * 1024
    ensures l.Tokens(Download) == 0.0 && l.Tokens(Upload) == 0.0
  {
    NewLimiter(downKbps * 1024, upKbps * 1024, extraDelayMs, now)
  }

  /** The two limiters agree exactly when both rates fit in 32 bits, that is, both caps are below 2^21 KB/s in size. */
  lemma SessionLimiterAgreement(downKbps: i32, upKbps: i32, extraDelayMs: i32, now: int)
    ensures SessionLimiterAsWritten(downKbps, upKbps, extraDelayMs, now) == SessionLimiter(downKbps, upKbps, extraDelayMs, now)
      <==> -0x20_0000 <= downKbps < 0x20_0000 && -0x20_0000 <= upKbps < 0x20_0000
  {
    if !(-0x20_0000 <= downKbps < 0x20_0000) {
      WrapsOutsideRange(downKbps);
    }
    if !(-0x20_0000 <= upKbps < 0x20_0000) {
      WrapsOutsideRange(upKbps);
    }
  }

  lemma WrapsOutsideRange(k: i32)
    requires !(-0x20_0000 <= k < 0x20_0000)
    ensures MulInt32(k, 1024) != k * 1024
  {
  }

  /**
   * A download cap of 2097152 KB/s (2 GB/s) makes the session limiter's
   * download rate -2^31 bytes per second as written, and then that limiter
   * lets no download frame through; computed in 64-bit the rate is 2^31.
   */
  lemma HugeSessionCapStallsDownloads(upKbps: i32, extraDelayMs: i32, now: int, bytes: int, clock: seq<int>)
    requires bytes > 0
    ensures SessionLimiterAsWritten(0x20_0000, upKbps, extraDelayMs, now).Rate(Download) == -0x8000_0000
    ensures Await(SessionLimiterAsWritten(0x20_0000, upKbps, extraDelayMs, now), Download, bytes, clock).Waiting?
    ensures SessionLimiter(0x20_0000, upKbps, extraDelayMs, now).Rate(Download) == 0x8000_0000
  {
    var l := SessionLimiterAsWritten(0x20_0000, upKbps, extraDelayMs, now);
    OversizeNeverGranted(l, Download, bytes, clock);
  }

  /** A host cap when it is positive, else the session default; either way KB/s turned into bytes/s in 64-bit. */
  function BytesPerSec(hostKbps: i32, sessionKbps: i32): (r: int)
    ensures hostKbps > 0 ==> r == hostKbps * 1024
    ensures hostKbps <= 0 ==> r == sessionKbps * 1024
    ensures r % 1024 == 0
  {
    if hostKbps > 0 then hostKbps * 1024 else sessionKbps * 1024
  }

  /**
   * ApplyHostPolicy: the host's policy is replaced by one with its blocked
   * flag, its own caps where positive (the session's otherwise), and the
   * session's extra delay; without a policy store nothing happens.
   */
  function ApplyHostPolicy(ps: Option<Policies>, h: HostEntry, downKbps: i32, upKbps: i32, extraDelayMs: i32, now: int): (r: Option<Policies>)
    ensures ps.None? <==> r.None?
  {
    match ps
    case None => None
    case Some(p) =>
      Some(SetPolicy(p, h.ip, BytesPerSec(h.downLimitKbps, downKbps), BytesPerSec(h.upLimitKbps, upKbps), h.blocked, extraDelayMs, now))
  }

  /**
   * After ApplyHostPolicy the host is blocked exactly when its entry says
   * so, and its limiter starts empty with its own positive caps or the
   * session's; other hosts' policies are untouched.
   */
  lemma AppliedPolicy(p: Policies, h: HostEntry, downKbps: i32, upKbps: i32, extraDelayMs: i32, now: int, other: IpAddress)
    requires other != h.ip
    ensures var r := ApplyHostPolicy(Some(p), h, downKbps, upKbps, extraDelayMs, now).value;
      var l := GetLimiter(r, h.ip).value;
      && (IsBlocked(r, h.ip) <==> h.blocked)
      && l.Rate(Download) == (if h.downLimitKbps > 0 then h.downLimitKbps else downKbps) * 1024
      && l.Rate(Upload) == (if h.upLimitKbps > 0 then h.upLimitKbps else upKbps) * 1024
      && l.extraDelayMs == extraDelayMs
      && l.Tokens(Download) == 0.0 && l.Tokens(Upload) == 0.0
      && GetLimiter(r, other) == GetLimiter(p, other) && (IsBlocked(r, other) <==> IsBlocked(p, other))
  {
    var r := ApplyHostPolicy(Some(p), h, downKbps, upKbps, extraDelayMs, now).value;
    SetThenQuery(p, h.ip, BytesPerSec(h.downLimitKbps, downKbps), BytesPerSec(h.upLimitKbps, upKbps), h.blocked, extraDelayMs, now, other);
  }

  /** The spoofers the window runs, one per host address, and the capture manager. */
  datatype Shell = Shell(enableArp: bool, spoofers: map<IpAddress, ArpSpoofer.Spoofer>, capture: CaptureManager.Capture)

  /**
   * SetupArpAndForward: a host without a spoofer gets a started one when
   * ARP is enabled; the host becomes a forwarding target either way.
   */
  function SetupArpAndForward(s: Shell, ip: IpAddress, nicMac: MacAddress, gw: IpAddress): (r: Shell)
    ensures r.enableArp == s.enableArp
    ensures r.capture == CaptureManager.AddTarget(s.capture, ip)
  {
    var spoofers :=
      if ip !in s.spoofers && s.enableArp then s.spoofers[ip := ArpSpoofer.Start(ArpSpoofer.NewSpoofer(nicMac, gw, ip))]
      else s.spoofers;
    Shell(s.enableArp, spoofers, CaptureManager.AddTarget(s.capture, ip))
  }

  /**
   * There is never more than one spoofer per address: an existing one is
   * kept as it is, a new one exists only with ARP enabled, and the host is
   * a target afterwards. Repeating the call changes nothing more.
   */
  lemma SetupKeepsOneSpooferPerHost(s: Shell, ip: IpAddress, nicMac: MacAddress, gw: IpAddress)
    ensures var r := SetupArpAndForward(s, ip, nicMac, gw);
      && ip in r.capture.targets
      && (ip in s.spoofers ==> r.spoofers == s.spoofers)
      && (ip !in s.spoofers ==>
            (s.enableArp <==> ip in r.spoofers)
            && (s.enableArp ==> r.spoofers[ip].running && r.spoofers[ip].targetIp == ip && r.spoofers[ip].gatewayIp == gw))
      && r.spoofers.Keys <= s.spoofers.Keys + {ip}
      && (forall a :: a in s.spoofers ==> r.spoofers[a] == s.spoofers[a])
      && SetupArpAndForward(r, ip, nicMac, gw) == r
  {
  }

  /**
   * Each place the window wires a host applies its policy to the attached
   * store before SetupArpAndForward makes it a target, so Forward throttles
   * its frames with its own limiter, built from the 64-bit rates, and never
   * with the session limiter.
   */
  lemma WiredHostUsesOwnLimiter(s: Shell, p: Policies, h: HostEntry, downKbps: i32, upKbps: i32, extraDelayMs: i32,
                                now: int, nicMac: MacAddress, gw: IpAddress)
    ensures var ps := ApplyHostPolicy(Some(p), h, downKbps, upKbps, extraDelayMs, now);
      var r := SetupArpAndForward(s.(capture := s.capture.(policies := ps)), h.ip, nicMac, gw);
      var l := CaptureManager.LimiterOf(r.capture, CaptureManager.ChooseLimiter(r.capture, h.ip));
      && h.ip in r.capture.targets
      && CaptureManager.ChooseLimiter(r.capture, h.ip) == CaptureManager.HostLimiter(h.ip)
      && l.Some?
      && l.value.Rate(Download) == BytesPerSec(h.downLimitKbps, downKbps)
      && l.value.Rate(Upload) == BytesPerSec(h.upLimitKbps, upKbps)
  {
    var ps := ApplyHostPolicy(Some(p), h, downKbps, upKbps, extraDelayMs, now);
    var r := SetupArpAndForward(s.(capture := s.capture.(policies := ps)), h.ip, nicMac, gw);
    CaptureManager.PolicyTargetUsesHostLimiter(r.capture, h.ip);
  }

  /**
   * Start's gateway auto-detection: only a blank gateway field is filled in,
   * with the detected IPv4 address in dotted form, when there is one.
   */
  function GatewayText(gatewayIp: string, detect: Option<Octets4>): (r: string)
    ensures !IsBlank(gatewayIp) ==> r == gatewayIp
    ensures IsBlank(gatewayIp) && detect.None? ==> r == gatewayIp
    ensures IsBlank(gatewayIp) && detect.Some? ==> r == DottedQuad(detect.value)
  {
    if IsNullOrWhiteSpace(Some(gatewayIp)) then
      match detect
      case Some(g) => DottedQuad(g)
      case None => gatewayIp
    else gatewayIp
  }
}

=== FILE: models.dfy ===
/** The records the components share: hosts, DNS rules, monitor rows and raw hardware addresses. */
module Models {
  import opened Wrappers
  import opened Bytes
  import opened Text

  type i32 = x: int | -0x8000_0000 <= x < 0x8000_0000

  /**
   * One discovered host. `lastSeen` is an abstract timestamp (the source's
   * DateTime.UtcNow); rates are kilobytes per second.
   */
  datatype HostEntry = HostEntry(
    ip: IpAddress,
    mac: string,
    name: string,
    vendor: string,
    downloadKbps: real,
    uploadKbps: real,
    blocked: bool,
    downLimitKbps: i32,
    upLimitKbps: i32,
    lastSeen: int)

  /** A fresh entry: every field not given is at its declared default. */
  function NewHostEntry(ip: IpAddress, mac: string, vendor: string, now: int): (h: HostEntry)
    ensures h.ip == ip && h.mac == mac && h.vendor == vendor && h.lastSeen == now
    ensures h.name == "" && !h.blocked && h.downLimitKbps == 0 && h.upLimitKbps == 0
    ensures h.downloadKbps == 0.0 && h.uploadKbps == 0.0
  {
    HostEntry(ip, mac, "", vendor, 0.0, 0.0, false, 0, 0, now)
  }

  /** A spoofing rule: queries for `domain` or any name below it are answered with `redirectTo`. */
  datatype DnsRule = DnsRule(domain: string, redirectTo: IpAddress)

  /** One row of the live packet list; `time` is an abstract timestamp. */
  datatype PacketViewModel = PacketViewModel(
    time: int,
    protocol: string,
    source: string,
    destination: string,
    info: string,
    length: nat)

  /** A hardware address kept as raw bytes; its text form is BitConverter.ToString. */
  datatype PhysicalAddressEx = PhysicalAddressEx(bytes: seq<byte>) {
    function ToString(): string {
      Join(HexPairs(bytes), '-')
    }
  }

  /** The dashed text of a non-empty hardware address splits at '-' into one upper-case hex pair per byte. */
  lemma PhysicalAddressText(a: PhysicalAddressEx)
    requires |a.bytes| > 0
    ensures Split(a.ToString(), '-') == HexPairs(a.bytes)
    ensures |a.ToString()| == 3 * |a.bytes| - 1
  {
    SplitJoin(HexPairs(a.bytes), '-');
    JoinLength(HexPairs(a.bytes), '-');
  }

  /** The octets of a hardware address as upper-case hex pairs joined by ':'. */
  function FormatMac(mac: seq<byte>): (s: string)
    ensures Split(s, ':') == (if |mac| == 0 then [""] else HexPairs(mac))
    ensures |mac| > 0 ==> |s| == 3 * |mac| - 1
  {
    var pairs := HexPairs(mac);
    if |mac| == 0 then "" else
      SplitJoin(pairs, ':');
      JoinLength(pairs, ':');
      Join(pairs, ':')
  }

  function HexPairs(mac: seq<byte>): (p: seq<string>)
    ensures |p| == |mac|
    ensures forall i :: 0 <= i < |mac| ==> p[i] == Hex2(mac[i]) && ':' !in p[i] && '-' !in p[i]
  {
    seq(|mac|, i requires 0 <= i < |mac| => Hex2(mac[i]))
  }

  lemma {:induction false} JoinLength(parts: seq<string>, c: char)
    requires |parts| >= 1
    requires forall i :: 0 <= i < |parts| ==> |parts[i]| == 2
    ensures |Join(parts, c)| == 3 * |parts| - 1
    decreases |parts|
  {
    if |parts| > 1 {
      JoinLength(parts[1..], c);
    }
  }

  /** No two entries share an IP address. */
  predicate OneEntryPerIp(hosts: seq<HostEntry>) {
    forall i, j :: 0 <= i < j < |hosts| ==> hosts[i].ip != hosts[j].ip
  }

  /** The position of the first entry with this IP (FirstOrDefault). */
  function IndexOfIp(hosts: seq<HostEntry>, ip: IpAddress): (k: Option<nat>)
    ensures k.None? <==> forall i :: 0 <= i < |hosts| ==> hosts[i].ip != ip
    ensures k.Some? ==>
      && k.value < |hosts| && hosts[k.value].ip == ip
      && (forall i :: 0 <= i < k.value ==> hosts[i].ip != ip)
  {
    if |hosts| == 0 then None
    else if hosts[0].ip == ip then Some(0)
    else match IndexOfIp(hosts[1..], ip)
      case None => None
      case Some(k) => Some(k + 1)
  }
}

=== FILE: packet_monitor.dfy ===
/**
 * PacketMonitor: a one-line summary of every captured frame, kept in a
 * list of at most 5000 rows (oldest dropped first) when it passes the
 * user's case-insensitive text filter.
 */
module PacketMonitor {
  import opened Wrappers
  import opened Bytes
  import opened Text
  import opened Frames
  import opened Models

  /** The most rows the list keeps. */
  const MaxRows: nat := 5000

  datatype Monitor = Monitor(filter: string)

  function NewMonitor(): (m: Monitor)
    ensures m.filter == ""
  {
    Monitor("")
  }

  /** SetUiFilter: a null filter is stored as the empty string. */
  function SetUiFilter(m: Monitor, filter: Option<string>): (r: Monitor)
    ensures filter.None? ==> r.filter == ""
    ensures filter.Some? ==> r.filter == filter.value
  {
    Monitor(filter.GetOr(""))
  }

  /** ToLowerInvariant(a).Contains(ToLowerInvariant(b)). */
  predicate ContainsIgnoreCase(a: string, b: string) {
    Contains(ToLower(a), ToLower(b))
  }

  /** PassesFilter: a blank filter passes everything; otherwise one of the four text columns must contain it. */
  predicate PassesFilter(filter: string, row: PacketViewModel) {
    || IsBlank(filter)
    || ContainsIgnoreCase(row.source, filter)
    || ContainsIgnoreCase(row.destination, filter)
    || ContainsIgnoreCase(row.protocol, filter)
    || ContainsIgnoreCase(row.info, filter)
  }

  /** The lower-cased filter occurs somewhere in the lower-cased column. */
  ghost predicate OccursIgnoringCase(column: string, filter: string) {
    exists i :: OccursAt(ToLower(column), ToLower(filter), i)
  }

  /**
   * A row passes a non-blank filter exactly when the filter, ignoring case,
   * occurs at some position of its source, destination, protocol or info
   * column; a blank filter (and so a null one) passes every row.
   */
  lemma PassesFilterIff(filter: string, row: PacketViewModel)
    ensures IsBlank(filter) ==> PassesFilter(filter, row)
    ensures !IsBlank(filter) ==>
      (PassesFilter(filter, row) <==>
        || OccursIgnoringCase(row.source, filter)
        || OccursIgnoringCase(row.destination, filter)
        || OccursIgnoringCase(row.protocol, filter)
        || OccursIgnoringCase(row.info, filter))
  {
    var f := ToLower(filter);
    ContainsIffOccurs(ToLower(row.source), f);
    ContainsIffOccurs(ToLower(row.destination), f);
    ContainsIffOccurs(ToLower(row.protocol), f);
    ContainsIffOccurs(ToLower(row.info), f);
  }

  /** "{source port}->{destination port}". */
  function Ports(src: u16, dst: u16): string {
    Decimal(src) + "->" + Decimal(dst)
  }

  /**
   * The row for a frame: the EtherType name as protocol ("" without
   * Ethernet), the IPv4 addresses in dotted form ("" without IPv4), the
   * ports of the TCP layer, else of the UDP layer, else the EtherType name
   * as info, and the frame length.
   */
  function Summarize(p: Packet, now: int): (row: PacketViewModel)
    ensures row.time == now && row.length == p.length
    ensures p.eth.None? ==> row.protocol == ""
    ensures p.eth.Some? ==> row.protocol == EtherTypeName(p.eth.value.etherType)
    ensures p.ip.None? <==> row.source == "" && row.destination == ""
    ensures p.ip.Some? ==> row.source == DottedQuad(p.ip.value.src) && row.destination == DottedQuad(p.ip.value.dst)
    ensures p.tcp.Some? ==> row.info == "TCP " + Ports(p.tcp.value.srcPort, p.tcp.value.dstPort)
    ensures p.tcp.None? && p.udp.Some? ==> row.info == "UDP " + Ports(p.udp.value.srcPort, p.udp.value.dstPort)
    ensures p.tcp.None? && p.udp.None? ==> row.info == row.protocol
  {
    var proto := if p.eth.Some? then EtherTypeName(p.eth.value.etherType) else "";
    var src := if p.ip.Some? then DottedQuad(p.ip.value.src) else "";
    var dst := if p.ip.Some? then DottedQuad(p.ip.value.dst) else "";
    var info :=
      if p.tcp.Some? then "TCP " + Ports(p.tcp.value.srcPort, p.tcp.value.dstPort)
      else if p.udp.Some? then "UDP " + Ports(p.udp.value.srcPort, p.udp.value.dstPort)
      else proto;
    PacketViewModel(now, proto, src, dst, info, p.length)
  }

  /** Append a row, then drop the oldest one if the list now holds more than MaxRows. */
  function Append(items: seq<PacketViewModel>, row: PacketViewModel): (r: seq<PacketViewModel>)
    ensures |items| < MaxRows ==> r == items + [row]
    ensures |items| >= MaxRows ==> r == items[1..] + [row]
  {
    var a := items + [row];
    if |a| > MaxRows then a[1..] else a
  }

  /** OnPacket: the frame's row, appended with the cap when it passes the filter. */
  function OnPacket(m: Monitor, items: seq<PacketViewModel>, p: Packet, now: int): (r: seq<PacketViewModel>)
    ensures !PassesFilter(m.filter, Summarize(p, now)) ==> r == items
    ensures PassesFilter(m.filter, Summarize(p, now)) ==> |r| > 0 && r[|r| - 1] == Summarize(p, now)
  {
    var row := Summarize(p, now);
    if PassesFilter(m.filter, row) then Append(items, row) else items
  }

  /** OnPacket over a run of frames, all at one time. */
  function Feed(m: Monitor, items: seq<PacketViewModel>, frames: seq<Packet>, now: int): seq<PacketViewModel>
    decreases |frames|
  {
    if |frames| == 0 then items else Feed(m, OnPacket(m, items, frames[0], now), frames[1..], now)
  }

  /** The rows of the frames that pass the filter, in arrival order. */
  function Passing(m: Monitor, frames: seq<Packet>, now: int): (rows: seq<PacketViewModel>)
    ensures forall i :: 0 <= i < |rows| ==> PassesFilter(m.filter, rows[i])
    decreases |frames|
  {
    if |frames| == 0 then [] else Kept(m, frames[0], now) + Passing(m, frames[1..], now)
  }

  /** The last n elements of s (all of s when it is shorter). */
  function Last<T>(s: seq<T>, n: nat): (r: seq<T>)
    ensures |r| == if |s| <= n then |s| else n
  {
    if |s| <= n then s else s[|s| - n..]
  }

  lemma LastOfLast<T>(s: seq<T>, t: seq<T>, n: nat)
    ensures Last(Last(s, n) + t, n) == Last(s + t, n)
  {
    if |s| > n {
      var u := s[|s| - n..];
      assert |u + t| == n + |t| && |s + t| == |s| + |t|;
      assert (s + t)[|s| - n..] == u + t;
      if |u + t| > n {
        assert (u + t)[|u + t| - n..] == (s + t)[|s + t| - n..];
      }
    } else {
      assert Last(s, n) == s;
    }
  }

  /** The row a frame contributes to Passing: its summary if it passes, else none. */
  function Kept(m: Monitor, p: Packet, now: int): (rows: seq<PacketViewModel>)
    ensures |rows| <= 1
  {
    var row := Summarize(p, now);
    if PassesFilter(m.filter, row) then [row] else []
  }

  /** One OnPacket keeps the last MaxRows of the list followed by the frame's kept row. */
  lemma OnPacketKeepsLatest(m: Monitor, items: seq<PacketViewModel>, p: Packet, now: int)
    requires |items| <= MaxRows
    ensures OnPacket(m, items, p, now) == Last(items + Kept(m, p, now), MaxRows)
  {
  }

  lemma PassingStep(m: Monitor, frames: seq<Packet>, now: int)
    requires |frames| > 0
    ensures Passing(m, frames, now) == Kept(m, frames[0], now) + Passing(m, frames[1..], now)
  {
  }

  lemma LastOfLastAppended<T>(s: seq<T>, u: seq<T>, t: seq<T>, n: nat)
    ensures Last(Last(s + u, n) + t, n) == Last(s + (u + t), n)
  {
    LastOfLast(s + u, t, n);
    assert s + u + t == s + (u + t);
  }

  /**
   * The list is always the latest MaxRows rows that passed the filter, in
   * arrival order: older rows are dropped first, and no row that failed
   * the filter is ever kept.
   */
  lemma {:induction false} FeedKeepsLatestRows(m: Monitor, items: seq<PacketViewModel>, frames: seq<Packet>, now: int)
    requires |items| <= MaxRows
    ensures Feed(m, items, frames, now) == Last(items + Passing(m, frames, now), MaxRows)
    ensures |Feed(m, items, frames, now)| <= MaxRows
    decreases |frames|
  {
    if |frames| > 0 {
      var kept := Kept(m, frames[0], now);
      var r1 := OnPacket(m, items, frames[0], now);
      var rest := Passing(m, frames[1..], now);
      OnPacketKeepsLatest(m, items, frames[0], now);
      PassingStep(m, frames, now);
      FeedKeepsLatestRows(m, r1, frames[1..], now);
      assert Feed(m, items, frames, now) == Feed(m, r1, frames[1..], now);
      LastOfLastAppended(items, kept, rest, MaxRows);
    }
  }

  /** A frame without Ethernet, IPv4 or transport layers has empty text columns and passes only a blank filter. */
  lemma BareFramePassesOnlyBlank(m: Monitor, p: Packet, now: int)
    requires p.eth.None? && p.ip.None? && p.tcp.None? && p.udp.None?
    ensures PassesFilter(m.filter, Summarize(p, now)) <==> IsBlank(m.filter)
  {
    var row := Summarize(p, now);
    assert row.source == "" && row.destination == "" && row.protocol == "" && row.info == "";
    if !IsBlank(m.filter) {
      assert |ToLower(m.filter)| > 0;
    }
  }
}

=== FILE: subnet_scanner.dfy ===
/**
 * SubnetScanner: the active sweep of the local IPv4 subnet. The addresses
 * between the network and broadcast addresses are probed (ping and ARP), and
 * every address that answers either way is inserted into, or refreshed in, the
 * shared host list.
 */
module SubnetScanner {
  import opened Wrappers
  import opened Bytes
  import opened Bits
  import opened Models
  import VendorLookup

  const Word: nat := 32
  const WordSize: nat := 0x1_0000_0000
  const AllOnes: u32 := 0xFFFF_FFFF
  /** The mask used when the interface reports none: 255.255.255.0. */
  const DefaultMask: Octets4 := [255, 255, 255, 0]
  /** The most elements a .NET array may hold (Array.MaxLength). */
  const MaxArrayLength: nat := 0x7FFF_FFC7

  lemma WordIsPow2()
    ensures Pow2(Word) == WordSize
  {
    assert Pow2(4) == 16;
    assert Pow2(8) == 256 by { assert Pow2(8) == 16 * Pow2(4); }
    assert Pow2(16) == 0x1_0000 by {
      assert Pow2(16) == 256 * Pow2(8) by {
        assert Pow2(16) == 16 * Pow2(12) && Pow2(12) == 16 * Pow2(8);
      }
    }
    assert Pow2(24) == 0x100_0000 by {
      assert Pow2(24) == 16 * Pow2(20) && Pow2(20) == 16 * Pow2(16);
    }
    assert Pow2(32) == 0x1_0000_0000 by {
      assert Pow2(32) == 16 * Pow2(28) && Pow2(28) == 16 * Pow2(24);
    }
  }

  /** IpToUInt: the four octets read in network (big-endian) order. */
  function IpToUInt(o: Octets4): (u: u32)
    ensures u / 0x100_0000 == o[0]
  {
    var b0: int, b1: int, b2: int, b3: int := o[0], o[1], o[2], o[3];
    b0 * 0x100_0000 + b1 * 0x1_0000 + b2 * 0x100 + b3
  }

  /** UIntToIp: the four octets of a 32-bit value, most significant first. */
  function UIntToIp(u: u32): (o: Octets4)
    ensures o[0] == u / 0x100_0000
  {
    [u / 0x100_0000, (u / 0x1_0000) % 0x100, (u / 0x100) % 0x100, u % 0x100]
  }

  lemma IpToUIntInverse(o: Octets4)
    ensures UIntToIp(IpToUInt(o)) == o
  {
    var u := IpToUInt(o);
    var b0: int, b1: int, b2: int := o[0], o[1], o[2];
    assert u / 0x1_0000 == b0 * 0x100 + b1;
    assert u / 0x100 == b0 * 0x1_0000 + b1 * 0x100 + b2;
  }

  lemma UIntToIpInverse(u: u32)
    ensures IpToUInt(UIntToIp(u)) == u
  {
    var a := u / 0x100;
    var b := a / 0x100;
    var c := b / 0x100;
    assert u == a * 0x100 + u % 0x100;
    assert a == b * 0x100 + a % 0x100;
    assert b == c * 0x100 + b % 0x100;
    assert u / 0x1_0000 == b;
    assert u / 0x100_0000 == c;
  }

  /** Distinct 32-bit values are distinct addresses, and conversely. */
  lemma UIntToIpInjective(a: u32, b: u32)
    ensures UIntToIp(a) == UIntToIp(b) <==> a == b
  {
    UIntToIpInverse(a);
    UIntToIpInverse(b);
  }

  /** uint arithmetic: the value modulo 2^32. */
  function Wrap(x: int): (u: u32)
    ensures 0 <= x < 0x1_0000_0000 ==> u == x
    ensures -0x1_0000_0000 <= x < 0 ==> u == x + 0x1_0000_0000
  {
    x % 0x1_0000_0000
  }

  /** `a & b` on uint. */
  function AndWord(a: u32, b: u32): (r: u32)
    ensures r <= a && r <= b
  {
    AndBelow(a, b);
    And(a, b)
  }

  /** `a | b` on uint. */
  function OrWord(a: u32, b: u32): (r: u32) {
    OrBelowWord(a, b, Word);
    Or(a, b)
  }

  lemma OrBelowWord(a: nat, b: nat, w: nat)
    requires w == Word && a < WordSize && b < WordSize
    ensures Or(a, b) < WordSize
  {
    assert Pow2(w) == WordSize by { WordIsPow2(); }
    OrBelow(a, b, w);
  }

  /** `~a` on uint: every one of the 32 bits flipped, which is 2^32 - 1 - a. */
  function NotWord(a: u32): (r: u32) {
    AllOnes - a
  }

  /** The network and broadcast addresses and the first and last address between them. */
  datatype Range = Range(network: u32, broadcast: u32, start: u32, end: u32)

  /** SubnetScanner.GetRange in unsigned 32-bit arithmetic (start and end wrap). */
  function GetRange(ip: Octets4, mask: Octets4): (r: Range)
    ensures r.network == AndWord(IpToUInt(ip), IpToUInt(mask))
    ensures r.broadcast == OrWord(r.network, NotWord(IpToUInt(mask)))
    ensures r.start == Wrap(r.network + 1) && r.end == Wrap(r.broadcast - 1)
  {
    var network := AndWord(IpToUInt(ip), IpToUInt(mask));
    var broadcast := OrWord(network, NotWord(IpToUInt(mask)));
    Range(network, broadcast, Wrap(network + 1), Wrap(broadcast - 1))
  }

  /**
   * For any mask other than all ones, the broadcast address is the network
   * address plus the host bits, neither end wraps, and the number of
   * addresses strictly between them depends on the mask alone.
   */
  lemma RangeShape(ip: Octets4, mask: Octets4)
    requires IpToUInt(mask) != AllOnes
    ensures var r := GetRange(ip, mask);
      && r.broadcast == r.network + (AllOnes - IpToUInt(mask))
      && r.network < r.broadcast
      && r.start == r.network + 1 && r.end == r.broadcast - 1
      && r.end - r.start + 1 == AllOnes - 1 - IpToUInt(mask)
  {
    RangeShapeAt(IpToUInt(ip), IpToUInt(mask), Word);
  }

  /** The bit-level core of RangeShape, at a width `w` with 2^w = 2^32. */
  lemma RangeShapeAt(u: nat, m: nat, w: nat)
    requires w == Word && u < WordSize && m < AllOnes
    ensures And(u, m) <= m
    ensures Or(And(u, m), AllOnes - m) == And(u, m) + (AllOnes - m)
  {
    assert Pow2(w) == WordSize by { WordIsPow2(); }
    AndBelow(u, m);
    AndCommutes(u, m);
    AndDisjointFromComplement(u, m, w);
    OrOfDisjointIsSum(And(u, m), AllOnes - m);
  }

  lemma AndWordAllOnes(u: u32)
    ensures AndWord(u, AllOnes) == u
  {
    AllOnesAt(u, Word);
  }

  lemma AllOnesAt(u: nat, w: nat)
    requires w == Word && u < WordSize
    ensures And(u, AllOnes) == u
  {
    assert Pow2(w) == WordSize by { WordIsPow2(); }
    AndAllOnes(u, w);
  }

  lemma OrWordZero(u: u32)
    ensures OrWord(u, 0) == u
  {
  }

  /** The all-ones mask (/32): network and broadcast are the address itself, and the task count wraps to 2^32 - 1. */
  lemma HostMaskRange(ip: Octets4, mask: Octets4)
    requires IpToUInt(mask) == AllOnes
    ensures var r := GetRange(ip, mask);
      && r.network == IpToUInt(ip) && r.broadcast == IpToUInt(ip)
      && Wrap(r.end - r.start + 1) == AllOnes
  {
    var u := IpToUInt(ip);
    AndWordAllOnes(u);
    OrWordZero(u);
    WrappedCountOfEmptyRange(u);
  }

  /** With start one past and end one before the same address, the wrapped count is 2^32 - 1. */
  lemma WrappedCountOfEmptyRange(u: u32)
    ensures Wrap(Wrap(u - 1) - Wrap(u + 1) + 1) == AllOnes
  {
  }


  /** The interface's first IPv4 unicast address and its mask, if it reports one. */
  datatype InterfaceAddress = InterfaceAddress(addr: Octets4, mask: Option<Octets4>)

  /** What the sweep does: nothing (no interface), fault before probing, or probe these addresses in order. */
  datatype Plan = NoInterface | Faulted | Probe(targets: seq<u32>)

  /** The addresses `for (uint u = start; u <= end; u++)` visits, when end is below 2^32 - 1. */
  function Interval(start: u32, end: u32): (s: seq<u32>)
    ensures start <= end ==> |s| == end - start + 1
    ensures start > end ==> s == []
    ensures forall i :: 0 <= i < |s| ==> s[i] == start + i
  {
    if start > end then [] else seq(end - start + 1, i requires 0 <= i < end - start + 1 => start + i)
  }

  /**
   * The probe plan of ScanAsync: a failed interface lookup probes nothing; a
   * missing mask falls back to 255.255.255.0; a task array longer than
   * .NET allows (the wrapped size `end - start + 1`) faults before any probe.
   */
  function PlanScan(iface: Option<InterfaceAddress>): (p: Plan)
    ensures iface.None? <==> p == NoInterface
  {
    match iface
    case None => NoInterface
    case Some(a) => PlanRange(GetRange(a.addr, a.mask.GetOr(DefaultMask)))
  }

  /** Allocate the task array (faulting when it is too long), then walk start..end. */
  function PlanRange(r: Range): (p: Plan)
    ensures p != NoInterface
  {
    if Wrap(r.end - r.start + 1) > MaxArrayLength then Faulted
    else Probe(Interval(r.start, r.end))
  }

  /** The all-ones mask (a /32) faults: its wrapped task count is 2^32 - 1. */
  lemma HostMaskFaults(addr: Octets4, mask: Octets4)
    requires IpToUInt(mask) == AllOnes
    ensures PlanScan(Some(InterfaceAddress(addr, Some(mask)))) == Faulted
  {
    HostMaskRange(addr, mask);
    assert PlanScan(Some(InterfaceAddress(addr, Some(mask)))) == PlanRange(GetRange(addr, mask));
  }

  /**
   * For any other mask, the sweep faults exactly when more than
   * Array.MaxLength addresses lie strictly between the network and
   * broadcast addresses; otherwise it visits exactly those addresses, in
   * order, and never the network or broadcast address itself.
   */
  lemma PlanCoversHostAddresses(addr: Octets4, mask: Octets4)
    requires IpToUInt(mask) != AllOnes
    ensures var r := GetRange(addr, mask);
      var p := PlanScan(Some(InterfaceAddress(addr, Some(mask))));
      && (p.Faulted? <==> r.broadcast - r.network - 1 > MaxArrayLength)
      && (p.Probe? ==>
            && |p.targets| == r.broadcast - r.network - 1
            && (forall i :: 0 <= i < |p.targets| ==> p.targets[i] == r.network + 1 + i)
            && (forall t :: t in p.targets ==> r.network < t < r.broadcast))
  {
    var r := GetRange(addr, mask);
    RangeShape(addr, mask);
    PlanOfProperRange(r);
    assert PlanScan(Some(InterfaceAddress(addr, Some(mask)))) == PlanRange(r);
  }

  lemma PlanOfProperRange(r: Range)
    requires r.network < r.broadcast && r.start == r.network + 1 && r.end == r.broadcast - 1
    ensures var p := PlanRange(r);
      && (p.Faulted? <==> r.broadcast - r.network - 1 > MaxArrayLength)
      && (p.Probe? ==>
            && |p.targets| == r.broadcast - r.network - 1
            && (forall i :: 0 <= i < |p.targets| ==> p.targets[i] == r.network + 1 + i)
            && (forall t :: t in p.targets ==> r.network < t < r.broadcast))
  {
    var count := r.end - r.start + 1;
    assert Wrap(count) == count;
  }

  /** The contiguous mask with the low `hostBits` bits clear: the /(32 - hostBits) netmask. */
  function HostBitsMask(hostBits: nat): (m: u32)
    requires hostBits <= Word
    ensures m == HighMask(Word, hostBits)
  {
    WordIsPow2();
    HighMask(Word, hostBits)
  }

  /**
   * Below a contiguous mask, ANDing any address of the block that starts at
   * the network address gives the network address back.
   */
  lemma SameNetworkAt(u: nat, t: nat, k: nat, w: nat)
    requires w == Word && k <= w && u < WordSize && t < WordSize
    requires And(u, HighMask(w, k)) <= t < And(u, HighMask(w, k)) + Pow2(k)
    ensures And(t, HighMask(w, k)) == And(u, HighMask(w, k))
  {
    assert Pow2(w) == WordSize by { WordIsPow2(); }
    AndHighMask(u, w, k);
    AndHighMask(t, w, k);
    AlignedNeighbour(u, t, Pow2(k));
  }

  /** The broadcast address of a contiguous mask closes a block of 2^hostBits addresses. */
  lemma BlockSizeAt(u: nat, k: nat, w: nat)
    requires w == Word && 1 <= k <= w && u < WordSize
    ensures HighMask(w, k) < AllOnes
    ensures AllOnes - HighMask(w, k) + 1 == Pow2(k)
  {
    assert Pow2(w) == WordSize by { WordIsPow2(); }
    Pow2Monotone(1, k);
  }

  /**
   * For a contiguous mask with at least one host bit (a prefix of at most
   * 31), the network spans 2^hostBits addresses, a /31 probes nothing, and
   * every probed address belongs to the interface's network: ANDed with the
   * mask it gives the network address.
   */
  lemma ContiguousMaskStaysInNetwork(addr: Octets4, hostBits: nat)
    requires 1 <= hostBits <= Word
    ensures var mask := UIntToIp(HostBitsMask(hostBits));
      var r := GetRange(addr, mask);
      var p := PlanScan(Some(InterfaceAddress(addr, Some(mask))));
      && r.broadcast - r.network + 1 == Pow2(hostBits)
      && (hostBits == 1 ==> p == Probe([]))
      && (p.Probe? ==> forall t :: t in p.targets ==> AndWord(t, IpToUInt(mask)) == r.network)
  {
    var m := HostBitsMask(hostBits);
    var mask := UIntToIp(m);
    UIntToIpInverse(m);
    var u := IpToUInt(addr);
    BlockSizeAt(u, hostBits, Word);
    RangeShape(addr, mask);
    PlanCoversHostAddresses(addr, mask);
    var r := GetRange(addr, mask);
    var p := PlanScan(Some(InterfaceAddress(addr, Some(mask))));
    if p.Probe? {
      forall t | t in p.targets
        ensures AndWord(t, m) == r.network
      {
        SameNetworkAt(u, t, hostBits, Word);
      }
    }
  }

  /** What probing one address found. */
  datatype ProbeResult = ProbeResult(alive: bool, mac: Option<MacAddress>)

  /** A probed address is reported iff the ping answered or a hardware address resolved. */
  predicate Discovered(r: ProbeResult) {
    r.alive || r.mac.Some?
  }

  /** The MAC text stored for a discovery: colon-separated hex, or empty when no MAC resolved. */
  function MacText(mac: Option<MacAddress>): (s: string)
    ensures mac.None? <==> s == ""
    ensures mac.Some? ==> Text.Split(s, ':') == HexPairs(mac.value)
  {
    match mac
    case None => ""
    case Some(m) => FormatMac(m)
  }

  /**
   * The discovery upsert: a new IP is appended with the MAC text, its vendor
   * and the time; an existing entry has Mac, Vendor and LastSeen overwritten
   * and keeps everything else.
   */
  function Upsert(hosts: seq<HostEntry>, ip: IpAddress, macText: string, now: int): (h: seq<HostEntry>)
    ensures IndexOfIp(hosts, ip).None? ==>
      h == hosts + [NewHostEntry(ip, macText, VendorLookup.Vendor(macText), now)]
    ensures IndexOfIp(hosts, ip).Some? ==>
      var k := IndexOfIp(hosts, ip).value;
      |h| == |hosts| && h[k] == hosts[k].(mac := macText, vendor := VendorLookup.Vendor(macText), lastSeen := now)
      && forall i :: 0 <= i < |hosts| && i != k ==> h[i] == hosts[i]
  {
    match IndexOfIp(hosts, ip)
    case None => hosts + [NewHostEntry(ip, macText, VendorLookup.Vendor(macText), now)]
    case Some(k) => hosts[k := hosts[k].(mac := macText, vendor := VendorLookup.Vendor(macText), lastSeen := now)]
  }

  /** Upserting keeps one entry per IP, and the IP is then present with the given MAC text. */
  lemma UpsertKeepsOneEntryPerIp(hosts: seq<HostEntry>, ip: IpAddress, macText: string, now: int)
    requires OneEntryPerIp(hosts)
    ensures var h := Upsert(hosts, ip, macText, now);
      && OneEntryPerIp(h)
      && IndexOfIp(h, ip).Some? && h[IndexOfIp(h, ip).value].mac == macText
      && (forall i :: 0 <= i < |hosts| ==> h[i].ip == hosts[i].ip)
  {
    var h := Upsert(hosts, ip, macText, now);
    match IndexOfIp(hosts, ip)
    case None =>
      assert h[|hosts|].ip == ip;
      var j := IndexOfIp(h, ip).value;
      assert j == |hosts|;
    case Some(k) =>
      assert h[k].ip == ip;
      var j := IndexOfIp(h, ip).value;
      assert j == k;
  }

  /** One probe's effect on the list: discovered addresses are upserted, others change nothing. */
  function Record(hosts: seq<HostEntry>, target: u32, r: ProbeResult, now: int): (h: seq<HostEntry>)
    ensures !Discovered(r) ==> h == hosts
    ensures Discovered(r) ==> h == Upsert(hosts, V4(UIntToIp(target)), MacText(r.mac), now)
  {
    if Discovered(r) then Upsert(hosts, V4(UIntToIp(target)), MacText(r.mac), now) else hosts
  }

  /** The sweep over the planned addresses, each probe's result applied in address order. */
  function ApplyProbes(hosts: seq<HostEntry>, targets: seq<u32>, probe: u32 -> ProbeResult, now: int): (h: seq<HostEntry>)
    ensures |hosts| <= |h|
    decreases |targets|
  {
    if |targets| == 0 then hosts
    else ApplyProbes(Record(hosts, targets[0], probe(targets[0]), now), targets[1..], probe, now)
  }

  /**
   * ScanAsync end to end: the plan for the interface, then every planned
   * address probed and recorded. A failed lookup or a fault leaves the list alone.
   */
  function Scan(hosts: seq<HostEntry>, iface: Option<InterfaceAddress>, probe: u32 -> ProbeResult, now: int): (h: seq<HostEntry>)
    ensures !PlanScan(iface).Probe? ==> h == hosts
  {
    match PlanScan(iface)
    case Probe(targets) => ApplyProbes(hosts, targets, probe, now)
    case _ => hosts
  }

  /** A sweep keeps one entry per IP, and every entry already listed keeps its position and IP. */
  lemma {:induction false} SweepKeepsEntries(hosts: seq<HostEntry>, targets: seq<u32>, probe: u32 -> ProbeResult, now: int)
    requires OneEntryPerIp(hosts)
    ensures var h := ApplyProbes(hosts, targets, probe, now);
      && OneEntryPerIp(h)
      && (forall i :: 0 <= i < |hosts| ==> h[i].ip == hosts[i].ip)
    decreases |targets|
  {
    if |targets| > 0 {
      var t0 := targets[0];
      if Discovered(probe(t0)) {
        UpsertKeepsOneEntryPerIp(hosts, V4(UIntToIp(t0)), MacText(probe(t0).mac), now);
      }
      SweepKeepsEntries(Record(hosts, t0, probe(t0), now), targets[1..], probe, now);
    }
  }

  /** After a sweep over distinct addresses, every discovered one is listed with the MAC text of its probe. */
  lemma {:induction false} SweepRecordsDiscoveries(hosts: seq<HostEntry>, targets: seq<u32>, probe: u32 -> ProbeResult, now: int)
    requires OneEntryPerIp(hosts)
    requires forall i, j :: 0 <= i < j < |targets| ==> targets[i] != targets[j]
    ensures var h := ApplyProbes(hosts, targets, probe, now);
      forall t :: t in targets && Discovered(probe(t)) ==>
        IndexOfIp(h, V4(UIntToIp(t))).Some? && h[IndexOfIp(h, V4(UIntToIp(t))).value].mac == MacText(probe(t).mac)
    decreases |targets|
  {
    if |targets| > 0 {
      var t0 := targets[0];
      var h1 := Record(hosts, t0, probe(t0), now);
      if Discovered(probe(t0)) {
        UpsertKeepsOneEntryPerIp(hosts, V4(UIntToIp(t0)), MacText(probe(t0).mac), now);
      }
      SweepRecordsDiscoveries(h1, targets[1..], probe, now);
      if Discovered(probe(t0)) {
        assert t0 !in targets[1..];
        LaterTargetsKeepEntry(h1, targets[1..], probe, now, t0);
      }
    }
  }

  /**
   * A probe keeps the IP at every listed position; one that lengthens the
   * list was a discovery, and the one entry it appended carries the probed address.
   */
  lemma RecordGrowth(hosts: seq<HostEntry>, target: u32, r: ProbeResult, now: int)
    ensures var h := Record(hosts, target, r, now);
      && |hosts| <= |h|
      && (forall i :: 0 <= i < |hosts| ==> h[i].ip == hosts[i].ip)
      && (|h| > |hosts| ==> Discovered(r) && |h| == |hosts| + 1 && h[|hosts|].ip == V4(UIntToIp(target)))
  {
  }

  /** A sweep keeps the IP at every position listed before it. */
  lemma {:induction false} SweepKeepsIps(hosts: seq<HostEntry>, targets: seq<u32>, probe: u32 -> ProbeResult, now: int)
    ensures var h := ApplyProbes(hosts, targets, probe, now);
      forall i :: 0 <= i < |hosts| ==> h[i].ip == hosts[i].ip
    decreases |targets|
  {
    if |targets| > 0 {
      RecordGrowth(hosts, targets[0], probe(targets[0]), now);
      SweepKeepsIps(Record(hosts, targets[0], probe(targets[0]), now), targets[1..], probe, now);
    }
  }

  /** The address of one of the targets whose probe found a host. */
  ghost predicate DiscoveredAddress(ip: IpAddress, targets: seq<u32>, probe: u32 -> ProbeResult) {
    exists t :: t in targets && Discovered(probe(t)) && ip == V4(UIntToIp(t))
  }

  /** Every entry a sweep appends is a discovered target's address. */
  lemma {:induction false} SweepAddsOnlyDiscoveries(hosts: seq<HostEntry>, targets: seq<u32>, probe: u32 -> ProbeResult, now: int)
    ensures var h := ApplyProbes(hosts, targets, probe, now);
      forall i :: |hosts| <= i < |h| ==> DiscoveredAddress(h[i].ip, targets, probe)
    decreases |targets|
  {
    if |targets| > 0 {
      var t0 := targets[0];
      var h1 := Record(hosts, t0, probe(t0), now);
      RecordGrowth(hosts, t0, probe(t0), now);
      SweepAddsOnlyDiscoveries(h1, targets[1..], probe, now);
      SweepKeepsIps(h1, targets[1..], probe, now);
      var h := ApplyProbes(h1, targets[1..], probe, now);
      assert ApplyProbes(hosts, targets, probe, now) == h;
      forall i | |hosts| <= i < |h|
        ensures DiscoveredAddress(h[i].ip, targets, probe)
      {
        if i < |h1| {
          assert i == |hosts| && h[i].ip == h1[i].ip;
          assert t0 in targets && Discovered(probe(t0)) && h[i].ip == V4(UIntToIp(t0));
        } else {
          assert DiscoveredAddress(h[i].ip, targets[1..], probe);
          var t :| t in targets[1..] && Discovered(probe(t)) && h[i].ip == V4(UIntToIp(t));
          assert t in targets;
        }
      }
    }
  }

  /** Probes of other addresses leave an entry's MAC text alone. */
  lemma {:induction false} LaterTargetsKeepEntry(hosts: seq<HostEntry>, targets: seq<u32>, probe: u32 -> ProbeResult, now: int, t: u32)
    requires OneEntryPerIp(hosts)
    requires t !in targets
    requires IndexOfIp(hosts, V4(UIntToIp(t))).Some?
    ensures var h := ApplyProbes(hosts, targets, probe, now);
      IndexOfIp(h, V4(UIntToIp(t))).Some?
      && h[IndexOfIp(h, V4(UIntToIp(t))).value].mac == hosts[IndexOfIp(hosts, V4(UIntToIp(t))).value].mac
    decreases |targets|
  {
    if |targets| > 0 {
      var t0 := targets[0];
      var h1 := Record(hosts, t0, probe(t0), now);
      UIntToIpInjective(t, t0);
      if Discovered(probe(t0)) {
        UpsertKeepsOneEntryPerIp(hosts, V4(UIntToIp(t0)), MacText(probe(t0).mac), now);
      }
      LaterTargetsKeepEntry(h1, targets[1..], probe, now, t);
    }
  }
}

=== FILE: text.dfy ===
/** The .NET string operations the components rely on, over `seq<char>`. */
module Text {
  import opened Wrappers
  import opened Bytes

  /** char.IsWhiteSpace: the Unicode space separators plus the control characters it counts. */
  predicate IsWhiteSpace(c: char) {
    || '\U{9}' <= c <= '\U{D}'
    || c == ' ' || c == '\U{85}' || c == '\U{A0}' || c == '\U{1680}'
    || '\U{2000}' <= c <= '\U{200A}'
    || c == '\U{2028}' || c == '\U{2029}' || c == '\U{202F}' || c == '\U{205F}' || c == '\U{3000}'
  }

  /** string.IsNullOrWhiteSpace, with `None` standing for `null`. */
  predicate IsNullOrWhiteSpace(s: Option<string>) {
    s.None? || IsBlank(s.value)
  }

  /** Empty or white space only. */
  predicate IsBlank(s: string) {
    forall i :: 0 <= i < |s| ==> IsWhiteSpace(s[i])
  }

  /** The number of white-space characters at the front of `s`. */
  function LeadingWhite(s: string): (n: nat)
    ensures n <= |s|
    ensures forall i :: 0 <= i < n ==> IsWhiteSpace(s[i])
    ensures n < |s| ==> !IsWhiteSpace(s[n])
    decreases |s|
  {
    if |s| > 0 && IsWhiteSpace(s[0]) then 1 + LeadingWhite(s[1..]) else 0
  }

  /** The number of white-space characters at the back of `s`. */
  function TrailingWhite(s: string): (n: nat)
    ensures n <= |s|
    ensures forall i :: |s| - n <= i < |s| ==> IsWhiteSpace(s[i])
    ensures n < |s| ==> !IsWhiteSpace(s[|s| - n - 1])
    decreases |s|
  {
    if |s| > 0 && IsWhiteSpace(s[|s| - 1]) then 1 + TrailingWhite(s[..|s| - 1]) else 0
  }

  /** `r` is `s` with only white space before and after it, the part before starting at `lo`. */
  predicate FramedBy(s: string, r: string, lo: int) {
    0 <= lo && lo + |r| <= |s| && s[lo..lo + |r|] == r && IsBlank(s[..lo]) && IsBlank(s[lo + |r|..])
  }

  /** string.Trim(): the longest middle part with no white space at either end. */
  function Trim(s: string): (r: string)
    ensures exists i :: OccursAt(s, r, i)
    ensures |r| > 0 ==> !IsWhiteSpace(r[0]) && !IsWhiteSpace(r[|r| - 1])
    ensures r == [] <==> IsBlank(s)
    ensures exists lo :: FramedBy(s, r, lo)
  {
    var lo := LeadingWhite(s);
    var n := TrailingWhite(s[lo..]);
    LeadingRunIsBlank(s);
    TrailingRunOfSuffixIsBlank(s, lo);
    BlankEndsFrame(s, lo, |s| - n);
    TrimEdges(s, lo, n);
    s[lo..|s| - n]
  }

  /** The trailing white run of a suffix of `s` is a blank suffix of `s` itself. */
  lemma TrailingRunOfSuffixIsBlank(s: string, lo: nat)
    requires lo <= |s|
    ensures lo + TrailingWhite(s[lo..]) <= |s|
    ensures IsBlank(s[|s| - TrailingWhite(s[lo..])..])
  {
    TrailingRunIsBlank(s[lo..]);
    SuffixOfSuffix(s, lo, TrailingWhite(s[lo..]));
  }

  /** The last `n` elements of a suffix of `s` are the last `n` elements of `s`. */
  lemma SuffixOfSuffix<T>(s: seq<T>, lo: nat, n: nat)
    requires lo + n <= |s|
    ensures s[lo..][|s| - lo - n..] == s[|s| - n..]
  {
  }

  /** The middle part starts and ends with a character that is not white space, and is empty exactly for a blank string. */
  lemma TrimEdges(s: string, lo: nat, n: nat)
    requires lo == LeadingWhite(s) && n == TrailingWhite(s[lo..])
    ensures lo <= |s| - n
    ensures var r := s[lo..|s| - n];
      && (|r| > 0 ==> !IsWhiteSpace(r[0]) && !IsWhiteSpace(r[|r| - 1]))
      && (r == [] <==> IsBlank(s))
  {
    var t := s[lo..];
    assert n < |t| ==> t[|t| - n - 1] == s[|s| - n - 1];
    if lo < |s| - n {
      assert !IsWhiteSpace(s[lo]);
    } else {
      LeadingRunIsBlank(s);
      TrailingRunOfSuffixIsBlank(s, lo);
      BlankJoin(s, lo);
    }
  }

  /** A blank prefix followed by a blank suffix is blank. */
  lemma BlankJoin(s: string, lo: nat)
    requires lo <= |s| && IsBlank(s[..lo]) && IsBlank(s[lo..])
    ensures IsBlank(s)
  {
    assert forall i :: 0 <= i < lo ==> s[i] == s[..lo][i];
    assert forall i :: lo <= i < |s| ==> s[i] == s[lo..][i - lo];
  }

  /** A slice with only white space before and after it is framed by it. */
  lemma BlankEndsFrame(s: string, lo: nat, hi: nat)
    requires lo <= hi <= |s| && IsBlank(s[..lo]) && IsBlank(s[hi..])
    ensures OccursAt(s, s[lo..hi], lo) && FramedBy(s, s[lo..hi], lo)
  {
  }

  lemma LeadingRunIsBlank(s: string)
    ensures IsBlank(s[..LeadingWhite(s)])
  {
    var pre := s[..LeadingWhite(s)];
    assert forall i :: 0 <= i < |pre| ==> pre[i] == s[i];
  }

  lemma TrailingRunIsBlank(t: string)
    ensures IsBlank(t[|t| - TrailingWhite(t)..])
  {
    var n := TrailingWhite(t);
    var post := t[|t| - n..];
    assert forall i :: 0 <= i < |post| ==> post[i] == t[|t| - n + i];
  }

  /** Invariant-culture lower-casing, restricted to the ASCII letters. */
  function LowerChar(c: char): char {
    if 'A' <= c <= 'Z' then (c as int + 32) as char else c
  }

  /** Invariant-culture upper-casing, restricted to the ASCII letters. */
  function UpperChar(c: char): char {
    if 'a' <= c <= 'z' then (c as int - 32) as char else c
  }

  function ToLower(s: string): (r: string)
    ensures |r| == |s|
    ensures forall i :: 0 <= i < |s| ==> r[i] == LowerChar(s[i])
  {
    seq(|s|, i requires 0 <= i < |s| => LowerChar(s[i]))
  }

  function ToUpper(s: string): (r: string)
    ensures |r| == |s|
    ensures forall i :: 0 <= i < |s| ==> r[i] == UpperChar(s[i])
  {
    seq(|s|, i requires 0 <= i < |s| => UpperChar(s[i]))
  }

  /** Ordinal comparison ignoring ASCII case (StringComparer.OrdinalIgnoreCase on ASCII text). */
  predicate EqualsIgnoreCase(a: string, b: string) {
    ToUpper(a) == ToUpper(b)
  }

  predicate StartsWith(s: string, prefix: string) {
    |prefix| <= |s| && s[..|prefix|] == prefix
  }

  predicate EndsWith(s: string, suffix: string) {
    |suffix| <= |s| && s[|s| - |suffix|..] == suffix
  }

  /** `sub` occurs in `s` starting at position `i`. */
  predicate OccursAt(s: string, sub: string, i: int) {
    0 <= i <= |s| - |sub| && s[i..i + |sub|] == sub
  }

  /** Ordinal string.Contains, scanning left to right. */
  predicate Contains(s: string, sub: string)
    decreases |s|
  {
    StartsWith(s, sub) || (|s| > 0 && Contains(s[1..], sub))
  }

  /** `Contains` holds exactly when `sub` occurs at some position of `s`. */
  lemma {:induction false} ContainsIffOccurs(s: string, sub: string)
    ensures Contains(s, sub) <==> exists i :: OccursAt(s, sub, i)
    decreases |s|
  {
    if StartsWith(s, sub) {
      assert OccursAt(s, sub, 0);
    } else if |s| == 0 {
    } else {
      ContainsIffOccurs(s[1..], sub);
      if exists i :: OccursAt(s, sub, i) {
        var i :| OccursAt(s, sub, i);
        assert i != 0;
        assert s[1..][i - 1..i - 1 + |sub|] == s[i..i + |sub|];
        assert OccursAt(s[1..], sub, i - 1);
      }
      if Contains(s[1..], sub) {
        var j :| OccursAt(s[1..], sub, j);
        assert s[1..][j..j + |sub|] == s[j + 1..j + 1 + |sub|];
        assert OccursAt(s, sub, j + 1);
      }
    }
  }

  /** string.Replace(from, to) for single characters. */
  function Replace(s: string, from: char, to: char): (r: string)
    ensures |r| == |s|
    ensures forall i :: 0 <= i < |s| ==> r[i] == (if s[i] == from then to else s[i])
  {
    seq(|s|, i requires 0 <= i < |s| => if s[i] == from then to else s[i])
  }

  /** Replacing a character the text does not hold changes nothing. */
  lemma ReplaceAbsent(s: string, from: char, to: char)
    requires from !in s
    ensures Replace(s, from, to) == s
  {
  }

  /** string.Split(c): the maximal runs between separators, empty runs included. */
  function Split(s: string, c: char): (parts: seq<string>)
    ensures |parts| >= 1
    ensures forall i :: 0 <= i < |parts| ==> c !in parts[i]
    decreases |s|
  {
    if |s| == 0 then [""]
    else
      var rest := Split(s[1..], c);
      if s[0] == c then [""] + rest else [[s[0]] + rest[0]] + rest[1..]
  }

  /** string.Join(c, parts). */
  function Join(parts: seq<string>, c: char): string
    decreases |parts|
  {
    if |parts| == 0 then ""
    else if |parts| == 1 then parts[0]
    else parts[0] + [c] + Join(parts[1..], c)
  }

  /** Joining the pieces of a split gives back the original text. */
  lemma {:induction false} JoinSplit(s: string, c: char)
    ensures Join(Split(s, c), c) == s
    decreases |s|
  {
    if |s| > 0 {
      var rest := Split(s[1..], c);
      JoinSplit(s[1..], c);
      if s[0] == c {
        assert Split(s, c) == [""] + rest;
      } else {
        assert Split(s, c)[1..] == rest[1..];
        if |rest| > 1 {
          assert Join(rest, c) == rest[0] + [c] + Join(rest[1..], c);
        }
        assert s == [s[0]] + s[1..];
      }
    }
  }

  /** Splitting a join of separator-free pieces gives back the pieces. */
  lemma {:induction false} SplitJoin(parts: seq<string>, c: char)
    requires |parts| >= 1
    requires forall i :: 0 <= i < |parts| ==> c !in parts[i]
    ensures Split(Join(parts, c), c) == parts
    decreases |parts|
  {
    if |parts| == 1 {
      SplitNoSeparator(parts[0], c);
    } else {
      SplitJoin(parts[1..], c);
      SplitAfterPiece(parts[0], Join(parts[1..], c), c);
      assert Join(parts, c) == parts[0] + ([c] + Join(parts[1..], c));
      assert parts == [parts[0]] + parts[1..];
    }
  }

  /** A character other than the separator that no piece contains is absent from the join. */
  lemma {:induction false} JoinAvoids(parts: seq<string>, c: char, x: char)
    requires x != c
    requires forall i :: 0 <= i < |parts| ==> x !in parts[i]
    ensures x !in Join(parts, c)
    decreases |parts|
  {
    if |parts| > 1 {
      JoinAvoids(parts[1..], c, x);
    }
  }

  /** A join starts with its first piece. */
  lemma JoinHead(parts: seq<string>, c: char)
    requires |parts| >= 1
    ensures StartsWith(Join(parts, c), parts[0])
  {
  }

  lemma {:induction false} SplitNoSeparator(p: string, c: char)
    requires c !in p
    ensures Split(p, c) == [p]
    decreases |p|
  {
    if |p| > 0 {
      SplitNoSeparator(p[1..], c);
      assert p == [p[0]] + p[1..];
    }
  }

  lemma {:induction false} SplitAfterPiece(p: string, rest: string, c: char)
    requires c !in p
    ensures Split(p + ([c] + rest), c) == [p] + Split(rest, c)
    decreases |p|
  {
    if |p| == 0 {
      assert p + ([c] + rest) == [c] + rest;
      assert ([c] + rest)[1..] == rest;
    } else {
      SplitAfterPiece(p[1..], rest, c);
      assert (p + ([c] + rest))[1..] == p[1..] + ([c] + rest);
      assert p == [p[0]] + p[1..];
    }
  }

  /** One hexadecimal digit, upper case. */
  function HexDigit(d: int): (c: char)
    requires 0 <= d < 16
  {
    if d < 10 then ('0' as int + d) as char else ('A' as int + d - 10) as char
  }

  /** The value of a hexadecimal digit of either case, if `c` is one. */
  function HexValue(c: char): (v: Option<int>)
    ensures v.Some? ==> 0 <= v.value < 16
  {
    if '0' <= c <= '9' then Some(c as int - '0' as int)
    else if 'A' <= c <= 'F' then Some(c as int - 'A' as int + 10)
    else if 'a' <= c <= 'f' then Some(c as int - 'a' as int + 10)
    else None
  }

  /** byte.ToString("X2"). */
  function Hex2(b: byte): (s: string)
    ensures |s| == 2
    ensures HexValue(s[0]) == Some(b / 16) && HexValue(s[1]) == Some(b % 16)
  {
    [HexDigit(b / 16), HexDigit(b % 16)]
  }

  /** The decimal digits of a natural number (int.ToString / byte.ToString). */
  function Decimal(n: nat): (s: string)
    ensures |s| >= 1
    ensures forall i :: 0 <= i < |s| ==> '0' <= s[i] <= '9'
  {
    if n < 10 then [('0' as int + n) as char]
    else Decimal(n / 10) + [('0' as int + n % 10) as char]
  }
}

=== FILE: vendor_lookup.dfy ===
/**
 * VendorLookup: the manufacturer of a hardware address, from the first
 * three octets of its text form looked up in an OUI table.
 */
module VendorLookup {
  import opened Wrappers
  import opened Bytes
  import opened Text
  import Models

  const UnknownVendor: string := "Unknown Vendor"

  /** An OUI table: "XX:XX:XX" prefixes and vendor names, keys compared ignoring case. */
  type OuiTable = seq<(string, string)>

  /** The table the application ships. */
  const KnownVendors: OuiTable := [
    ("00:1C:B3", "Apple"), ("FC:FB:FB", "Apple"), ("3C:5A:B4", "Apple"),
    ("F0:79:59", "Samsung"), ("64:16:66", "Samsung"),
    ("68:3E:34", "Huawei"),
    ("00:1B:21", "Intel"), ("A4:5E:60", "Intel"),
    ("00:14:22", "Dell"), ("C4:34:6B", "Dell"),
    ("00:1D:D8", "HP"), ("B8:6B:23", "HP"),
    ("00:1B:54", "Cisco"), ("00:25:9C", "Cisco"),
    ("C8:2A:14", "Lenovo"),
    ("00:0C:42", "TP-Link"),
    ("50:7B:9D", "Realtek"),
    ("60:A4:4C", "AzureWave"),
    ("6C:4D:73", "Xiaomi")
  ]

  /** Dictionary.TryGetValue under an ordinal case-insensitive comparer. */
  function Lookup(table: OuiTable, key: string): (v: Option<string>)
    ensures v.Some? <==> exists i :: 0 <= i < |table| && EqualsIgnoreCase(table[i].0, key)
    ensures v.Some? ==> exists i :: 0 <= i < |table| && EqualsIgnoreCase(table[i].0, key) && table[i].1 == v.value
  {
    if |table| == 0 then None
    else if EqualsIgnoreCase(table[0].0, key) then Some(table[0].1)
    else
      var v := Lookup(table[1..], key);
      assert forall i :: 1 <= i < |table| ==> table[i] == table[1..][i - 1];
      v
  }

  /** Keys that agree ignoring case look up the same entry. */
  lemma {:induction false} LookupIgnoresCase(table: OuiTable, a: string, b: string)
    requires ToUpper(a) == ToUpper(b)
    ensures Lookup(table, a) == Lookup(table, b)
    decreases |table|
  {
    if |table| > 0 {
      LookupIgnoresCase(table[1..], a, b);
    }
  }

  /** The white space NumberStyles.AllowLeadingWhite/AllowTrailingWhite accept. */
  predicate IsNumberWhite(c: char) {
    c == ' ' || '\U{9}' <= c <= '\U{D}'
  }

  /** `s` without its leading and trailing number white space. */
  function StripNumberWhite(s: string): (t: string)
    ensures exists i :: OccursAt(s, t, i)
    ensures (forall i :: 0 <= i < |s| ==> !IsNumberWhite(s[i])) ==> t == s
    decreases |s|
  {
    if |s| > 0 && IsNumberWhite(s[0]) then
      var t := StripNumberWhite(s[1..]);
      var i :| OccursAt(s[1..], t, i);
      assert OccursAt(s, t, i + 1) by {
        assert s[1..][i..i + |t|] == s[i + 1..i + 1 + |t|];
      }
      t
    else if |s| > 0 && IsNumberWhite(s[|s| - 1]) then
      var t := StripNumberWhite(s[..|s| - 1]);
      var i :| OccursAt(s[..|s| - 1], t, i);
      assert OccursAt(s, t, i) by {
        assert s[..|s| - 1][i..i + |t|] == s[i..i + |t|];
      }
      t
    else
      assert OccursAt(s, s, 0);
      s
  }

  predicate AllHex(t: string) {
    forall i :: 0 <= i < |t| ==> HexValue(t[i]).Some?
  }

  /** The value of a run of hexadecimal digits, most significant first. */
  function HexNumber(t: string): (n: nat)
    requires AllHex(t)
    decreases |t|
  {
    if |t| == 0 then 0 else 16 * HexNumber(t[..|t| - 1]) + HexValue(t[|t| - 1]).value
  }

  /**
   * `s` without the run of '\0' characters at its end: .NET's number parser
   * accepts any number of them after the number and its trailing white space.
   */
  function DropTrailingNuls(s: string): (t: string)
    ensures t <= s
    ensures forall i :: |t| <= i < |s| ==> s[i] == '\0'
    ensures |t| == 0 || t[|t| - 1] != '\0'
    decreases |s|
  {
    if |s| > 0 && s[|s| - 1] == '\0' then DropTrailingNuls(s[..|s| - 1]) else s
  }

  /** The digits byte.Parse reads: trailing '\0's dropped, then the number white space around what is left. */
  function NumberText(s: string): string {
    StripNumberWhite(DropTrailingNuls(s))
  }

  /**
   * byte.Parse(s, NumberStyles.HexNumber): optional white space around a
   * non-empty run of hex digits whose value fits in a byte, optionally
   * followed by '\0's; None where the parse throws (bad format or overflow).
   */
  function ParseHexByte(s: string): (b: Option<byte>)
    ensures b.Some? ==> var t := NumberText(s); |t| > 0 && AllHex(t) && HexNumber(t) == b.value
    ensures var t := NumberText(s); |t| > 0 && AllHex(t) && HexNumber(t) <= 0xFF ==> b == Some(HexNumber(t))
  {
    var t := NumberText(s);
    if |t| == 0 || !AllHex(t) then None
    else if HexNumber(t) > 0xFF then None
    else Some(HexNumber(t))
  }

  /** VendorLookup.Norm: the parsed octet re-printed as two upper-case hex digits. */
  function Norm(s: string): (r: Option<string>)
    ensures r.Some? <==> ParseHexByte(s).Some?
    ensures r.Some? ==> r.value == Hex2(ParseHexByte(s).value)
  {
    match ParseHexByte(s)
    case None => None
    case Some(b) => Some(Hex2(b))
  }

  /** Two hex digits hold neither separator. */
  lemma Hex2Separators(b: byte)
    ensures ':' !in Hex2(b) && '-' !in Hex2(b)
  {
    var s := Hex2(b);
    assert s == [s[0], s[1]];
    assert HexValue(':').None? && HexValue('-').None?;
  }

  /** Two hex digits printed by Hex2 parse back to the same octet. */
  lemma ParseHex2(b: byte)
    ensures ParseHexByte(Hex2(b)) == Some(b)
  {
    var s := Hex2(b);
    assert DropTrailingNuls(s) == s;
    assert StripNumberWhite(s) == s;
    assert s[..1] == [s[0]];
    assert HexNumber(s[..1]) == b / 16;
  }

  /** A '\0' after a part changes nothing: "1C\0" parses as "1C" does. */
  lemma NulPaddingIgnored(s: string)
    ensures ParseHexByte(s + "\0") == ParseHexByte(s)
  {
    assert (s + "\0")[..|s|] == s;
  }

  /** A '\0' after the digits is accepted. */
  lemma TrailingNulAccepted()
    ensures Norm("1C\0") == Some("1C")
  {
    NulPaddingIgnored("1C");
    assert "1C" + "\0" == "1C\0";
    AppleOctetsText();
    ParseHex2(0x1C);
    assert ParseHexByte("1C\0") == Some(0x1C);
  }

  /** White space after a '\0' is not: the '\0' is then inside the number. */
  lemma NulBeforeWhiteRejected()
    ensures Norm("1C\0 ") == None
  {
    var s := "1C\0 ";
    assert DropTrailingNuls(s) == s;
    assert StripNumberWhite(s) == StripNumberWhite(s[..3]);
    assert s[..3] == "1C\0";
    assert StripNumberWhite("1C\0") == "1C\0";
    assert !AllHex("1C\0") by { assert HexValue("1C\0"[2]).None?; }
  }

  /** Norm is the identity on its own output: normalising twice changes nothing. */
  lemma NormIdempotent(s: string)
    requires Norm(s).Some?
    ensures Norm(Norm(s).value) == Norm(s)
  {
    ParseHex2(ParseHexByte(s).value);
  }

  /**
   * VendorLookup.FromMac: blank input, fewer than three ':'/'-' separated
   * parts, a part that is not a hex octet, or an unknown prefix all give
   * "Unknown Vendor"; parts after the third are ignored.
   */
  function FromMac(table: OuiTable, mac: Option<string>): (v: string)
    ensures IsNullOrWhiteSpace(mac) ==> v == UnknownVendor
  {
    if IsNullOrWhiteSpace(mac) then UnknownVendor
    else ClassifyParts(table, Split(Replace(mac.value, '-', ':'), ':'))
  }

  /** The vendor named by the first three parts of a split address. */
  function ClassifyParts(table: OuiTable, parts: seq<string>): (v: string)
    ensures |parts| < 3 ==> v == UnknownVendor
  {
    if |parts| < 3 then UnknownVendor
    else match OuiOf(parts[0], parts[1], parts[2])
      case None => UnknownVendor
      case Some(oui) => Lookup(table, oui).GetOr(UnknownVendor)
  }

  /** The normalised "XX:XX:XX" key of three parts, None when a part does not parse. */
  function OuiOf(p0: string, p1: string, p2: string): (k: Option<string>)
    ensures k.Some? <==> Norm(p0).Some? && Norm(p1).Some? && Norm(p2).Some?
    ensures k.Some? ==> Split(k.value, ':') == [Norm(p0).value, Norm(p1).value, Norm(p2).value]
  {
    if Norm(p0).None? || Norm(p1).None? || Norm(p2).None? then None
    else
      var a, b, c := Norm(p0).value, Norm(p1).value, Norm(p2).value;
      Hex2Separators(ParseHexByte(p0).value);
      Hex2Separators(ParseHexByte(p1).value);
      Hex2Separators(ParseHexByte(p2).value);
      SplitThree(a, b, c);
      Some(a + ":" + b + ":" + c)
  }

  /** The vendor label the application shows: FromMac against the shipped table. */
  function Vendor(mac: string): string {
    FromMac(KnownVendors, Some(mac))
  }

  /** '-' separators are treated exactly like ':'. */
  lemma DashIsColon(table: OuiTable, mac: string)
    ensures FromMac(table, Some(mac)) == FromMac(table, Some(Replace(mac, '-', ':')))
  {
    var r := Replace(mac, '-', ':');
    assert Replace(r, '-', ':') == r;
    assert IsBlank(mac) <==> IsBlank(r) by {
      if IsBlank(r) {
        forall i | 0 <= i < |mac| ensures IsWhiteSpace(mac[i]) {
          assert IsWhiteSpace(r[i]);
        }
      }
    }
  }

  /** A text with three or more parts is classified by its first three only. */
  lemma LaterPartsIgnored(table: OuiTable, p0: string, p1: string, p2: string, rest: string)
    requires ':' !in p0 && ':' !in p1 && ':' !in p2
    requires '-' !in p0 && '-' !in p1 && '-' !in p2
    requires !IsBlank(p0)
    ensures FromMac(table, Some(p0 + ":" + p1 + ":" + p2 + ":" + rest))
         == FromMac(table, Some(p0 + ":" + p1 + ":" + p2))
  {
    var short := p0 + ":" + p1 + ":" + p2;
    var long := short + ":" + rest;
    var r := Replace(rest, '-', ':');
    AppendAssoc(short, ":", rest);
    ReplaceSeparatorFree(p0, p1, p2, ":" + rest);
    assert Replace(":" + rest, '-', ':') == ":" + r;
    AppendAssoc(short, ":", r);
    SplitThreeMore(p0, p1, p2, r);
    assert Replace(short, '-', ':') == short;
    SplitThree(p0, p1, p2);
    NotBlankPrefix(p0, short);
    NotBlankPrefix(p0, long);
    var pl := Split(Replace(long, '-', ':'), ':');
    assert pl == [p0, p1, p2] + Split(r, ':');
    SameKeySameVendor(table, pl, [p0, p1, p2]);
  }

  lemma NotBlankPrefix(p: string, s: string)
    requires !IsBlank(p) && StartsWith(s, p)
    ensures !IsBlank(s)
  {
    var i :| 0 <= i < |p| && !IsWhiteSpace(p[i]);
    assert s[i] == p[i];
  }

  /** The pieces of "p0:p1:p2" when the pieces hold no ':'. */
  lemma SplitThree(p0: string, p1: string, p2: string)
    requires ':' !in p0 && ':' !in p1 && ':' !in p2
    ensures Split(p0 + ":" + p1 + ":" + p2, ':') == [p0, p1, p2]
  {
    var t1 := p1 + ([':'] + p2);
    SplitNoSeparator(p2, ':');
    SplitAfterPiece(p1, p2, ':');
    SplitAfterPiece(p0, t1, ':');
    AppendAssoc(p0 + ":" + p1, ":", p2);
    AppendAssoc(p0 + ":", p1, ":" + p2);
    AppendAssoc(p0, ":", t1);
  }

  /** The pieces of "p0:p1:p2:r" when the first three hold no ':'. */
  lemma SplitThreeMore(p0: string, p1: string, p2: string, r: string)
    requires ':' !in p0 && ':' !in p1 && ':' !in p2
    ensures Split(p0 + ":" + p1 + ":" + p2 + ":" + r, ':') == [p0, p1, p2] + Split(r, ':')
  {
    var t2 := p2 + ([':'] + r);
    var t1 := p1 + ([':'] + t2);
    SplitAfterPiece(p2, r, ':');
    SplitAfterPiece(p1, t2, ':');
    SplitAfterPiece(p0, t1, ':');
    var b := p0 + ":" + p1;
    AppendAssoc(b + ":" + p2, ":", r);
    AppendAssoc(b + ":", p2, ":" + r);
    AppendAssoc(b, ":", t2);
    AppendAssoc(p0 + ":", p1, ":" + t2);
    AppendAssoc(p0, ":", t1);
  }

  lemma AppendAssoc<T>(a: seq<T>, b: seq<T>, c: seq<T>)
    ensures a + b + c == a + (b + c)
  {
  }

  /** Replacing '-' leaves separator-free parts alone and rewrites only the tail. */
  lemma ReplaceSeparatorFree(p0: string, p1: string, p2: string, tail: string)
    requires '-' !in p0 && '-' !in p1 && '-' !in p2
    ensures Replace(p0 + ":" + p1 + ":" + p2 + tail, '-', ':') == p0 + ":" + p1 + ":" + p2 + Replace(tail, '-', ':')
  {
    var s := p0 + ":" + p1 + ":" + p2;
    assert forall i :: 0 <= i < |s| ==> s[i] != '-';
    assert (s + tail)[..|s|] == s;
  }

  /** The text FormatMac produces for a hardware address is classified by its first three octets. */
  lemma FormattedMacVendor(table: OuiTable, mac: seq<byte>)
    requires |mac| >= 3
    ensures FromMac(table, Some(Models.FormatMac(mac)))
         == Lookup(table, Hex2(mac[0]) + ":" + Hex2(mac[1]) + ":" + Hex2(mac[2])).GetOr(UnknownVendor)
  {
    FormattedMacParts(mac);
    var pairs := Models.HexPairs(mac);
    assert pairs[0] == Hex2(mac[0]) && pairs[1] == Hex2(mac[1]) && pairs[2] == Hex2(mac[2]);
    OuiOfHex2(mac[0], mac[1], mac[2]);
  }

  /** FormatMac's text is not blank, holds no '-', and splits into the octets' hex pairs. */
  lemma FormattedMacParts(mac: seq<byte>)
    requires |mac| > 0
    ensures var s := Models.FormatMac(mac);
      !IsNullOrWhiteSpace(Some(s)) && Split(Replace(s, '-', ':'), ':') == Models.HexPairs(mac)
  {
    var s := Models.FormatMac(mac);
    var pairs := Models.HexPairs(mac);
    assert s == Join(pairs, ':');
    JoinAvoids(pairs, ':', '-');
    ReplaceAbsent(s, '-', ':');
    JoinHead(pairs, ':');
    assert s[0] == pairs[0][0];
    assert HexValue(s[0]).Some?;
  }

  /** Three octets printed by Hex2 are their own normalised key. */
  lemma OuiOfHex2(b0: byte, b1: byte, b2: byte)
    ensures OuiOf(Hex2(b0), Hex2(b1), Hex2(b2)) == Some(Hex2(b0) + ":" + Hex2(b1) + ":" + Hex2(b2))
  {
    ParseHex2(b0);
    ParseHex2(b1);
    ParseHex2(b2);
  }

  /** A part that strips to one hex digit normalises to that digit's value in two digits. */
  lemma NormHexDigit(s: string, d: char)
    requires NumberText(s) == [d] && HexValue(d).Some?
    ensures Norm(s) == Some(Hex2(HexValue(d).value))
  {
    assert [d][..0] == [];
    assert HexNumber([d]) == HexValue(d).value;
  }

  /** A part that strips to two hex digits normalises to their value in two upper-case digits. */
  lemma NormHexPair(s: string, hi: char, lo: char)
    requires NumberText(s) == [hi, lo] && HexValue(hi).Some? && HexValue(lo).Some?
    ensures Norm(s) == Some(Hex2(16 * HexValue(hi).value + HexValue(lo).value))
  {
    var t := [hi, lo];
    assert AllHex(t);
    assert t[..1] == [hi] && [hi][..0] == [];
    assert HexNumber([hi]) == HexValue(hi).value;
    assert HexNumber(t) == 16 * HexValue(hi).value + HexValue(lo).value;
  }

  /** A one-digit part is padded to two digits. */
  lemma OneDigitPartPadded()
    ensures Norm("0") == Some("00")
  {
    assert DropTrailingNuls("0") == "0";
    assert StripNumberWhite("0") == ['0'];
    NormHexDigit("0", '0');
  }

  /** A lower-case part is upper-cased. */
  lemma LowerCasePartUpperCased()
    ensures Norm("1c") == Some("1C")
  {
    assert DropTrailingNuls("1c") == "1c";
    assert StripNumberWhite("1c") == ['1', 'c'];
    NormHexPair("1c", '1', 'c');
    AppleOctetsText();
  }

  /** Surrounding number white space is ignored. */
  lemma PaddedPartTrimmed()
    ensures Norm(" b3") == Some("B3")
  {
    assert DropTrailingNuls(" b3") == " b3";
    assert StripNumberWhite(" b3") == StripNumberWhite(" b3"[1..]);
    assert " b3"[1..] == ['b', '3'];
    assert StripNumberWhite(['b', '3']) == ['b', '3'];
    NormHexPair(" b3", 'b', '3');
    AppleOctetsText();
  }

  /** Lower-case "b3" normalises to "B3". */
  lemma LowerB3UpperCased()
    ensures Norm("b3") == Some("B3")
  {
    assert DropTrailingNuls("b3") == "b3";
    assert StripNumberWhite("b3") == ['b', '3'];
    NormHexPair("b3", 'b', '3');
    AppleOctetsText();
  }

  /** A value above 0xFF, an empty part and a non-hex part do not parse. */
  lemma BadPartsRejected()
    ensures Norm("100") == None && Norm("") == None && Norm("g1") == None
  {
    assert DropTrailingNuls("100") == "100";
    assert StripNumberWhite("100") == "100";
    assert HexNumber("100") == 16 * HexNumber("10") + 0;
    assert HexNumber("10") == 16 * HexNumber("1") + 0;
    assert DropTrailingNuls("g1") == "g1";
    assert StripNumberWhite("g1") == "g1";
    assert !AllHex("g1") by { assert HexValue("g1"[0]).None?; }
  }

  /** A dash-free, non-blank address text that splits into three parts is classified by them. */
  lemma FromThreeParts(table: OuiTable, mac: string, p0: string, p1: string, p2: string)
    requires '-' !in mac && |mac| > 0 && !IsWhiteSpace(mac[0])
    requires Split(mac, ':') == [p0, p1, p2]
    ensures FromMac(table, Some(mac)) == ClassifyParts(table, [p0, p1, p2])
  {
    assert Replace(mac, '-', ':') == mac;
  }

  /** "p0:p1:p2" with separator-free parts and a non-blank start is classified by the three parts. */
  lemma ThreePartVendor(table: OuiTable, p0: string, p1: string, p2: string)
    requires ':' !in p0 && ':' !in p1 && ':' !in p2
    requires '-' !in p0 && '-' !in p1 && '-' !in p2
    requires |p0| > 0 && !IsWhiteSpace(p0[0])
    ensures FromMac(table, Some(p0 + ":" + p1 + ":" + p2)) == ClassifyParts(table, [p0, p1, p2])
  {
    var mac := p0 + ":" + p1 + ":" + p2;
    SplitThree(p0, p1, p2);
    assert mac[0] == p0[0];
    FromThreeParts(table, mac, p0, p1, p2);
  }

  /** Parts with the same normalised key are classified alike. */
  lemma SameKeySameVendor(table: OuiTable, ps: seq<string>, qs: seq<string>)
    requires |ps| >= 3 && |qs| >= 3
    requires OuiOf(ps[0], ps[1], ps[2]) == OuiOf(qs[0], qs[1], qs[2])
    ensures ClassifyParts(table, ps) == ClassifyParts(table, qs)
  {
  }

  lemma AppleOctetsText()
    ensures Hex2(0x00) == "00" && Hex2(0x1C) == "1C" && Hex2(0xB3) == "B3"
  {
    assert 0x1C / 16 == 1 && 0x1C % 16 == 12;
    assert HexDigit(1) == '1' && HexDigit(12) == 'C';
    assert 0xB3 / 16 == 11 && 0xB3 % 16 == 3;
    assert HexDigit(11) == 'B' && HexDigit(3) == '3';
  }

  /** The canonical parts of the first Apple prefix select "Apple". */
  lemma AppleClassified()
    ensures ClassifyParts(KnownVendors, ["00", "1C", "B3"]) == "Apple"
  {
    ParseHex2(0x00);
    ParseHex2(0x1C);
    ParseHex2(0xB3);
    AppleOctetsText();
    var key := "00" + ":" + "1C" + ":" + "B3";
    assert OuiOf("00", "1C", "B3") == Some(key);
    assert key == KnownVendors[0].0;
  }

  /** The two Apple prefix texts, as their parts joined with ':'. */
  lemma AppleTexts()
    ensures "00" + ":" + "1C" + ":" + "B3" == "00:1C:B3"
    ensures "0" + ":" + "1c" + ":" + "b3" == "0:1c:b3"
  {
    assert "00" + ":" == "00:";
    assert "00:" + "1C" == "00:1C";
    assert "00:1C" + ":" == "00:1C:";
    assert "0" + ":" == "0:";
    assert "0:" + "1c" == "0:1c";
    assert "0:1c" + ":" == "0:1c:";
  }

  /** The canonical Apple prefix is found in the shipped table. */
  lemma CanonicalAppleKey()
    ensures Vendor("00:1C:B3") == "Apple"
  {
    ThreePartVendor(KnownVendors, "00", "1C", "B3");
    AppleTexts();
    AppleClassified();
  }

  /** The short lower-case parts normalise to the same key as the canonical ones. */
  lemma ShortFormSameKey()
    ensures OuiOf("0", "1c", "b3") == OuiOf("00", "1C", "B3")
  {
    OneDigitPartPadded();
    LowerCasePartUpperCased();
    LowerB3UpperCased();
    AppleOctetsText();
    ParseHex2(0x00);
    ParseHex2(0x1C);
    ParseHex2(0xB3);
  }

  /** "0:1c:b3" is recognised as the same Apple prefix as "00:1C:B3". */
  lemma ShortFormIsApple()
    ensures Vendor("0:1c:b3") == "Apple"
  {
    ThreePartVendor(KnownVendors, "0", "1c", "b3");
    AppleTexts();
    ShortFormSameKey();
    SameKeySameVendor(KnownVendors, ["0", "1c", "b3"], ["00", "1C", "B3"]);
    AppleClassified();
  }

  /** A '\0' after the last part keeps the Apple prefix recognised, as byte.Parse accepts it. */
  lemma TrailingNulStillApple()
    ensures Vendor("00:1C:B3\0") == "Apple"
  {
    ThreePartVendor(KnownVendors, "00", "1C", "B3\0");
    NulAppleText();
    NulPartSameKey();
    SameKeySameVendor(KnownVendors, ["00", "1C", "B3\0"], ["00", "1C", "B3"]);
    AppleClassified();
  }

  lemma NulAppleText()
    ensures "00" + ":" + "1C" + ":" + "B3\0" == "00:1C:B3\0"
  {
    assert "00" + ":" == "00:";
    assert "00:" + "1C" == "00:1C";
    assert "00:1C" + ":" == "00:1C:";
  }

  lemma NulPartSameKey()
    ensures OuiOf("00", "1C", "B3\0") == OuiOf("00", "1C", "B3")
  {
    NulPaddingIgnored("B3");
    assert "B3" + "\0" == "B3\0";
  }
}

=== FILE: wrappers.dfy ===
/** The optional value used wherever the original code returns or stores `null`. */
module Wrappers {

  datatype Option<+T> = None | Some(value: T) {

    /** The carried value, or `default` when there is none (C#'s `??`). */
    function GetOr(default: T): T {
      match this
      case Some(v) => v
      case None => default
    }

    /** `this` if it carries a value, otherwise `other` (C#'s `??` between two nullables). */
    function OrElse(other: Option<T>): Option<T> {
      if Some? then this else other
    }
  }
}
